=== FILE: README.md ===
# Messaging automations and billing webhook of a barbershop platform

This project models, in Dafny, three serverless functions of a multi-tenant scheduling
platform for barbershops:

- **appointment reminders** (`Reminders`, `ReminderProperties`): every few minutes, for
  each tenant with reminders enabled, pick the pending or confirmed appointments that
  start within three minutes of *now + lead time*, group them by unit (branch), and send
  each one a WhatsApp reminder through the unit's Evolution API instance. An
  `automation_logs` row is written for every attempt. A row already there for the
  appointment means it is skipped.
- **marketing automations** (`Marketing`, `MarketingProperties`): at each tenant's send
  time, plus or minus three minutes, a birthday greeting goes to clients whose birth
  date is today, and a "we miss you" rescue message to clients who have not visited for
  a threshold of days. Dedup is through the same log: one birthday message per day, and
  no rescue within thirty days of the last one.
- **billing webhook** (`Billing`, `BillingProperties`): payment-processor events move a
  company's plan status, plan, subscription and trial end. On a first invoice, a
  referral reward is recorded.

Shared pieces:

- `Phone`: the destination address.
- `Pacing`: the humanised delays between messages.
- `Template`: the `{{placeholder}}` replace chain, with a reference renderer it is
  proved equal to.
- `AutomationLog`: the log and its dedup lookups.
- `Channel`: the provider call and the per-run bookkeeping.
- `Strings`, `Seqs` and `Common`: JavaScript string and array operations on Dafny
  sequences. This includes `.maybeSingle()`, which yields a row only when exactly one
  row matches.

Each run is a pure fold over its inputs:

- The database rows the function reads become a `World` value.
- Everything random or external becomes an `Environment`:
  - each pacing draw;
  - each presence-delay draw;
  - each provider reply.
  These are indexed by the attempt number.
- The result is a `RunState`:
  - the log after the run;
  - the `sent` and `skipped` counters;
  - the `results` array;
  - the requests put on the wire, each with the wait that preceded it.

The properties proved, each checked over all inputs:

- **Bookkeeping.** The log is only appended to. Row i describes result i and logs the
  status of the provider's reply to attempt i. `sent` counts the replies the provider
  accepted. There is one request per row, sent to the normalised phone.
- **Dedup invariants.** They are preserved by every layer and compose across runs:
  - at most one reminder row per appointment;
  - at most one birthday row per client since midnight;
  - rescue rows of a client more than thirty days apart.
- **Pacing.** A batch's first message goes out at once. Every later one waits a delay
  from the band for the batch's size: a unit's appointment count for reminders, the
  tenant's reachable clients for marketing.
- **Conservation.** Skipped plus attempted is exactly the number of notifications due
  for the recipients that can be reached.
- **Rendering.** The replace chain renders a well-formed template exactly as the
  reference renderer reads it.
- **Billing.**
  - Each event changes exactly the fields it names, on exactly the rows it selects.
  - A redelivery at the same clock and processor answers changes nothing, except for a
    first invoice. At a later clock it acts as a single delivery then would.
  - A deleted subscription is out of reach of later status events. A later checkout
    attaches it again.
  - The referral conditions hold in both directions.
  - Nothing changes before the signature is verified.

## Model

| member | source | states |
|---|---|---|
| Phone.Normalize | supabase/functions/appointment-reminders/index.ts:275-278 | the address is made of digits only; it is the input's digits, with "55" in front exactly when at most eleven digits remain |
| Phone.NormalizeKeepsDigits | supabase/functions/appointment-reminders/index.ts:275-278 | the input's digits end the address, in their order and all of them, after a prefix of length 0 or 2 |
| Phone.NormalizeIdempotentIff | supabase/functions/marketing-automations/index.ts:345-348 | normalising an address again leaves it unchanged exactly when the input holds at least ten digits; shorter numbers gain another "55" on each pass |
| Phone.NormalizeFormattedMobile | supabase/functions/appointment-reminders/index.ts:275-278 | a mobile number written "(AA) NNNNN-NNNN" becomes "55" followed by its eleven digits |
| Pacing.BandFor | supabase/functions/appointment-reminders/index.ts:12-18 | 3-8 s for batches of at most 3 messages, 8-20 s for at most 10, 15-45 s beyond |
| Pacing.HumanizedDelay | supabase/functions/appointment-reminders/index.ts:9-26 | for every draw in [0, 1) the delay lies in the batch size's band |
| Pacing.DelayCoversBand | supabase/functions/appointment-reminders/index.ts:21-22 | every whole number of milliseconds in the band is the delay of some draw, so the band is exact |
| Pacing.BandMonotone | supabase/functions/appointment-reminders/index.ts:12-18 | a larger batch never gets a lower lower bound or a lower upper bound |
| Pacing.WaitBefore | supabase/functions/appointment-reminders/index.ts:283-288 | no wait before a batch's first send, and a wait from the band before each later one |
| Pacing.PresenceDelay | supabase/functions/appointment-reminders/index.ts:295 | the typing delay sent with a message lies in [1500, 3500) ms |
| Channel.StatusOf | supabase/functions/appointment-reminders/index.ts:312-371 | a reply maps to sent exactly when the provider answers 2xx with a JSON body; a non-2xx reply, an unparsable body or a thrown error maps to failed |
| Channel.ErrorOf | supabase/functions/marketing-automations/index.ts:372-411 | an error text is recorded exactly when the send failed |
| Channel.Record | supabase/functions/marketing-automations/index.ts:372-411 | a send appends one log row, one result and one request, keeps the skip counter, and adds one to the sent counter exactly when the row is sent |
| Channel.Skip | supabase/functions/appointment-reminders/index.ts:230-233 | a dedup hit adds one to the skip counter and changes nothing else |
| AutomationLog.CountAtMostOne | supabase/functions/appointment-reminders/index.ts:223-228 | when no two rows answer the same lookup, at most one row answers it |
| AutomationLog.GuardIsExistence | supabase/functions/appointment-reminders/index.ts:223-230 | under that invariant the `.maybeSingle()` guard fires exactly when some row answers the lookup |
| Seqs.MaybeSingle | supabase/functions/stripe-webhook/index.ts:181-185 | a yielded row is one of the rows and passes the filter |
| Seqs.MaybeSingleIff | supabase/functions/stripe-webhook/index.ts:181-196 | a row is yielded exactly when one position passes the filter, and it is that position's row |
| Strings.DigitsOnlyKeepsEveryDigit | supabase/functions/appointment-reminders/index.ts:239 | stripping non-digits keeps every digit as often as it occurs and nothing else |
| Strings.DigitsOnlyConcat | supabase/functions/appointment-reminders/index.ts:275 | stripping non-digits distributes over concatenation, so the digits keep their order |
| Strings.Lower | supabase/functions/appointment-reminders/index.ts:262 | ASCII case folding, character by character; braces are untouched and letters become lower-case |
| Strings.OrElse | supabase/functions/appointment-reminders/index.ts:258-259 | `x || fallback` on text: a non-empty value is kept, an empty one gives the fallback |
| Strings.Substring | supabase/functions/marketing-automations/index.ts:211 | JavaScript `substring` with in-range ends is the slice between them, and never longer than the text |
| Strings.IntToString | supabase/functions/marketing-automations/index.ts:280 | the decimal rendering of an integer is non-empty and holds no brace |
| Strings.NatToStringRoundTrip | supabase/functions/marketing-automations/index.ts:280 | reading the decimal rendering of a whole number back gives the number |
| Strings.StripLeadingOccurrence | supabase/functions/stripe-webhook/index.ts:187-188 | for text starting with the prefix, replacing its first occurrence by nothing removes exactly the prefix |
| Template.Lookup | supabase/functions/appointment-reminders/index.ts:261-272 | a key is bound exactly when some binding has it, and the value is that of one such binding |
| Template.ReplaceAllSubstitutes | supabase/functions/appointment-reminders/index.ts:262 | one global case-insensitive replace on a well-formed template substitutes exactly the placeholders whose folded spelling is the key and keeps the text well-formed |
| Template.RenderResolves | supabase/functions/appointment-reminders/index.ts:261-272 | the replace chain on a well-formed template equals the reference renderer: each placeholder becomes the value of the first binding for its lower-cased spelling, unknown placeholders stay as written |
| Reminders.LeadMinutes | supabase/functions/appointment-reminders/index.ts:118 | the configured lead, or 30 minutes when the column is null or zero |
| Reminders.ReminderWindow | supabase/functions/appointment-reminders/index.ts:137-141 | a window six minutes wide centred on now plus the lead |
| Reminders.Enabled | supabase/functions/appointment-reminders/index.ts:93-96 | exactly the settings rows with reminders enabled |
| Reminders.Candidates | supabase/functions/appointment-reminders/index.ts:145-152 | exactly the tenant's pending or confirmed appointments starting inside the window |
| Reminders.WithPhone | supabase/functions/appointment-reminders/index.ts:168-172 | exactly the selected appointments that have a phone |
| Reminders.UnitOrder | supabase/functions/appointment-reminders/index.ts:166-180 | each unit once, and exactly the units of the grouped appointments |
| Reminders.Group | supabase/functions/appointment-reminders/index.ts:173-176 | a unit's group is exactly the appointments of that unit |
| Reminders.ReminderSender | supabase/functions/appointment-reminders/index.ts:182-196 | a unit takes part exactly when it exists and both credentials are set and non-empty, and then sends with them |
| Reminders.NameOr | supabase/functions/appointment-reminders/index.ts:214-215 | the mapped name when present and non-empty, the fallback otherwise |
| Reminders.ClientIdFor | supabase/functions/appointment-reminders/index.ts:236-251 | a client id is linked exactly when one client of the tenant and unit has the phone as digits or as written, and it is that client's id |
| Reminders.ProcessAppointment | supabase/functions/appointment-reminders/index.ts:221-234 | an appointment whose reminder is logged is skipped and nothing else changes; otherwise exactly one log row is added and the batch index advances |
| Reminders.Attempt | supabase/functions/appointment-reminders/index.ts:236-371 | an attempt appends exactly one log row, one result and one request for the appointment; the row logs the status and error of the attempt's reply and the looked-up client id; the request goes with the unit's credentials to the normalised phone with the rendered reminder; sent grows by one exactly when the row is sent |
| ReminderProperties.AttemptKeepsGood | supabase/functions/appointment-reminders/index.ts:312-371 | an attempt for an unlogged appointment keeps the log append-only, row i describing result i, sent counting the sent results, and one reminder row per appointment |
| ReminderProperties.ProcessBatchKeepsGood | supabase/functions/appointment-reminders/index.ts:221-373 | a unit's batch keeps that invariant |
| ReminderProperties.ProcessUnitsKeepsGood | supabase/functions/appointment-reminders/index.ts:180-374 | the walk over a tenant's units keeps that invariant |
| ReminderProperties.ProcessTenantsKeepsGood | supabase/functions/appointment-reminders/index.ts:117-375 | the walk over the tenants keeps that invariant |
| ReminderProperties.RunIsGood | supabase/functions/appointment-reminders/index.ts:79-387 | a run on a log with one reminder row per appointment keeps it so, only appends, one row per result in order, row i with the status and error of reply i, and `sent` counts the sent results |
| ReminderProperties.RunSentCountsAccepted | supabase/functions/appointment-reminders/index.ts:312-385 | the summary's sent is the number of attempts the provider accepted with a 2xx JSON reply, and a result is sent exactly for those |
| ReminderProperties.TwoRunsOneRowEach | supabase/functions/appointment-reminders/index.ts:222-234 | after two runs, one after the other, no appointment has two reminder rows |
| ReminderProperties.LoggedAppointmentNotRemindedAgain | supabase/functions/appointment-reminders/index.ts:222-234 | an appointment already reminded gets no new row and no result in a later run |
| ReminderProperties.AppointmentPacing | supabase/functions/appointment-reminders/index.ts:282-288 | an appointment step adds at most one request, waited as its position in the batch says, and advances the index by the requests added |
| ReminderProperties.BatchPacing | supabase/functions/appointment-reminders/index.ts:217-288 | the batch's n-th request waits as position index + n and carries the unit's credentials, and the index ends advanced by the attempts |
| ReminderProperties.UnitsPacing | supabase/functions/appointment-reminders/index.ts:179-290 | the units append their requests in turn; within each unit that can send, the first goes out at once, every later one waits a delay from the band of that unit's appointment count, all with its credentials |
| ReminderProperties.TenantPacing | supabase/functions/appointment-reminders/index.ts:117-290 | a tenant's requests are paced unit by unit, each by the band of its own number of in-window appointments with a phone; a tenant without a company sends nothing |
| ReminderProperties.UnitBatchPacing | supabase/functions/appointment-reminders/index.ts:218-288 | in a unit's batch the first request goes out without a wait and every later one waits a delay from the band of the batch size |
| ReminderProperties.BatchConservation | supabase/functions/appointment-reminders/index.ts:221-234 | every appointment of a batch is skipped or attempted, exactly once |
| ReminderProperties.ProcessUnitsConservation | supabase/functions/appointment-reminders/index.ts:180-196 | the units together skip or attempt exactly the appointments their credentialed units take on |
| ReminderProperties.HandledIsReachable | supabase/functions/appointment-reminders/index.ts:166-196 | walking distinct units that cover every appointment counts each appointment of a unit able to send exactly once |
| ReminderProperties.TenantConservation | supabase/functions/appointment-reminders/index.ts:117-234 | for a tenant with a company, skipped plus attempted is exactly the in-window appointments with a phone whose unit can send; for one without, nothing |
| ReminderProperties.InWindowIff | supabase/functions/appointment-reminders/index.ts:137-152 | an appointment is selected exactly when it is the tenant's, pending or confirmed, and starts within three minutes, inclusive, of now plus the lead |
| ReminderProperties.DefaultLeadWindow | supabase/functions/appointment-reminders/index.ts:118-141 | with no lead configured the job looks 27 to 33 minutes ahead |
| ReminderProperties.BindingsAreVocabulary | supabase/functions/appointment-reminders/index.ts:261-272 | the eleven bindings are lower-case placeholders bound to values without braces |
| ReminderProperties.LookupBindings | supabase/functions/appointment-reminders/index.ts:261-272 | each of the eleven spellings resolves to its value, synonyms alike, and any other spelling is unbound |
| ReminderProperties.ReminderMessageResolves | supabase/functions/appointment-reminders/index.ts:258-272 | a tenant's own template is rendered as the reference renderer reads it |
| ReminderProperties.DefaultPiecesWellFormed | supabase/functions/appointment-reminders/index.ts:258-259 | the default template reads as four placeholders in plain text |
| ReminderProperties.DefaultReminderText | supabase/functions/appointment-reminders/index.ts:253-272 | without a template the message is the default text with the client's name or "Cliente", the time, the professional or "Profissional" and the service or "Serviço" |
| Marketing.Selected | supabase/functions/marketing-automations/index.ts:101-104 | exactly the settings rows with at least one of the two automations enabled |
| Marketing.Audience | supabase/functions/marketing-automations/index.ts:159-164 | exactly the tenant's clients whose opt-out flag is null or false |
| Marketing.SendingUnits | supabase/functions/marketing-automations/index.ts:178-184 | exactly the tenant's units with both credential columns non-null |
| Marketing.FindUnit | supabase/functions/marketing-automations/index.ts:191-203 | a unit is found exactly when some unit has the id, and it has that id |
| Marketing.RescueDays | supabase/functions/marketing-automations/index.ts:255 | the configured threshold, or 30 days when it is null or zero |
| Marketing.Send | supabase/functions/marketing-automations/index.ts:325-413 | a send appends exactly one log row, one result and one request for the client; the row logs the kind, the client, the clock and the status and error of the attempt's reply; the request goes with the unit's credentials to the normalised phone with the given text; sent grows by one exactly when the row is sent |
| Marketing.BirthdayStep | supabase/functions/marketing-automations/index.ts:213-249 | a client with a birthday row since midnight is skipped and nothing else changes; otherwise the index advances and exactly one birthday row, one result and one request are added |
| Marketing.RescueStep | supabase/functions/marketing-automations/index.ts:259-298 | a client with a rescue row in the last thirty days is skipped and nothing else changes; otherwise the index advances and exactly one rescue row, one result and one request are added |
| MarketingProperties.RescueWindowAtMostOne | supabase/functions/marketing-automations/index.ts:260-269 | when rescue rows are spaced and none is in the future, at most one falls in the last thirty days, so the `.maybeSingle()` guard sees it |
| MarketingProperties.SendKeepsGood | supabase/functions/marketing-automations/index.ts:325-413 | a send for a member client past its dedup check keeps the bookkeeping, one birthday row per client since midnight, and spaced rescue rows |
| MarketingProperties.BirthdayStepKeepsGood | supabase/functions/marketing-automations/index.ts:209-251 | the birthday step keeps that invariant |
| MarketingProperties.RescueStepKeepsGood | supabase/functions/marketing-automations/index.ts:253-300 | the rescue step keeps that invariant |
| MarketingProperties.ProcessClientKeepsGood | supabase/functions/marketing-automations/index.ts:200-301 | a client's two steps keep that invariant |
| MarketingProperties.ProcessClientsKeepsGood | supabase/functions/marketing-automations/index.ts:200-301 | the walk over a tenant's clients keeps that invariant |
| MarketingProperties.ProcessTenantKeepsGood | supabase/functions/marketing-automations/index.ts:125-197 | a tenant, served or passed over, keeps that invariant |
| MarketingProperties.ProcessTenantsKeepsGood | supabase/functions/marketing-automations/index.ts:125-302 | the walk over the tenants keeps that invariant |
| MarketingProperties.RunIsGood | supabase/functions/marketing-automations/index.ts:74-314 | a run keeps one birthday row per client since midnight, rescue rows more than thirty days apart and no row after now, only appends, every row is about a client of the tenant with a phone and without opt-out, and row i logs the status and error of reply i |
| MarketingProperties.RunSentCountsAccepted | supabase/functions/marketing-automations/index.ts:233-309 | the summary's sent is the number of messages the provider accepted with a 2xx JSON reply, and a result is sent exactly for those |
| MarketingProperties.LaterRunKeepsInvariants | supabase/functions/marketing-automations/index.ts:213-273 | a second run later the same day still finds one birthday row per client and spaced rescue rows |
| MarketingProperties.SendPacing | supabase/functions/marketing-automations/index.ts:336-342 | a send adds one request, waited as its position says, and advances the index by one |
| MarketingProperties.ProcessClientsPacing | supabase/functions/marketing-automations/index.ts:197-342 | within a tenant the n-th message counted from the index waits as position index + n, whichever client and automation it is for |
| MarketingProperties.TenantPacing | supabase/functions/marketing-automations/index.ts:194-197 | a served tenant's first message waits nothing and every later one waits a delay from the band of the number of reachable clients |
| MarketingProperties.ProcessClientConservation | supabase/functions/marketing-automations/index.ts:200-300 | a client is skipped or messaged once for each automation due |
| MarketingProperties.ProcessClientsConservation | supabase/functions/marketing-automations/index.ts:200-301 | skipped plus messaged is exactly the number of automations due for the clients walked |
| MarketingProperties.BothAutomations | supabase/functions/marketing-automations/index.ts:209-300 | a reachable client due both automations with neither logged gets two messages, the birthday one first |
| MarketingProperties.BirthDateMonthDay | supabase/functions/marketing-automations/index.ts:211 | a stored `YYYY-MM-DD` birth date is compared on its `MM-DD` |
| MarketingProperties.RescueDueIff | supabase/functions/marketing-automations/index.ts:254-259 | a rescue is due exactly when enabled, the client has a visit, and at least the threshold in whole days has passed |
| MarketingProperties.DefaultSendWindow | supabase/functions/marketing-automations/index.ts:126-139 | with no send time configured a tenant is served from 09:57 to 10:03 |
| MarketingProperties.GateDoesNotWrap | supabase/functions/marketing-automations/index.ts:131-139 | the gate does not wrap at midnight: a tenant set for 00:00 is not served at 23:59 |
| MarketingProperties.BirthdayMessageResolves | supabase/functions/marketing-automations/index.ts:229-231 | a tenant's birthday template is rendered as the reference renderer reads it, with both name spellings bound to the name |
| MarketingProperties.RescueMessageResolves | supabase/functions/marketing-automations/index.ts:277-280 | a tenant's rescue template is rendered as the reference renderer reads it, with the name and the whole days since the visit |
| MarketingProperties.DefaultBirthdayText | supabase/functions/marketing-automations/index.ts:229-231 | without a template the birthday message greets the client by name |
| MarketingProperties.DefaultRescueText | supabase/functions/marketing-automations/index.ts:277-280 | without a template the rescue message greets the client by name and invites a visit |
| Billing.MapSubscriptionStatus | supabase/functions/stripe-webhook/index.ts:124-127 | trial exactly for trialing, overdue exactly for past_due, cancelled exactly for canceled or unpaid; every other status is active |
| BillingProperties.MappingMatchesTable | supabase/functions/stripe-webhook/index.ts:124-127 | the chain of overrides agrees with the status table on every status |
| Billing.TrialEndsAt | supabase/functions/stripe-webhook/index.ts:118-120 | a trial end is set exactly when the subscription has a non-zero one, and it is that end in milliseconds |
| BillingProperties.CheckoutEffect | supabase/functions/stripe-webhook/index.ts:80-103 | a checkout with a company and a subscription fails when the subscription cannot be retrieved; otherwise it sets exactly that company's status, plan (or the default), subscription and trial end in milliseconds (null without one) |
| BillingProperties.SubscriptionChangedEffect | supabase/functions/stripe-webhook/index.ts:114-142 | an update sets the mapped status on exactly the subscription's companies, and the trial end only when trialing with one |
| BillingProperties.PaidEffect | supabase/functions/stripe-webhook/index.ts:152-177 | an invoice activates exactly the subscription's companies; only a first invoice can touch the referrals |
| BillingProperties.FailedEffect | supabase/functions/stripe-webhook/index.ts:257-270 | a failed payment makes exactly the subscription's companies overdue |
| BillingProperties.DeletedEffect | supabase/functions/stripe-webhook/index.ts:281-294 | a deletion cancels the subscription's companies and no company holds the subscription afterwards |
| BillingProperties.LaterRedelivery | supabase/functions/stripe-webhook/index.ts:71-317 | an event other than a first invoice delivered again at a later clock and processor answers leaves the tables as one delivery then would; a repeated deletion changes nothing |
| BillingProperties.RedeliveryChangesNothing | supabase/functions/stripe-webhook/index.ts:71-317 | delivering any event but a first invoice twice at the same clock and processor answers leaves the tables as one delivery does |
| BillingProperties.FirstInvoiceRewardsEachDelivery | supabase/functions/stripe-webhook/index.ts:176-207 | each delivery of a first invoice with a referral appends another referral row |
| BillingProperties.DeletedIsFinal | supabase/functions/stripe-webhook/index.ts:281-294 | after a deletion, later status events for that subscription change nothing |
| Billing.ReferralFor | supabase/functions/stripe-webhook/index.ts:176-198 | a referral pairs the one company holding the subscription, whose signup source starts with "ref:", with a different company whose code is the rest |
| BillingProperties.ReferralEligibility | supabase/functions/stripe-webhook/index.ts:176-198 | a referral is found exactly when the two rows exist, each the only match of its query, and it pairs exactly those rows |
| BillingProperties.ReferralSurvivesActivation | supabase/functions/stripe-webhook/index.ts:158-198 | activating the companies first does not change whether the referral is found |
| Billing.CompleteReferrals | supabase/functions/stripe-webhook/index.ts:237-243 | every referral row of the referred company is completed at now, the others unchanged |
| BillingProperties.RewardEffect | supabase/functions/stripe-webhook/index.ts:198-248 | a reward appends one row naming both companies; when the coupons go through it and every earlier row of the referred company are completed at now and all other rows are kept; when they throw the new row is pending with no completion time and the earlier rows are kept; no referral, no change |
| Billing.Apply | supabase/functions/stripe-webhook/index.ts:71-317 | only a checkout can fail; every other event has an effect |
| Billing.HandleWebhook | supabase/functions/stripe-webhook/index.ts:15-331 | a missing key or secret answers 500, a missing signature 400; any non-200 answer changes nothing; a 200 acknowledgement carries the effect of a verified event |
| BillingProperties.UnverifiedChangesNothing | supabase/functions/stripe-webhook/index.ts:16-67 | a preflight, a missing secret or signature, or a signature that fails changes nothing, and all but the preflight answer 400 or 500 |
| BillingProperties.VerifiedDelivery | supabase/functions/stripe-webhook/index.ts:58-331 | a verified event is acknowledged 200 with its effect, or answered 500 with no change when handling it throws |

## Left out

- I/O is not modelled: HTTP, the database client, `sleep`, logging and CORS headers.
  - Queries and updates are computed on sequences.
  - Database errors on reads or inserts are not modelled. The source only logs them,
    or ends the tenant's iteration, and the model takes every query to succeed.
  - The 500 a thrown settings query yields is not modelled.
- Clocks are simplified. The source calls `new Date()` again for each tenant and for
  each log row. The model takes one `now` per run for the window, the log rows and the
  update times.
- The marketing Brasília-time conversion and `todayMMDD`/`today` are not computed: they
  are given as the `Clock` fields `hour`, `minute`, `todayMonthDay` and `todayStart`.
  The timezone arithmetic depends on the host's offset.
- Date and time formatting for `{{data}}` and `{{horario}}` (`toLocaleDateString`,
  `toLocaleTimeString` in pt-BR) is not computed: it is the `World` functions
  `dateText` and `timeText`.
- `Math.random()` is modelled as a real draw in [0, 1). Floating-point rounding of
  `floor(lo + (hi - lo) * u)` is not modelled.
- Concurrency between two overlapping invocations is not modelled.
  - The dedup invariants are proved for runs one after the other.
  - Interleaved check-then-insert races are outside the model.
- `Template.ReplaceAll`: the replacement value is inserted literally. The `$`
  patterns of JavaScript `String.prototype.replace` are not interpreted. The
  equivalence with the reference renderer additionally assumes values without `{`.
- Letter case in `/i` regular expressions is ASCII folding. Non-ASCII case mappings do
  not arise for the ASCII placeholder spellings.
- The marketing job's `client.name` is taken to be non-null. The source calls
  `.replace(..., client.name)` with it as it is.
- Units in the reminder job are a map from id to row (`.single()` on the id). The
  barber and service names are maps from id to name. The `.in` queries that fetch only
  the needed ids are not modelled, since they do not change which name is found.
- `Object.entries` order of the unit groups is taken as first-appearance order. Keys
  that look like array indices would be visited first in JavaScript. Unit ids are UUIDs.
- PostgREST filter strings (`.or("phone.eq.…")`) are modelled by their meaning:
  - for the client-id lookup, the phone equals the digits or the raw text;
  - for the settings and client queries, the boolean conditions.
  A phone containing `,` or `)` would change how the filter string parses; that is not
  modelled.
- Billing: the processor SDK is modelled as follows.
  - `stripe.subscriptions.retrieve` is the `retrieve` oracle. When it fails, the
    handler throws and answers 500.
  - Coupon creation and application are one `couponsOk` flag. On failure the referral
    row stays pending.
  - `constructEvent` is the `construct` oracle.
  - Which coupon is applied to which subscription is not modelled.
- Billing: the result of the referral row insert is ignored by the source and assumed
  to succeed. A failed `.update` is only logged by the source, and the model takes
  every update to succeed.
- Billing: `customer.subscription.trial_will_end` and unknown event types only log,
  and are modelled as changing nothing.
- `ReminderProperties.RunSentCountsAccepted`: stated for a log with at most one
  reminder row per appointment. Every run leaves the log that way
  (`TwoRunsOneRowEach`), and the empty log starts that way.
- `MarketingProperties.RunSentCountsAccepted`: stated for a log that already keeps the
  birthday and rescue invariants with no row after the clock. Every run leaves the log
  that way (`LaterRunKeepsInvariants`).
- `Template.RenderResolves`: the equivalence holds for well-formed templates only. Their
  plain text holds no `{`, and every placeholder is `{{` letters `}}`. A template
  such as "Promo {50%} {{nome}}" is outside the proof.
- `BillingProperties.RedeliveryChangesNothing`: a redelivery at a later clock moves
  `updated_at`, and the processor may answer differently. `LaterRedelivery` states
  that case.
- `BillingProperties.FirstInvoiceRewardsEachDelivery`: this records the source's
  behaviour rather than a guarantee. A redelivered first invoice appends another
  referral row, because the source has no guard against it.

=== FILE: automation_log.dfy ===
/**
 * The `automation_logs` table: an append-only record of every attempted send, and the
 * only source of truth the jobs consult to avoid sending a notification twice.
 */
module AutomationLog {
  import opened Common

  datatype AutomationType = AppointmentReminder | Birthday | Rescue

  datatype LogStatus = Sent | Failed

  datatype LogRow = LogRow(
    companyId: string,
    clientId: Option<string>,
    appointmentId: Option<string>,
    kind: AutomationType,
    status: LogStatus,
    error: Option<string>,
    sentAt: int)

  /** The dedup lookups the jobs make before a send. */
  datatype Query =
    | ForAppointment(appointmentId: string)
      // appointment_id = id and automation_type = 'appointment_reminder'
    | ForClientSince(clientId: string, kind: AutomationType, since: int)
      // client_id = id and automation_type = kind and sent_at >= since

  /** Whatever its status, a row answers the lookup when its keys agree. */
  predicate Matches(row: LogRow, q: Query)
  {
    match q
    case ForAppointment(a) => row.appointmentId == Some(a) && row.kind == AppointmentReminder
    case ForClientSince(c, k, since) => row.clientId == Some(c) && row.kind == k && row.sentAt >= since
  }

  /** The number of rows answering `q`. */
  function Count(log: seq<LogRow>, q: Query): nat
    decreases |log|
  {
    if |log| == 0 then 0
    else Count(log[..|log| - 1], q) + (if Matches(log[|log| - 1], q) then 1 else 0)
  }

  /** The lookup ends in `.maybeSingle()`, which yields a row only when exactly one row
      answers: with none it yields nothing, and with two or more it reports an error and
      yields nothing as well. The jobs skip a recipient only when a row is yielded. */
  predicate AlreadyLogged(log: seq<LogRow>, q: Query)
  {
    Count(log, q) == 1
  }

  lemma CountAppendRow(log: seq<LogRow>, row: LogRow, q: Query)
    ensures Count(log + [row], q) == Count(log, q) + (if Matches(row, q) then 1 else 0)
  {
    assert (log + [row])[..|log|] == log;
  }

  /** No row answers exactly when the count is zero. */
  lemma {:induction false} CountZeroIff(log: seq<LogRow>, q: Query)
    ensures Count(log, q) == 0 <==> forall i :: 0 <= i < |log| ==> !Matches(log[i], q)
    decreases |log|
  {
    if |log| > 0 {
      var init := log[..|log| - 1];
      CountZeroIff(init, q);
      assert forall i :: 0 <= i < |init| ==> init[i] == log[i];
    }
  }

  /** When no two rows answer the same lookup, the count is at most one. */
  lemma {:induction false} CountAtMostOne(log: seq<LogRow>, q: Query)
    requires forall i, j :: 0 <= i < j < |log| && Matches(log[i], q) ==> !Matches(log[j], q)
    ensures Count(log, q) <= 1
    decreases |log|
  {
    if |log| > 0 {
      var init := log[..|log| - 1];
      assert forall i :: 0 <= i < |init| ==> init[i] == log[i];
      CountAtMostOne(init, q);
      if Matches(log[|log| - 1], q) {
        CountZeroIff(init, q);
      }
    }
  }

  /** Under an at-most-one-row invariant, `.maybeSingle()` behaves like an existence test:
      the recipient is skipped exactly when some row, sent or failed, answers. */
  lemma GuardIsExistence(log: seq<LogRow>, q: Query)
    requires Count(log, q) <= 1
    ensures AlreadyLogged(log, q) <==> exists i :: 0 <= i < |log| && Matches(log[i], q)
  {
    CountZeroIff(log, q);
  }

  /** Appending rows that do not answer a lookup leaves its count unchanged. */
  lemma {:induction false} CountAppendUnrelated(log: seq<LogRow>, rows: seq<LogRow>, q: Query)
    requires forall i :: 0 <= i < |rows| ==> !Matches(rows[i], q)
    ensures Count(log + rows, q) == Count(log, q)
    decreases |rows|
  {
    if |rows| > 0 {
      var init := rows[..|rows| - 1];
      assert log + rows == (log + init) + [rows[|rows| - 1]];
      CountAppendRow(log + init, rows[|rows| - 1], q);
      CountAppendUnrelated(log, init, q);
    } else {
      assert log + rows == log;
    }
  }

  /** The count over a concatenation is the sum of the counts. */
  lemma {:induction false} CountConcat(a: seq<LogRow>, b: seq<LogRow>, q: Query)
    ensures Count(a + b, q) == Count(a, q) + Count(b, q)
    decreases |b|
  {
    if |b| == 0 {
      assert a + b == a;
    } else {
      var init := b[..|b| - 1];
      assert a + b == (a + init) + [b[|b| - 1]];
      assert b == init + [b[|b| - 1]];
      CountAppendRow(a + init, b[|b| - 1], q);
      CountAppendRow(init, b[|b| - 1], q);
      CountConcat(a, init, q);
    }
  }
}

=== FILE: billing.dfy ===
/**
 * The billing webhook: how payment-processor events move a company's `plan_status`,
 * `plan_type`, `stripe_subscription_id` and `trial_ends_at`, and the referral reward on
 * a first invoice. The processor's SDK (retrieving a subscription, creating and applying
 * coupons, checking the signature) is a parameter; the tables are sequences.
 */
module Billing {
  import opened Common
  import opened Seqs
  import opened Strings

  const DefaultPlan: string := "profissional"
  const ReferralPrefix: string := "ref:"
  const FirstInvoice: string := "subscription_create"

  datatype PlanStatus = Trial | Active | Overdue | Cancelled | Unlisted(name: string)

  /** A `companies` row. A null `signup_source` is "". */
  datatype Company = Company(
    id: string,
    planStatus: PlanStatus,
    planType: string,
    subscriptionId: Option<string>,
    trialEndsAt: Option<int>,
    updatedAt: int,
    signupSource: string,
    referralCode: Option<string>)

  datatype ReferralStatus = Pending | Completed

  /** A `referrals` row. */
  datatype Referral = Referral(referrer: string, referred: string, status: ReferralStatus, completedAt: Option<int>)

  datatype Db = Db(companies: seq<Company>, referrals: seq<Referral>)

  /** A subscription as the processor describes it; `trialEnd` in seconds. */
  datatype Subscription = Subscription(id: string, status: string, trialEnd: Option<int>)

  /** The events the webhook knows, with the fields it reads. A missing metadata value or
      subscription id is "". */
  datatype Event =
    | CheckoutCompleted(companyId: string, plan: string, subscriptionId: string)
    | SubscriptionUpdated(subscription: Subscription)
    | InvoicePaid(subscriptionId: string, billingReason: string)
    | PaymentFailed(subscriptionId: string)
    | SubscriptionDeleted(subscription: Subscription)
    | TrialWillEnd(subscription: Subscription)
    | Unhandled(eventType: string)

  /** The processor and the clock: `retrieve` gives a subscription or fails (throws),
      `couponsOk` says whether creating and applying the referral coupons succeed. */
  datatype Env = Env(now: int, retrieve: string -> Option<Subscription>, couponsOk: bool)

  // ---------------------------------------------------------------------------------
  // The mapping.

  /** The statuses with a plan status of their own; every other one means active. */
  const StatusTable: map<string, PlanStatus> :=
    map["trialing" := Trial, "past_due" := Overdue, "canceled" := Cancelled, "unpaid" := Cancelled]

  /** The subscription status as a plan status, by successive overrides of "active". */
  function MapSubscriptionStatus(status: string): (r: PlanStatus)
    ensures r == Trial <==> status == "trialing"
    ensures r == Overdue <==> status == "past_due"
    ensures r == Cancelled <==> status == "canceled" || status == "unpaid"
    ensures r.Unlisted? == false
  {
    var p := Active;
    var p := if status == "trialing" then Trial else p;
    var p := if status == "past_due" then Overdue else p;
    if status == "canceled" || status == "unpaid" then Cancelled else p
  }

  /** `trial_end` as a timestamp in milliseconds; absent, or 0 (falsy), gives null. */
  function TrialEndsAt(s: Subscription): (r: Option<int>)
    ensures r.Some? <==> s.trialEnd.Some? && s.trialEnd.value != 0
    ensures r.Some? ==> r.value == s.trialEnd.value * 1000
  {
    if s.trialEnd.Some? && s.trialEnd.value != 0 then Some(s.trialEnd.value * 1000) else None
  }

  // ---------------------------------------------------------------------------------
  // The updates.

  /** `.update(f).eq(...)`: every row satisfying `p` becomes `f` of it; the others stay. */
  function UpdateWhere(cs: seq<Company>, p: Company -> bool, f: Company -> Company): (r: seq<Company>)
    ensures |r| == |cs|
    ensures forall i :: 0 <= i < |cs| ==> r[i] == if p(cs[i]) then f(cs[i]) else cs[i]
  {
    seq(|cs|, i requires 0 <= i < |cs| => if p(cs[i]) then f(cs[i]) else cs[i])
  }

  function HasSubscription(sid: string): Company -> bool
  {
    (c: Company) => c.subscriptionId == Some(sid)
  }

  function HasCode(code: string): Company -> bool
  {
    (c: Company) => c.referralCode == Some(code)
  }

  /** The rows holding subscription `sid` get `status`. */
  function SetStatus(cs: seq<Company>, sid: string, status: PlanStatus, now: int): seq<Company>
  {
    UpdateWhere(cs, HasSubscription(sid), (c: Company) => c.(planStatus := status, updatedAt := now))
  }

  /** `checkout.session.completed`: with a company and a subscription, the company takes
      the subscription, trial or active by the subscription's status, the metadata plan
      or the default one, and the trial end (null when there is none). None when the
      subscription cannot be retrieved. */
  function Checkout(db: Db, env: Env, companyId: string, plan: string, sid: string): (r: Option<Db>)
    ensures companyId == "" || sid == "" ==> r == Some(db)
    ensures r.Some? ==> r.value.referrals == db.referrals && |r.value.companies| == |db.companies|
  {
    if companyId != "" && sid != "" then
      match env.retrieve(sid)
      case None => None
      case Some(sub) =>
        var status := if sub.status == "trialing" then Trial else Active;
        Some(db.(companies := UpdateWhere(db.companies, (c: Company) => c.id == companyId,
          (c: Company) => c.(planStatus := status, planType := OrElse(plan, DefaultPlan),
                             subscriptionId := Some(sid), trialEndsAt := TrialEndsAt(sub), updatedAt := env.now))))
    else Some(db)
  }

  /** `customer.subscription.updated`: the mapped status; the trial end only when trialing
      with a trial end, kept otherwise. */
  function SubscriptionChanged(db: Db, env: Env, sub: Subscription): (r: Db)
    ensures r.referrals == db.referrals && |r.companies| == |db.companies|
  {
    var trial := TrialEndsAt(sub);
    db.(companies := UpdateWhere(db.companies, HasSubscription(sub.id),
      (c: Company) => c.(planStatus := MapSubscriptionStatus(sub.status),
                         trialEndsAt := if sub.status == "trialing" && trial.Some? then trial else c.trialEndsAt,
                         updatedAt := env.now)))
  }

  /** The referrer and the referred company of a first invoice for `sid`: the one company
      holding the subscription, whose signup source starts with the prefix, and the one
      other company whose referral code is the rest of it. */
  function ReferralFor(cs: seq<Company>, sid: string): (r: Option<(Company, Company)>)
    ensures r.Some? ==> var (referrer, referred) := r.value;
      && referrer in cs && referred in cs
      && referred.subscriptionId == Some(sid)
      && StartsWith(referred.signupSource, ReferralPrefix)
      && referrer.referralCode == Some(referred.signupSource[|ReferralPrefix|..])
      && referrer.id != referred.id
  {
    match MaybeSingle(cs, HasSubscription(sid))
    case None => None
    case Some(referred) =>
      if StartsWith(referred.signupSource, ReferralPrefix) then
        var code := ReplaceFirst(referred.signupSource, ReferralPrefix, "");
        StripLeadingOccurrence(referred.signupSource, ReferralPrefix);
        match MaybeSingle(cs, HasCode(code))
        case None => None
        case Some(referrer) => if referrer.id != referred.id then Some((referrer, referred)) else None
      else None
  }

  /** Marks every referral of `referred` completed at `now`. */
  function CompleteReferrals(rs: seq<Referral>, referred: string, now: int): (r: seq<Referral>)
    ensures |r| == |rs|
    ensures forall i :: 0 <= i < |rs| ==> r[i] == if rs[i].referred == referred then rs[i].(status := Completed, completedAt := Some(now)) else rs[i]
  {
    seq(|rs|, i requires 0 <= i < |rs| => if rs[i].referred == referred then rs[i].(status := Completed, completedAt := Some(now)) else rs[i])
  }

  /** The referral reward: a pending row, then, when the coupons go through, every row of
      the referred company completed. A coupon failure is caught and leaves the row
      pending. */
  function Reward(db: Db, env: Env, sid: string): Db
  {
    match ReferralFor(db.companies, sid)
    case None => db
    case Some((referrer, referred)) =>
      var rs := db.referrals + [Referral(referrer.id, referred.id, Pending, None)];
      if env.couponsOk then db.(referrals := CompleteReferrals(rs, referred.id, env.now)) else db.(referrals := rs)
  }

  /** `invoice.paid`: with a subscription, its companies become active; on the first
      invoice the referral reward follows. */
  function Paid(db: Db, env: Env, sid: string, reason: string): Db
  {
    if sid == "" then db
    else
      var db1 := db.(companies := SetStatus(db.companies, sid, Active, env.now));
      if reason == FirstInvoice then Reward(db1, env, sid) else db1
  }

  /** `invoice.payment_failed`: with a subscription, its companies become overdue. */
  function Failed(db: Db, env: Env, sid: string): Db
  {
    if sid == "" then db else db.(companies := SetStatus(db.companies, sid, Overdue, env.now))
  }

  /** `customer.subscription.deleted`: its companies are cancelled and lose it. */
  function Deleted(db: Db, env: Env, sid: string): Db
  {
    db.(companies := UpdateWhere(db.companies, HasSubscription(sid),
      (c: Company) => c.(planStatus := Cancelled, subscriptionId := None, updatedAt := env.now)))
  }

  /** The effect of a verified event; None when handling it throws. */
  function Apply(db: Db, env: Env, e: Event): (r: Option<Db>)
    ensures !e.CheckoutCompleted? ==> r.Some?
  {
    match e
    case CheckoutCompleted(companyId, plan, sid) => Checkout(db, env, companyId, plan, sid)
    case SubscriptionUpdated(sub) => Some(SubscriptionChanged(db, env, sub))
    case InvoicePaid(sid, reason) => Some(Paid(db, env, sid, reason))
    case PaymentFailed(sid) => Some(Failed(db, env, sid))
    case SubscriptionDeleted(sub) => Some(Deleted(db, env, sub.id))
    case TrialWillEnd(_) => Some(db)
    case Unhandled(_) => Some(db)
  }

  // ---------------------------------------------------------------------------------
  // The request.

  /** The deployment's secrets; an unset one is "". */
  datatype Config = Config(stripeKey: string, webhookSecret: string)

  /** A request: its HTTP method, body and `stripe-signature` header ("" when absent). */
  datatype Request = Request(verb: string, body: string, signature: string)

  datatype Reply = Preflight | Received | Failure(message: string)

  datatype Response = Response(status: int, reply: Reply, db: Db)

  /** The handler. `construct` is the processor's signature check: the event the body
      carries when the signature matches the secret, None when it does not. */
  function HandleWebhook(cfg: Config, env: Env, construct: (string, string, string) -> Option<Event>,
                         req: Request, db: Db): (r: Response)
    ensures req.verb != "OPTIONS" && cfg.stripeKey == "" ==> r.status == 500
    ensures req.verb != "OPTIONS" && cfg.stripeKey != "" && cfg.webhookSecret == "" ==> r.status == 500
    ensures req.verb != "OPTIONS" && cfg.stripeKey != "" && cfg.webhookSecret != "" && req.signature == "" ==> r.status == 400
    ensures r.status != 200 ==> r.db == db
    ensures r.status == 200 && r.reply == Received ==>
      exists e :: construct(req.body, req.signature, cfg.webhookSecret) == Some(e) && Apply(db, env, e) == Some(r.db)
  {
    if req.verb == "OPTIONS" then Response(200, Preflight, db)
    else if cfg.stripeKey == "" then Response(500, Failure("Erro ao processar webhook."), db)
    else if cfg.webhookSecret == "" then Response(500, Failure("Webhook secret not configured"), db)
    else if req.signature == "" then Response(400, Failure("Missing stripe-signature header"), db)
    else
      match construct(req.body, req.signature, cfg.webhookSecret)
      case None => Response(400, Failure("Webhook signature verification failed"), db)
      case Some(e) =>
        match Apply(db, env, e)
        case None => Response(500, Failure("Erro ao processar webhook."), db)
        case Some(db') => Response(200, Received, db')
  }
}

=== FILE: billing_properties.dfy ===
/**
 * What the billing webhook guarantees, proved about the model in `Billing`: the status
 * mapping agrees with its table; each event changes exactly the fields it names on
 * exactly the rows it selects; redelivering an event changes nothing more, except a
 * first invoice, which rewards again; a deleted subscription is out of reach of later
 * events; the referral conditions hold both ways; nothing changes before the signature
 * is checked.
 */
module BillingProperties {
  import opened Common
  import opened Seqs
  import opened Strings
  import opened Billing

  // ---------------------------------------------------------------------------------
  // The mapping.

  /** The chain of overrides and the table agree on every status. */
  lemma MappingMatchesTable(status: string)
    ensures MapSubscriptionStatus(status) == if status in StatusTable then StatusTable[status] else Active
  {
  }

  // ---------------------------------------------------------------------------------
  // Exactly the named fields of exactly the selected rows.

  /** `c2` is `c1` with at most the plan status, the trial end and the update time changed. */
  predicate StatusFrame(c1: Company, c2: Company)
  {
    c2.(planStatus := c1.planStatus, trialEndsAt := c1.trialEndsAt, updatedAt := c1.updatedAt) == c1
  }

  lemma CheckoutEffect(db: Db, env: Env, companyId: string, plan: string, sid: string)
    requires companyId != "" && sid != ""
    ensures env.retrieve(sid).None? ==> Checkout(db, env, companyId, plan, sid).None?
    ensures env.retrieve(sid).Some? ==>
      var sub := env.retrieve(sid).value;
      var r := Checkout(db, env, companyId, plan, sid);
      && r.Some? && r.value.referrals == db.referrals
      && forall i :: 0 <= i < |db.companies| ==>
           var (c1, c2) := (db.companies[i], r.value.companies[i]);
           if c1.id == companyId then
             && (c2.planStatus == Trial <==> sub.status == "trialing")
             && (c2.planStatus == Active <==> sub.status != "trialing")
             && c2.planType == (if plan != "" then plan else DefaultPlan)
             && c2.subscriptionId == Some(sid)
             && c2.trialEndsAt == (if sub.trialEnd.Some? && sub.trialEnd.value != 0
                                   then Some(sub.trialEnd.value * 1000) else None)
             && c2.updatedAt == env.now
             && c2.id == c1.id && c2.signupSource == c1.signupSource && c2.referralCode == c1.referralCode
           else c2 == c1
  {
  }

  lemma SubscriptionChangedEffect(db: Db, env: Env, sub: Subscription)
    ensures var r := SubscriptionChanged(db, env, sub);
      && r.referrals == db.referrals
      && forall i :: 0 <= i < |db.companies| ==>
           var (c1, c2) := (db.companies[i], r.companies[i]);
           if c1.subscriptionId == Some(sub.id) then
             && StatusFrame(c1, c2)
             && c2.planStatus == MapSubscriptionStatus(sub.status)
             && c2.updatedAt == env.now
             && c2.trialEndsAt == (if sub.status == "trialing" && sub.trialEnd.Some? && sub.trialEnd.value != 0
                                   then Some(sub.trialEnd.value * 1000) else c1.trialEndsAt)
           else c2 == c1
  {
  }

  lemma FailedEffect(db: Db, env: Env, sid: string)
    ensures var r := Failed(db, env, sid);
      && r.referrals == db.referrals
      && |r.companies| == |db.companies|
      && forall i :: 0 <= i < |db.companies| ==>
           var (c1, c2) := (db.companies[i], r.companies[i]);
           if sid != "" && c1.subscriptionId == Some(sid) then
             StatusFrame(c1, c2) && c2.planStatus == Overdue && c2.trialEndsAt == c1.trialEndsAt && c2.updatedAt == env.now
           else c2 == c1
  {
  }

  /** An invoice for a subscription activates its companies; only a first invoice can
      touch the referrals. */
  lemma PaidEffect(db: Db, env: Env, sid: string, reason: string)
    ensures var r := Paid(db, env, sid, reason);
      && (reason != FirstInvoice || sid == "" ==> r.referrals == db.referrals)
      && |r.companies| == |db.companies|
      && forall i :: 0 <= i < |db.companies| ==>
           var (c1, c2) := (db.companies[i], r.companies[i]);
           if sid != "" && c1.subscriptionId == Some(sid) then
             StatusFrame(c1, c2) && c2.planStatus == Active && c2.trialEndsAt == c1.trialEndsAt && c2.updatedAt == env.now
           else c2 == c1
  {
  }

  /** Deleting a subscription cancels its companies and takes it from them; no company
      holds it afterwards. */
  lemma DeletedEffect(db: Db, env: Env, sid: string)
    ensures var r := Deleted(db, env, sid);
      && r.referrals == db.referrals
      && |r.companies| == |db.companies|
      && (forall c :: c in r.companies ==> c.subscriptionId != Some(sid))
      && forall i :: 0 <= i < |db.companies| ==>
           var (c1, c2) := (db.companies[i], r.companies[i]);
           if c1.subscriptionId == Some(sid) then
             c2 == c1.(planStatus := Cancelled, subscriptionId := None, updatedAt := env.now)
           else c2 == c1
  {
    var r := Deleted(db, env, sid);
    forall c | c in r.companies ensures c.subscriptionId != Some(sid) {
      var i :| 0 <= i < |r.companies| && r.companies[i] == c;
    }
  }

  // ---------------------------------------------------------------------------------
  // Redelivery.

  /** An update is idempotent when `f` of a selected row, selected again, is a fixpoint. */
  lemma UpdateWhereTwice(cs: seq<Company>, p: Company -> bool, f: Company -> Company)
    requires forall c :: p(c) && p(f(c)) ==> f(f(c)) == f(c)
    ensures UpdateWhere(UpdateWhere(cs, p, f), p, f) == UpdateWhere(cs, p, f)
  {
  }

  lemma SetStatusTwice(cs: seq<Company>, sid: string, status: PlanStatus, now: int)
    ensures SetStatus(SetStatus(cs, sid, status, now), sid, status, now) == SetStatus(cs, sid, status, now)
  {
    UpdateWhereTwice(cs, HasSubscription(sid), (c: Company) => c.(planStatus := status, updatedAt := now));
  }

  /** A second update of the rows the first one selected overwrites it, when the first
      keeps them selected and sets nothing the second does not set again. */
  lemma UpdateWhereOverwrite(cs: seq<Company>, p: Company -> bool, f: Company -> Company, g: Company -> Company)
    requires forall c :: p(c) ==> p(f(c)) && g(f(c)) == g(c)
    ensures UpdateWhere(UpdateWhere(cs, p, f), p, g) == UpdateWhere(cs, p, g)
  {
  }

  /** An update that selects no row changes nothing. */
  lemma UpdateWhereNone(cs: seq<Company>, p: Company -> bool, f: Company -> Company)
    requires forall i :: 0 <= i < |cs| ==> !p(cs[i])
    ensures UpdateWhere(cs, p, f) == cs
  {
  }

  /** An event delivered again, at a later clock and with the processor's answer at that
      time, leaves the tables as a single delivery then would: every field it sets is set
      again, so only `updated_at` and what the processor reports move. A repeated deletion
      changes nothing at all, since no company holds the subscription any more. A first
      invoice is the exception (`FirstInvoiceRewardsEachDelivery`). */
  lemma LaterRedelivery(db: Db, env1: Env, env2: Env, e: Event)
    requires !(e.InvoicePaid? && e.billingReason == FirstInvoice)
    requires Apply(db, env1, e).Some?
    ensures !e.SubscriptionDeleted? ==> Apply(Apply(db, env1, e).value, env2, e) == Apply(db, env2, e)
    ensures e.SubscriptionDeleted? ==> Apply(Apply(db, env1, e).value, env2, e) == Apply(db, env1, e)
  {
    match e
    case CheckoutCompleted(companyId, plan, sid) =>
      if companyId != "" && sid != "" && env2.retrieve(sid).Some? {
        var sub1, sub2 := env1.retrieve(sid).value, env2.retrieve(sid).value;
        var status1 := if sub1.status == "trialing" then Trial else Active;
        var status2 := if sub2.status == "trialing" then Trial else Active;
        UpdateWhereOverwrite(db.companies, (c: Company) => c.id == companyId,
          (c: Company) => c.(planStatus := status1, planType := OrElse(plan, DefaultPlan),
                             subscriptionId := Some(sid), trialEndsAt := TrialEndsAt(sub1), updatedAt := env1.now),
          (c: Company) => c.(planStatus := status2, planType := OrElse(plan, DefaultPlan),
                             subscriptionId := Some(sid), trialEndsAt := TrialEndsAt(sub2), updatedAt := env2.now));
      }
    case SubscriptionUpdated(sub) =>
      var trial := TrialEndsAt(sub);
      UpdateWhereOverwrite(db.companies, HasSubscription(sub.id),
        (c: Company) => c.(planStatus := MapSubscriptionStatus(sub.status),
                           trialEndsAt := if sub.status == "trialing" && trial.Some? then trial else c.trialEndsAt,
                           updatedAt := env1.now),
        (c: Company) => c.(planStatus := MapSubscriptionStatus(sub.status),
                           trialEndsAt := if sub.status == "trialing" && trial.Some? then trial else c.trialEndsAt,
                           updatedAt := env2.now));
    case InvoicePaid(sid, reason) =>
      if sid != "" {
        UpdateWhereOverwrite(db.companies, HasSubscription(sid),
          (c: Company) => c.(planStatus := Active, updatedAt := env1.now),
          (c: Company) => c.(planStatus := Active, updatedAt := env2.now));
      }
    case PaymentFailed(sid) =>
      if sid != "" {
        UpdateWhereOverwrite(db.companies, HasSubscription(sid),
          (c: Company) => c.(planStatus := Overdue, updatedAt := env1.now),
          (c: Company) => c.(planStatus := Overdue, updatedAt := env2.now));
      }
    case SubscriptionDeleted(sub) =>
      var d := Deleted(db, env1, sub.id);
      DeletedEffect(db, env1, sub.id);
      forall i | 0 <= i < |d.companies| ensures !HasSubscription(sub.id)(d.companies[i]) {
        assert d.companies[i] in d.companies;
      }
      UpdateWhereNone(d.companies, HasSubscription(sub.id),
        (c: Company) => c.(planStatus := Cancelled, subscriptionId := None, updatedAt := env2.now));
    case TrialWillEnd(_) =>
    case Unhandled(_) =>
  }

  /** Delivering an event twice at the same clock and processor answers leaves the tables
      as delivering it once does, for every event but a first invoice. */
  lemma RedeliveryChangesNothing(db: Db, env: Env, e: Event)
    requires !(e.InvoicePaid? && e.billingReason == FirstInvoice)
    requires Apply(db, env, e).Some?
    ensures Apply(Apply(db, env, e).value, env, e) == Apply(db, env, e)
  {
    LaterRedelivery(db, env, env, e);
  }

  /** The referral lookup for `sid` reads only what activation keeps: the subscription,
      the signup source, the referral code and the id. */
  lemma ReferralSurvivesActivation(cs: seq<Company>, sid: string, now: int)
    ensures ReferralFor(SetStatus(cs, sid, Active, now), sid).Some? == ReferralFor(cs, sid).Some?
  {
    var us := SetStatus(cs, sid, Active, now);
    assert forall j :: 0 <= j < |cs| ==> us[j] == cs[j].(planStatus := us[j].planStatus, updatedAt := us[j].updatedAt);
    ReferralEligibility(cs, sid);
    ReferralEligibility(us, sid);
    forall i, j ensures EligibleAt(cs, sid, i, j) <==> EligibleAt(us, sid, i, j) {
      EligibleAtKept(cs, us, sid, i, j);
    }
  }

  lemma EligibleAtKept(cs: seq<Company>, us: seq<Company>, sid: string, i: int, j: int)
    requires |us| == |cs|
    requires forall k :: 0 <= k < |cs| ==> us[k] == cs[k].(planStatus := us[k].planStatus, updatedAt := us[k].updatedAt)
    ensures EligibleAt(cs, sid, i, j) <==> EligibleAt(us, sid, i, j)
  {
    if 0 <= i < |cs| {
      forall k | 0 <= k < |cs| ensures HasSubscription(sid)(us[k]) == HasSubscription(sid)(cs[k]) {
        assert us[k].subscriptionId == cs[k].subscriptionId;
      }
      if StartsWith(cs[i].signupSource, ReferralPrefix) {
        var q := HasCode(cs[i].signupSource[|ReferralPrefix|..]);
        forall k | 0 <= k < |cs| ensures q(us[k]) == q(cs[k]) && us[k].id == cs[k].id {
          assert us[k].referralCode == cs[k].referralCode;
        }
      }
    }
  }

  /** The reward is not guarded against a second delivery of the same first invoice: each
      delivery appends another referral row. */
  lemma FirstInvoiceRewardsEachDelivery(db: Db, env: Env, sid: string)
    requires sid != "" && ReferralFor(db.companies, sid).Some?
    ensures |Paid(db, env, sid, FirstInvoice).referrals| == |db.referrals| + 1
    ensures |Paid(Paid(db, env, sid, FirstInvoice), env, sid, FirstInvoice).referrals| == |db.referrals| + 2
  {
    var db1 := Paid(db, env, sid, FirstInvoice);
    ReferralSurvivesActivation(db.companies, sid, env.now);
    ReferralSurvivesActivation(db1.companies, sid, env.now);
    assert db1.companies == SetStatus(db.companies, sid, Active, env.now);
    SetStatusTwice(db.companies, sid, Active, env.now);
  }

  // ---------------------------------------------------------------------------------
  // A deleted subscription.

  lemma NoneHolds(cs: seq<Company>, sid: string)
    requires forall c :: c in cs ==> c.subscriptionId != Some(sid)
    ensures ReferralFor(cs, sid).None?
    ensures forall p: PlanStatus, now :: SetStatus(cs, sid, p, now) == cs
  {
    forall j | 0 <= j < |cs| ensures !HasSubscription(sid)(cs[j]) {
      assert cs[j] in cs;
    }
    FilterNone(cs, HasSubscription(sid));
  }

  /** After its deletion, status events for a subscription change nothing. */
  lemma DeletedIsFinal(db: Db, env: Env, env2: Env, sid: string, status: string, trialEnd: Option<int>, reason: string)
    ensures var d := Deleted(db, env, sid);
      && Failed(d, env2, sid) == d
      && Paid(d, env2, sid, reason) == d
      && SubscriptionChanged(d, env2, Subscription(sid, status, trialEnd)) == d
  {
    var d := Deleted(db, env, sid);
    DeletedEffect(db, env, sid);
    NoneHolds(d.companies, sid);
    assert SetStatus(d.companies, sid, Active, env2.now) == d.companies;
  }

  // ---------------------------------------------------------------------------------
  // The referral conditions.

  /** Row `i` is the only one holding the subscription, its signup source carries the
      prefix, and row `j` is the only one whose code is the rest, a different company. */
  predicate EligibleAt(cs: seq<Company>, sid: string, i: int, j: int)
  {
    && OnlyMatch(cs, HasSubscription(sid), i)
    && StartsWith(cs[i].signupSource, ReferralPrefix)
    && OnlyMatch(cs, HasCode(cs[i].signupSource[|ReferralPrefix|..]), j)
    && cs[j].id != cs[i].id
  }

  /** A first invoice earns a referral exactly when the conditions hold, between exactly
      those two rows. */
  lemma ReferralEligibility(cs: seq<Company>, sid: string)
    ensures ReferralFor(cs, sid).Some? <==> exists i, j :: EligibleAt(cs, sid, i, j)
    ensures forall i, j :: EligibleAt(cs, sid, i, j) ==> ReferralFor(cs, sid) == Some((cs[j], cs[i]))
  {
    MaybeSingleIff(cs, HasSubscription(sid));
    forall i, j | EligibleAt(cs, sid, i, j) ensures ReferralFor(cs, sid) == Some((cs[j], cs[i])) {
      var src := cs[i].signupSource;
      StripLeadingOccurrence(src, ReferralPrefix);
      MaybeSingleIff(cs, HasCode(src[|ReferralPrefix|..]));
    }
    if ReferralFor(cs, sid).Some? {
      var i :| OnlyMatch(cs, HasSubscription(sid), i);
      var src := cs[i].signupSource;
      StripLeadingOccurrence(src, ReferralPrefix);
      var q := HasCode(src[|ReferralPrefix|..]);
      MaybeSingleIff(cs, q);
      var j :| OnlyMatch(cs, q, j);
      assert EligibleAt(cs, sid, i, j);
    }
  }

  /** The reward appends one row naming the two companies. When the coupons go through,
      it and every earlier row of the referred company are completed at now and the other
      rows are kept; when they throw, the new row stays pending and nothing else moves.
      Without a referral the reward changes nothing. */
  lemma RewardEffect(db: Db, env: Env, sid: string)
    ensures var r := Reward(db, env, sid);
      && r.companies == db.companies
      && (ReferralFor(db.companies, sid).None? ==> r == db)
      && (ReferralFor(db.companies, sid).Some? ==>
            var (referrer, referred) := ReferralFor(db.companies, sid).value;
            && |r.referrals| == |db.referrals| + 1
            && r.referrals[|db.referrals|].referrer == referrer.id
            && r.referrals[|db.referrals|].referred == referred.id
            && r.referrals[|db.referrals|].status == (if env.couponsOk then Completed else Pending)
            && r.referrals[|db.referrals|].completedAt == (if env.couponsOk then Some(env.now) else None)
            && forall i :: 0 <= i < |db.referrals| ==>
                 r.referrals[i] == if env.couponsOk && db.referrals[i].referred == referred.id
                                   then db.referrals[i].(status := Completed, completedAt := Some(env.now))
                                   else db.referrals[i])
  {
  }

  // ---------------------------------------------------------------------------------
  // The request.

  /** A request whose signature does not check out changes nothing, and neither does a
      preflight or a missing secret. */
  lemma UnverifiedChangesNothing(cfg: Config, env: Env, construct: (string, string, string) -> Option<Event>,
                                 req: Request, db: Db)
    requires req.verb == "OPTIONS" || cfg.stripeKey == "" || cfg.webhookSecret == "" || req.signature == ""
             || construct(req.body, req.signature, cfg.webhookSecret).None?
    ensures HandleWebhook(cfg, env, construct, req, db).db == db
    ensures req.verb != "OPTIONS" ==> HandleWebhook(cfg, env, construct, req, db).status in {400, 500}
  {
  }

  /** A verified event is acknowledged with its effect, or answered 500 with none when
      handling it throws. */
  lemma VerifiedDelivery(cfg: Config, env: Env, construct: (string, string, string) -> Option<Event>,
                         req: Request, db: Db, e: Event)
    requires req.verb != "OPTIONS" && cfg.stripeKey != "" && cfg.webhookSecret != "" && req.signature != ""
    requires construct(req.body, req.signature, cfg.webhookSecret) == Some(e)
    ensures var r := HandleWebhook(cfg, env, construct, req, db);
      && (Apply(db, env, e).Some? ==> r.status == 200 && r.reply == Received && r.db == Apply(db, env, e).value)
      && (Apply(db, env, e).None? ==> r.status == 500 && r.db == db)
  {
  }
}

=== FILE: channel.dfy ===
/**
 * The outbound channel (the Evolution API `sendText` call) and the bookkeeping both jobs
 * share around it: what the environment decides (random draws, the provider's reply),
 * how a reply becomes a log status, and the state a run threads from send to send.
 */
module Channel {
  import opened Common
  import opened Pacing
  import opened AutomationLog

  /** A unit (branch) of a tenant, with its channel credentials. */
  datatype Unit = Unit(
    id: string,
    companyId: string,
    name: string,
    instanceName: Option<string>,
    apiKey: Option<string>)

  /** The channel credentials a unit sends with. */
  datatype Sender = Sender(unitName: string, instance: string, apiKey: string)

  /** A value of `Math.random()`. */
  type Draw = u: real | IsDraw(u) witness 0.0

  /** What the provider call ends in: an HTTP reply whose body parsed as JSON, a reply
      whose body did not parse (`response.json()` throws), or a transport failure. */
  datatype Reply =
    | Answered(ok: bool, body: string)
    | Garbled(parseError: string)
    | Unreachable(error: string)

  /** Everything a run does not decide itself, indexed by the run's attempt number:
      the pacing draw, the presence-delay draw and the provider's reply. */
  datatype Environment = Environment(
    pacing: nat -> Draw,
    presence: nat -> Draw,
    reply: nat -> Reply)

  /** The request a send puts on the wire, with the pacing wait that preceded it. */
  datatype Dispatch = Dispatch(
    instance: string,
    apiKey: string,
    number: string,
    text: string,
    wait: int,
    presenceDelay: int)

  /** The status and error text recorded for a reply: only a 2xx reply with a JSON body
      counts as sent; a non-2xx reply records its body, a thrown error its message. */
  function StatusOf(reply: Reply): (r: LogStatus)
    ensures r == Sent <==> reply.Answered? && reply.ok
  {
    if reply.Answered? && reply.ok then Sent else Failed
  }

  function ErrorOf(reply: Reply): (r: Option<string>)
    ensures r.None? <==> StatusOf(reply) == Sent
  {
    match reply
    case Answered(ok, body) => if ok then None else Some(body)
    case Garbled(e) => Some(e)
    case Unreachable(e) => Some(e)
  }

  /** A log row records the reply it got: its status and error text. */
  predicate Answers(row: LogRow, reply: Reply)
  {
    row.status == StatusOf(reply) && row.error == ErrorOf(reply)
  }

  /** The number of the first `n` attempts the provider accepted. */
  function OkReplies(env: Environment, n: nat): (r: nat)
    ensures r <= n
  {
    if n == 0 then 0
    else OkReplies(env, n - 1) + (if env.reply(n - 1).Answered? && env.reply(n - 1).ok then 1 else 0)
  }

  /** The state one invocation threads through its loops: the log, the two summary
      counters, the per-recipient results and the requests sent so far. */
  datatype RunState<R> = RunState(
    log: seq<LogRow>,
    sent: nat,
    skipped: nat,
    results: seq<R>,
    dispatches: seq<Dispatch>)

  function Start<R>(log: seq<LogRow>): RunState<R>
  {
    RunState(log, 0, 0, [], [])
  }

  /** The attempt number of the next send. */
  function NextAttempt<R>(st: RunState<R>): nat
  {
    |st.dispatches|
  }

  /** Records one attempted send: one log row, one result, one request, and one more
      `sent` when the row says so. */
  function Record<R>(st: RunState<R>, row: LogRow, result: R, d: Dispatch): (r: RunState<R>)
    ensures r.log == st.log + [row]
    ensures r.results == st.results + [result]
    ensures r.dispatches == st.dispatches + [d]
    ensures r.skipped == st.skipped
    ensures r.sent == st.sent + (if row.status == Sent then 1 else 0)
  {
    RunState(st.log + [row], st.sent + (if row.status == Sent then 1 else 0), st.skipped,
             st.results + [result], st.dispatches + [d])
  }

  /** A dedup hit: one more `skipped`, nothing else. */
  function Skip<R>(st: RunState<R>): (r: RunState<R>)
    ensures r.skipped == st.skipped + 1
    ensures r.log == st.log && r.results == st.results && r.dispatches == st.dispatches
    ensures r.sent == st.sent
  {
    st.(skipped := st.skipped + 1)
  }
}

=== FILE: common.dfy ===
/** Small shared vocabulary of the messaging engine and the billing webhook. */
module Common {

  /** A value that may be absent: a nullable database column or an optional field. */
  datatype Option<+T> = None | Some(value: T) {

    /** The wrapped value, or `default` when absent (JavaScript's `??`). */
    function GetOr(default: T): T
    {
      match this
      case Some(v) => v
      case None => default
    }
  }
}

=== FILE: marketing.dfy ===
/**
 * The marketing job (`supabase/functions/marketing-automations/index.ts`).
 *
 * One invocation visits every tenant with the birthday or the rescue automation enabled.
 * A tenant is served only when the wall clock (Brasília time) is within three minutes of
 * its configured send time. Its clients that have not opted out are then walked in order;
 * a client with a phone and a unit able to send may get a birthday message (birth date
 * falls today, none logged since midnight) and, independently, a rescue message (no visit
 * for the tenant's threshold of days, none logged in the last thirty days). Every message
 * appends one log row, sent or failed; a dedup hit counts as skipped.
 *
 * Pacing is per tenant: the batch size is the number of clients with a phone and a
 * sending unit, and the index counts the messages sent to the tenant's clients so far.
 */
module Marketing {
  import opened Common
  import opened Seqs
  import opened Strings
  import opened Phone
  import opened Pacing
  import opened Template
  import opened AutomationLog
  import opened Channel

  /** `automation_send_hour ?? 10`, `automation_send_minute ?? 0`. */
  const DefaultSendHour: int := 10
  const DefaultSendMinute: int := 0
  /** A tenant is served when the clock is at most this many minutes from its send time. */
  const GateMinutes: int := 3
  const DayMs: int := 1000 * 60 * 60 * 24
  /** `rescue_days_threshold || 30`. */
  const DefaultRescueDays: int := 30
  /** A rescue message is not repeated within this many days. */
  const RescueCooldownDays: int := 30

  /** The built-in birthday template, read as plain text around one placeholder. */
  const BirthdayPieces: seq<Piece> :=
    [Text("Feliz aniversário, "), Placeholder(Key("nome")), Text("! 🎂")]

  /** The built-in rescue template, read the same way. */
  const RescuePieces: seq<Piece> :=
    [Text("Olá "), Placeholder(Key("nome")), Text("! Sentimos sua falta. Que tal agendar uma visita?")]

  const BirthdayDefault: string := Flatten(BirthdayPieces)
  const RescueDefault: string := Flatten(RescuePieces)

  /** A `business_settings` row. `rescueDays` 0 stands for a null column, a template ""
      for a null or empty one; the send time keeps null apart, since 0 is a valid hour. */
  datatype Settings = Settings(
    userId: string,
    birthdayEnabled: bool,
    birthdayTemplate: string,
    rescueEnabled: bool,
    rescueTemplate: string,
    rescueDays: int,
    sendHour: Option<int>,
    sendMinute: Option<int>)

  /** A `clients` row. `phone` and `birthDate` "" stand for null; `birthDate` is the
      column's `YYYY-MM-DD` text. */
  datatype Client = Client(
    id: string,
    companyId: string,
    unitId: string,
    name: string,
    phone: string,
    birthDate: string,
    lastVisitAt: Option<int>,
    optOut: Option<bool>)

  /** The clock readings of the invocation: `now` in epoch milliseconds, the Brasília
      hour and minute, today's `MM-DD`, and the instant `today + "T00:00:00"` denotes. */
  datatype Clock = Clock(
    now: int,
    hour: int,
    minute: int,
    todayMonthDay: string,
    todayStart: int)

  datatype World = World(
    apiUrl: string,
    clock: Clock,
    settings: seq<Settings>,
    companyOf: map<string, string>,
    clients: seq<Client>,
    units: seq<Unit>)

  /** An entry of the response's `results` array. */
  datatype Result = Result(client: string, kind: AutomationType, status: LogStatus)

  // ---------------------------------------------------------------------------------
  // Selection.

  /** The settings query: rows with at least one of the two automations enabled. */
  function Selected(settings: seq<Settings>): (r: seq<Settings>)
    ensures forall s :: s in r <==> s in settings && (s.birthdayEnabled || s.rescueEnabled)
  {
    Filter(settings, (s: Settings) => s.birthdayEnabled || s.rescueEnabled)
  }

  function SendMinutes(s: Settings): int
  {
    s.sendHour.GetOr(DefaultSendHour) * 60 + s.sendMinute.GetOr(DefaultSendMinute)
  }

  function Abs(x: int): (r: nat)
    ensures r == x || r == -x
  {
    if x < 0 then -x else x
  }

  /** The send-time gate, on minutes of the day, without wrapping around midnight. */
  predicate InSendWindow(s: Settings, clock: Clock)
  {
    Abs(SendMinutes(s) - (clock.hour * 60 + clock.minute)) <= GateMinutes
  }

  predicate OptedOut(c: Client)
  {
    c.optOut == Some(true)
  }

  /** The clients query: the tenant's clients whose opt-out flag is null or false. */
  function Audience(clients: seq<Client>, company: string): (r: seq<Client>)
    ensures forall c :: c in r <==> c in clients && c.companyId == company && !OptedOut(c)
  {
    assert forall c: Client :: (c.optOut.None? || c.optOut == Some(false)) <==> !OptedOut(c) by {
      forall c: Client ensures (c.optOut.None? || c.optOut == Some(false)) <==> !OptedOut(c) {
        if c.optOut.Some? { assert c.optOut.value || c.optOut == Some(false); }
      }
    }
    Filter(clients, (c: Client) => c.companyId == company && (c.optOut.None? || c.optOut == Some(false)))
  }

  /** The units query: the tenant's units whose two credential columns are not null
      (an empty text passes). */
  function SendingUnits(units: seq<Unit>, company: string): (r: seq<Unit>)
    ensures forall u :: u in r <==> u in units && u.companyId == company && u.instanceName.Some? && u.apiKey.Some?
  {
    Filter(units, (u: Unit) => u.companyId == company && u.instanceName.Some? && u.apiKey.Some?)
  }

  /** `new Map(units.map(u => [u.id, u])).get(id)`: the last unit with that id. */
  function FindUnit(units: seq<Unit>, id: string): (r: Option<Unit>)
    ensures r.Some? <==> exists i :: 0 <= i < |units| && units[i].id == id
    ensures r.Some? ==> r.value in units && r.value.id == id
    decreases |units|
  {
    if |units| == 0 then None
    else if units[|units| - 1].id == id then Some(units[|units| - 1])
    else
      var r := FindUnit(units[..|units| - 1], id);
      assert forall i :: 0 <= i < |units| - 1 ==> units[..|units| - 1][i] == units[i];
      r
  }

  function SenderOf(u: Unit): Sender
  {
    Sender(u.name, u.instanceName.GetOr(""), u.apiKey.GetOr(""))
  }

  /** A client the loop does not pass over: a phone and a sending unit. */
  predicate Reachable(c: Client, units: seq<Unit>)
  {
    c.phone != "" && FindUnit(units, c.unitId).Some?
  }

  /** The batch size pacing uses: the clients the loop does not pass over. */
  function BatchSize(audience: seq<Client>, units: seq<Unit>): nat
  {
    |Filter(audience, (c: Client) => Reachable(c, units))|
  }

  // ---------------------------------------------------------------------------------
  // The two automations.

  /** `client.birth_date.substring(5, 10) === todayMMDD`, for a client with a birth date. */
  predicate BirthdayDue(s: Settings, clock: Clock, c: Client)
  {
    s.birthdayEnabled && c.birthDate != "" && Substring(c.birthDate, 5, 10) == clock.todayMonthDay
  }

  function RescueDays(s: Settings): (d: int)
    ensures s.rescueDays != 0 ==> d == s.rescueDays
    ensures s.rescueDays == 0 ==> d == DefaultRescueDays
  {
    if s.rescueDays != 0 then s.rescueDays else DefaultRescueDays
  }

  /** Whole days since the last visit, `Math.floor` of the millisecond difference over a
      day (Dafny's `/` floors for a positive divisor, as `Math.floor` does). */
  function DaysSince(now: int, last: int): int
  {
    (now - last) / DayMs
  }

  predicate RescueDue(s: Settings, now: int, c: Client)
  {
    s.rescueEnabled && c.lastVisitAt.Some? && DaysSince(now, c.lastVisitAt.value) >= RescueDays(s)
  }

  function BirthdayQuery(c: Client, clock: Clock): Query
  {
    ForClientSince(c.id, Birthday, clock.todayStart)
  }

  function RescueQuery(c: Client, now: int): Query
  {
    ForClientSince(c.id, Rescue, now - RescueCooldownDays * DayMs)
  }

  function BirthdayMessage(s: Settings, c: Client): string
  {
    Render(OrElse(s.birthdayTemplate, BirthdayDefault), Synonyms(["nome", "name"], c.name))
  }

  function RescueBindings(c: Client, days: int): (subs: seq<Sub>)
    ensures ValidSubs(subs)
  {
    Synonyms(["nome", "name"], c.name) + Synonyms(["dias"], IntToString(days))
  }

  function RescueMessage(s: Settings, c: Client, days: int): string
  {
    Render(OrElse(s.rescueTemplate, RescueDefault), RescueBindings(c, days))
  }

  // ---------------------------------------------------------------------------------
  // The run.

  /** What the sends of one tenant share. */
  datatype Tenant = Tenant(company: string, settings: Settings, units: seq<Unit>, total: nat)

  /** One message: the wait, the request, the log row and the result. */
  function Send(w: World, env: Environment, t: Tenant, st: RunState<Result>, index: nat,
                c: Client, u: Unit, kind: AutomationType, text: string): (r: RunState<Result>)
    ensures |r.log| == |st.log| + 1 && r.log[..|st.log|] == st.log
    ensures |r.results| == |st.results| + 1 && r.results[..|st.results|] == st.results
    ensures |r.dispatches| == |st.dispatches| + 1 && r.dispatches[..|st.dispatches|] == st.dispatches
    ensures var row, res := r.log[|st.log|], r.results[|st.results|];
      && row.companyId == t.company && row.clientId == Some(c.id) && row.appointmentId.None?
      && row.kind == kind && row.sentAt == w.clock.now
      && Answers(row, env.reply(NextAttempt(st)))
      && res.client == c.name && res.kind == kind && res.status == row.status
    ensures var d := r.dispatches[|st.dispatches|];
      && d.instance == SenderOf(u).instance && d.apiKey == SenderOf(u).apiKey
      && d.number == Normalize(c.phone) && d.text == text
    ensures r.sent == st.sent + (if r.log[|st.log|].status == Sent then 1 else 0)
    ensures r.skipped == st.skipped
  {
    var k := NextAttempt(st);
    var reply := env.reply(k);
    var sender := SenderOf(u);
    var d := Dispatch(sender.instance, sender.apiKey, Normalize(c.phone), text,
                      WaitBefore(index, t.total, env.pacing(k)), PresenceDelay(env.presence(k)));
    var row := LogRow(t.company, Some(c.id), None, kind, StatusOf(reply), ErrorOf(reply), w.clock.now);
    Record(st, row, Result(c.name, kind, StatusOf(reply)), d)
  }

  /** The birthday step for a client due one: skipped when a birthday row was logged
      since midnight, sent otherwise. */
  function BirthdayStep(w: World, env: Environment, t: Tenant, st: RunState<Result>, index: nat, c: Client, u: Unit)
    : (r: (RunState<Result>, nat))
    ensures AlreadyLogged(st.log, BirthdayQuery(c, w.clock)) ==> r == (Skip(st), index)
    ensures !AlreadyLogged(st.log, BirthdayQuery(c, w.clock)) ==>
      && r.1 == index + 1 && r.0.skipped == st.skipped
      && |r.0.log| == |st.log| + 1 && |r.0.results| == |st.results| + 1 && |r.0.dispatches| == |st.dispatches| + 1
      && r.0.log[|st.log|].kind == Birthday && r.0.results[|st.results|].kind == Birthday
  {
    if AlreadyLogged(st.log, BirthdayQuery(c, w.clock)) then (Skip(st), index)
    else (Send(w, env, t, st, index, c, u, Birthday, BirthdayMessage(t.settings, c)), index + 1)
  }

  /** The rescue step for a client due one: skipped when a rescue row was logged in the
      last thirty days, sent otherwise. */
  function RescueStep(w: World, env: Environment, t: Tenant, st: RunState<Result>, index: nat, c: Client, u: Unit)
    : (r: (RunState<Result>, nat))
    requires c.lastVisitAt.Some?
    ensures AlreadyLogged(st.log, RescueQuery(c, w.clock.now)) ==> r == (Skip(st), index)
    ensures !AlreadyLogged(st.log, RescueQuery(c, w.clock.now)) ==>
      && r.1 == index + 1 && r.0.skipped == st.skipped
      && |r.0.log| == |st.log| + 1 && |r.0.results| == |st.results| + 1 && |r.0.dispatches| == |st.dispatches| + 1
      && r.0.log[|st.log|].kind == Rescue && r.0.results[|st.results|].kind == Rescue
  {
    if AlreadyLogged(st.log, RescueQuery(c, w.clock.now)) then (Skip(st), index)
    else
      var days := DaysSince(w.clock.now, c.lastVisitAt.value);
      (Send(w, env, t, st, index, c, u, Rescue, RescueMessage(t.settings, c, days)), index + 1)
  }

  /** One client: passed over without a phone or a sending unit; otherwise the birthday
      automation, then the rescue automation, each when due. */
  function ProcessClient(w: World, env: Environment, t: Tenant, st: RunState<Result>, index: nat, c: Client)
    : (RunState<Result>, nat)
  {
    if c.phone == "" then (st, index)
    else match FindUnit(t.units, c.unitId)
      case None => (st, index)
      case Some(u) =>
        var (st1, i1) := if BirthdayDue(t.settings, w.clock, c) then BirthdayStep(w, env, t, st, index, c, u) else (st, index);
        if RescueDue(t.settings, w.clock.now, c) then RescueStep(w, env, t, st1, i1, c, u) else (st1, i1)
  }

  function ProcessClients(w: World, env: Environment, t: Tenant, st: RunState<Result>, index: nat, clients: seq<Client>)
    : (RunState<Result>, nat)
    decreases |clients|
  {
    if |clients| == 0 then (st, index)
    else
      var (st', index') := ProcessClient(w, env, t, st, index, clients[0]);
      ProcessClients(w, env, t, st', index', clients[1..])
  }

  /** One tenant: passed over outside its send window, without a company, without
      clients or without a sending unit. The message index starts at 0 for each tenant. */
  function ProcessTenant(w: World, env: Environment, st: RunState<Result>, s: Settings): RunState<Result>
  {
    if !InSendWindow(s, w.clock) || s.userId !in w.companyOf then st
    else
      var company := w.companyOf[s.userId];
      var audience := Audience(w.clients, company);
      var units := SendingUnits(w.units, company);
      if |audience| == 0 || |units| == 0 then st
      else ProcessClients(w, env, Tenant(company, s, units, BatchSize(audience, units)), st, 0, audience).0
  }

  function ProcessTenants(w: World, env: Environment, st: RunState<Result>, settings: seq<Settings>): RunState<Result>
    decreases |settings|
  {
    if |settings| == 0 then st
    else ProcessTenants(w, env, ProcessTenant(w, env, st, settings[0]), settings[1..])
  }

  datatype Outcome = MissingApiUrl | NoTenantEnabled | Processed

  datatype RunResult = RunResult(outcome: Outcome, state: RunState<Result>)

  function Run(w: World, env: Environment, log: seq<LogRow>): RunResult
  {
    if w.apiUrl == "" then RunResult(MissingApiUrl, Start(log))
    else
      var selected := Selected(w.settings);
      if |selected| == 0 then RunResult(NoTenantEnabled, Start(log))
      else RunResult(Processed, ProcessTenants(w, env, Start(log), selected))
  }
}

=== FILE: marketing_properties.dfy ===
/**
 * What the marketing job guarantees, proved about the model in `Marketing`:
 *
 *  - bookkeeping: one log row and one result per message, in order, same kind and status;
 *    `sent` counts the sent ones;
 *  - only clients of the tenant that have not opted out and have a phone are messaged;
 *  - at most one birthday row per client since the day's start, over any number of runs
 *    that day;
 *  - any two rescue rows of a client are more than thirty days apart, over any sequence
 *    of runs with a clock that does not go back;
 *  - pacing per tenant, and conservation: skipped plus messaged is the number of
 *    automations due for the reachable clients;
 *  - the birthday and rescue conditions, the send-time gate and the messages.
 */
module MarketingProperties {
  import opened Common
  import opened Seqs
  import opened Strings
  import opened Pacing
  import opened Template
  import opened AutomationLog
  import opened Channel
  import opened Marketing

  const Cooldown: int := RescueCooldownDays * DayMs

  // ---------------------------------------------------------------------------------
  // The invariant.

  predicate Describes(row: LogRow, res: Result)
  {
    && row.kind == res.kind
    && row.status == res.status
    && row.clientId.Some?
    && row.appointmentId.None?
    && (row.error.None? <==> row.status == Sent)
  }

  function SentCount(rs: seq<Result>): nat
    decreases |rs|
  {
    if |rs| == 0 then 0
    else SentCount(rs[..|rs| - 1]) + (if rs[|rs| - 1].status == Sent then 1 else 0)
  }

  /** The log is `log0` followed by one row per result, row i describing result i and
      recording the reply to attempt i; one request per result; `sent` is the number of
      sent results. */
  predicate Tracks(env: Environment, log0: seq<LogRow>, st: RunState<Result>)
  {
    && |st.log| == |log0| + |st.results|
    && |st.dispatches| == |st.results|
    && st.log[..|log0|] == log0
    && (forall i :: 0 <= i < |st.results| ==> Describes(st.log[|log0| + i], st.results[i]))
    && (forall i :: 0 <= i < |st.results| ==> Answers(st.log[|log0| + i], env.reply(i)))
    && st.sent == SentCount(st.results)
  }

  /** No client has two birthday rows since `since`. */
  ghost predicate OneBirthdaySince(log: seq<LogRow>, since: int)
  {
    forall id :: Count(log, ForClientSince(id, Birthday, since)) <= 1
  }

  predicate RescuePair(a: LogRow, b: LogRow)
  {
    a.kind == Rescue && b.kind == Rescue && a.clientId.Some? && a.clientId == b.clientId
  }

  /** Any two rescue rows of a client, in log order, are more than thirty days apart. */
  predicate RescueSpaced(log: seq<LogRow>)
  {
    forall i, j :: 0 <= i < j < |log| && RescuePair(log[i], log[j]) ==> log[j].sentAt - log[i].sentAt > Cooldown
  }

  /** No row is dated after `now`. */
  predicate NotAfter(log: seq<LogRow>, now: int)
  {
    forall i :: 0 <= i < |log| ==> log[i].sentAt <= now
  }

  /** The row is about a client of its tenant that has a phone and has not opted out. */
  ghost predicate Reached(w: World, row: LogRow)
  {
    exists c :: c in w.clients && row.clientId == Some(c.id) && row.companyId == c.companyId
      && c.phone != "" && !OptedOut(c)
  }

  ghost predicate Good(w: World, env: Environment, log0: seq<LogRow>, st: RunState<Result>)
  {
    && Tracks(env, log0, st)
    && OneBirthdaySince(st.log, w.clock.todayStart)
    && RescueSpaced(st.log)
    && NotAfter(st.log, w.clock.now)
    && forall i :: |log0| <= i < |st.log| ==> Reached(w, st.log[i])
  }

  /** A client the tenant may message. */
  predicate Member(w: World, t: Tenant, c: Client)
  {
    c in w.clients && c.companyId == t.company && !OptedOut(c)
  }

  // ---------------------------------------------------------------------------------
  // The invariant is kept.

  /** Under the spacing invariant, at most one rescue row of a client falls in the last
      thirty days, so the `.maybeSingle()` guard sees every such row. */
  lemma RescueWindowAtMostOne(log: seq<LogRow>, now: int, id: string)
    requires RescueSpaced(log) && NotAfter(log, now)
    ensures Count(log, ForClientSince(id, Rescue, now - Cooldown)) <= 1
  {
    var q := ForClientSince(id, Rescue, now - Cooldown);
    forall i, j | 0 <= i < j < |log| && Matches(log[i], q)
      ensures !Matches(log[j], q)
    {
      if Matches(log[j], q) {
        assert RescuePair(log[i], log[j]);
      }
    }
    CountAtMostOne(log, q);
  }

  /** Recording a row that describes its result keeps the bookkeeping. */
  lemma RecordTracks(env: Environment, log0: seq<LogRow>, st: RunState<Result>, row: LogRow, res: Result, d: Dispatch)
    requires Tracks(env, log0, st) && Describes(row, res) && Answers(row, env.reply(|st.results|))
    ensures Tracks(env, log0, Record(st, row, res, d))
  {
    var r := Record(st, row, res, d);
    assert r.log[..|log0|] == log0 by {
      assert r.log[..|log0|] == st.log[..|log0|];
    }
    assert r.results[..|st.results|] == st.results;
    forall i | 0 <= i < |r.results|
      ensures Describes(r.log[|log0| + i], r.results[i]) && Answers(r.log[|log0| + i], env.reply(i))
    {
      if i < |st.results| {
        assert r.log[|log0| + i] == st.log[|log0| + i];
      }
    }
  }

  /** A row for a client with no birthday row since `since` keeps one birthday row per
      client since then. */
  lemma AppendBirthday(log: seq<LogRow>, row: LogRow, since: int)
    requires OneBirthdaySince(log, since) && row.clientId.Some?
    requires row.kind == Birthday ==> Count(log, ForClientSince(row.clientId.value, Birthday, since)) == 0
    ensures OneBirthdaySince(log + [row], since)
  {
    forall id
      ensures Count(log + [row], ForClientSince(id, Birthday, since)) <= 1
    {
      CountAppendRow(log, row, ForClientSince(id, Birthday, since));
    }
  }

  /** A row dated `now`, which is not a rescue or is one for a client with no rescue row in
      the last thirty days, keeps the rescue rows spaced. */
  lemma AppendRescue(log: seq<LogRow>, row: LogRow, now: int)
    requires RescueSpaced(log) && NotAfter(log, now) && row.sentAt == now && row.clientId.Some?
    requires row.kind == Rescue ==> Count(log, ForClientSince(row.clientId.value, Rescue, now - Cooldown)) == 0
    ensures RescueSpaced(log + [row]) && NotAfter(log + [row], now)
  {
    var r := log + [row];
    if row.kind == Rescue {
      CountZeroIff(log, ForClientSince(row.clientId.value, Rescue, now - Cooldown));
    }
    forall i, j | 0 <= i < j < |r| && RescuePair(r[i], r[j])
      ensures r[j].sentAt - r[i].sentAt > Cooldown
    {
      if j < |log| {
        assert r[i] == log[i] && r[j] == log[j];
      } else {
        assert r[i] == log[i];
        assert !Matches(log[i], ForClientSince(row.clientId.value, Rescue, now - Cooldown));
      }
    }
  }

  lemma SendKeepsGood(w: World, env: Environment, t: Tenant, st: RunState<Result>, index: nat,
                      c: Client, u: Unit, kind: AutomationType, text: string, log0: seq<LogRow>)
    requires Good(w, env, log0, st) && Member(w, t, c) && c.phone != ""
    requires kind == Birthday ==> !AlreadyLogged(st.log, BirthdayQuery(c, w.clock))
    requires kind == Rescue ==> !AlreadyLogged(st.log, RescueQuery(c, w.clock.now))
    ensures Good(w, env, log0, Send(w, env, t, st, index, c, u, kind, text))
  {
    var r := Send(w, env, t, st, index, c, u, kind, text);
    var row := r.log[|st.log|];
    RecordTracks(env, log0, st, row, r.results[|st.results|], r.dispatches[|st.dispatches|]);
    AppendBirthday(st.log, row, w.clock.todayStart);
    if kind == Rescue {
      RescueWindowAtMostOne(st.log, w.clock.now, c.id);
    }
    AppendRescue(st.log, row, w.clock.now);
    forall i | |log0| <= i < |r.log| ensures Reached(w, r.log[i]) {
      if i < |st.log| {
        assert r.log[i] == st.log[i];
      } else {
        assert r.log[i].clientId == Some(c.id);
      }
    }
  }

  lemma BirthdayStepKeepsGood(w: World, env: Environment, t: Tenant, st: RunState<Result>, index: nat,
                              c: Client, u: Unit, log0: seq<LogRow>)
    requires Good(w, env, log0, st) && Member(w, t, c) && c.phone != ""
    ensures Good(w, env, log0, BirthdayStep(w, env, t, st, index, c, u).0)
  {
    if !AlreadyLogged(st.log, BirthdayQuery(c, w.clock)) {
      SendKeepsGood(w, env, t, st, index, c, u, Birthday, BirthdayMessage(t.settings, c), log0);
    }
  }

  lemma RescueStepKeepsGood(w: World, env: Environment, t: Tenant, st: RunState<Result>, index: nat,
                            c: Client, u: Unit, log0: seq<LogRow>)
    requires Good(w, env, log0, st) && Member(w, t, c) && c.phone != "" && c.lastVisitAt.Some?
    ensures Good(w, env, log0, RescueStep(w, env, t, st, index, c, u).0)
  {
    if !AlreadyLogged(st.log, RescueQuery(c, w.clock.now)) {
      var days := DaysSince(w.clock.now, c.lastVisitAt.value);
      SendKeepsGood(w, env, t, st, index, c, u, Rescue, RescueMessage(t.settings, c, days), log0);
    }
  }

  lemma ProcessClientKeepsGood(w: World, env: Environment, t: Tenant, st: RunState<Result>, index: nat,
                               c: Client, log0: seq<LogRow>)
    requires Good(w, env, log0, st) && Member(w, t, c)
    ensures Good(w, env, log0, ProcessClient(w, env, t, st, index, c).0)
  {
    if c.phone != "" && FindUnit(t.units, c.unitId).Some? {
      var u := FindUnit(t.units, c.unitId).value;
      var (st1, i1) := if BirthdayDue(t.settings, w.clock, c) then BirthdayStep(w, env, t, st, index, c, u) else (st, index);
      if BirthdayDue(t.settings, w.clock, c) {
        BirthdayStepKeepsGood(w, env, t, st, index, c, u, log0);
      }
      if RescueDue(t.settings, w.clock.now, c) {
        RescueStepKeepsGood(w, env, t, st1, i1, c, u, log0);
      }
    }
  }

  lemma {:induction false} ProcessClientsKeepsGood(w: World, env: Environment, t: Tenant, st: RunState<Result>,
                                                   index: nat, clients: seq<Client>, log0: seq<LogRow>)
    requires Good(w, env, log0, st)
    requires forall i :: 0 <= i < |clients| ==> Member(w, t, clients[i])
    ensures Good(w, env, log0, ProcessClients(w, env, t, st, index, clients).0)
    decreases |clients|
  {
    if |clients| > 0 {
      ProcessClientKeepsGood(w, env, t, st, index, clients[0], log0);
      var (st', index') := ProcessClient(w, env, t, st, index, clients[0]);
      assert forall i :: 0 <= i < |clients[1..]| ==> clients[1..][i] == clients[i + 1];
      ProcessClientsKeepsGood(w, env, t, st', index', clients[1..], log0);
    }
  }

  lemma ProcessTenantKeepsGood(w: World, env: Environment, st: RunState<Result>, s: Settings, log0: seq<LogRow>)
    requires Good(w, env, log0, st)
    ensures Good(w, env, log0, ProcessTenant(w, env, st, s))
  {
    if InSendWindow(s, w.clock) && s.userId in w.companyOf {
      var company := w.companyOf[s.userId];
      var audience := Audience(w.clients, company);
      var units := SendingUnits(w.units, company);
      if |audience| > 0 && |units| > 0 {
        var t := Tenant(company, s, units, BatchSize(audience, units));
        assert forall i :: 0 <= i < |audience| ==> audience[i] in audience;
        ProcessClientsKeepsGood(w, env, t, st, 0, audience, log0);
      }
    }
  }

  lemma {:induction false} ProcessTenantsKeepsGood(w: World, env: Environment, st: RunState<Result>,
                                                   settings: seq<Settings>, log0: seq<LogRow>)
    requires Good(w, env, log0, st)
    ensures Good(w, env, log0, ProcessTenants(w, env, st, settings))
    decreases |settings|
  {
    if |settings| > 0 {
      ProcessTenantKeepsGood(w, env, st, settings[0], log0);
      ProcessTenantsKeepsGood(w, env, ProcessTenant(w, env, st, settings[0]), settings[1..], log0);
    }
  }

  /** A run on a log that keeps the birthday and rescue invariants, none of whose rows is
      dated after the run's clock, keeps them; it only appends, one row per result, each
      about a client of the tenant with a phone and without opt-out. */
  lemma RunIsGood(w: World, env: Environment, log: seq<LogRow>)
    requires OneBirthdaySince(log, w.clock.todayStart) && RescueSpaced(log) && NotAfter(log, w.clock.now)
    ensures Good(w, env, log, Run(w, env, log).state)
  {
    if w.apiUrl != "" && |Selected(w.settings)| > 0 {
      ProcessTenantsKeepsGood(w, env, Start(log), Selected(w.settings), log);
    }
  }

  /** The first `n` results hold as many sent ones as the first `n` replies accepted. */
  lemma {:induction false} SentCountPrefix(env: Environment, log0: seq<LogRow>, st: RunState<Result>, n: nat)
    requires Tracks(env, log0, st) && n <= |st.results|
    ensures SentCount(st.results[..n]) == OkReplies(env, n)
    decreases n
  {
    if n > 0 {
      SentCountPrefix(env, log0, st, n - 1);
      assert st.results[..n][..n - 1] == st.results[..n - 1];
      assert Describes(st.log[|log0| + (n - 1)], st.results[n - 1]);
      assert Answers(st.log[|log0| + (n - 1)], env.reply(n - 1));
    }
  }

  /** The summary's `sent` is the number of messages the provider accepted with a 2xx
      reply and a JSON body; a result is "sent" exactly for those, "failed" otherwise. */
  lemma RunSentCountsAccepted(w: World, env: Environment, log: seq<LogRow>)
    requires OneBirthdaySince(log, w.clock.todayStart) && RescueSpaced(log) && NotAfter(log, w.clock.now)
    ensures var st := Run(w, env, log).state;
      && st.sent == OkReplies(env, |st.results|)
      && forall i :: 0 <= i < |st.results| ==>
           (st.results[i].status == Sent <==> env.reply(i).Answered? && env.reply(i).ok)
  {
    RunIsGood(w, env, log);
    var st := Run(w, env, log).state;
    SentCountPrefix(env, log, st, |st.results|);
    assert st.results[..|st.results|] == st.results;
    forall i | 0 <= i < |st.results|
      ensures st.results[i].status == Sent <==> env.reply(i).Answered? && env.reply(i).ok
    {
      assert Describes(st.log[|log| + i], st.results[i]);
      assert Answers(st.log[|log| + i], env.reply(i));
    }
  }

  /** Runs compose: a second run later the same day still finds at most one birthday row
      per client since midnight and rescue rows more than thirty days apart. */
  lemma LaterRunKeepsInvariants(w1: World, env1: Environment, w2: World, env2: Environment, log: seq<LogRow>)
    requires OneBirthdaySince(log, w1.clock.todayStart) && RescueSpaced(log) && NotAfter(log, w1.clock.now)
    requires w1.clock.now <= w2.clock.now && w1.clock.todayStart == w2.clock.todayStart
    ensures var log2 := Run(w2, env2, Run(w1, env1, log).state.log).state.log;
      OneBirthdaySince(log2, w2.clock.todayStart) && RescueSpaced(log2) && NotAfter(log2, w2.clock.now)
  {
    RunIsGood(w1, env1, log);
    RunIsGood(w2, env2, Run(w1, env1, log).state.log);
  }

  // ---------------------------------------------------------------------------------
  // Pacing within a tenant.

  /** `after` extends `before`, and each added request waited as its position, counted
      from `index`, and its attempt's draw say. */
  predicate WaitsFrom(before: seq<Dispatch>, after: seq<Dispatch>, total: nat, env: Environment, index: nat)
  {
    && |before| <= |after|
    && after[..|before|] == before
    && forall k :: |before| <= k < |after| ==>
         after[k].wait == WaitBefore(index + (k - |before|), total, env.pacing(k))
  }

  lemma WaitsTrans(d0: seq<Dispatch>, d1: seq<Dispatch>, d2: seq<Dispatch>, total: nat, env: Environment, index: nat)
    requires WaitsFrom(d0, d1, total, env, index)
    requires WaitsFrom(d1, d2, total, env, index + (|d1| - |d0|))
    ensures WaitsFrom(d0, d2, total, env, index)
  {
    assert d2[..|d0|] == d1[..|d0|] by {
      assert d2[..|d0|] == d2[..|d1|][..|d0|];
    }
    forall k | |d0| <= k < |d2|
      ensures d2[k].wait == WaitBefore(index + (k - |d0|), total, env.pacing(k))
    {
      if k < |d1| {
        assert d2[k] == d2[..|d1|][k];
      }
    }
  }

  predicate Advanced(st: RunState<Result>, r: (RunState<Result>, nat), t: Tenant, env: Environment, index: nat)
  {
    WaitsFrom(st.dispatches, r.0.dispatches, t.total, env, index)
    && r.1 == index + (|r.0.dispatches| - |st.dispatches|)
  }

  lemma SendPacing(w: World, env: Environment, t: Tenant, st: RunState<Result>, index: nat,
                   c: Client, u: Unit, kind: AutomationType, text: string)
    ensures Advanced(st, (Send(w, env, t, st, index, c, u, kind, text), index + 1), t, env, index)
  {
    var r := Send(w, env, t, st, index, c, u, kind, text);
    assert r.dispatches[..|st.dispatches|] == st.dispatches;
  }

  lemma AdvancedTrans(st0: RunState<Result>, r1: (RunState<Result>, nat), r2: (RunState<Result>, nat),
                      t: Tenant, env: Environment, index: nat)
    requires Advanced(st0, r1, t, env, index) && Advanced(r1.0, r2, t, env, r1.1)
    ensures Advanced(st0, r2, t, env, index)
  {
    WaitsTrans(st0.dispatches, r1.0.dispatches, r2.0.dispatches, t.total, env, index);
  }

  lemma BirthdayStepPacing(w: World, env: Environment, t: Tenant, st: RunState<Result>, index: nat, c: Client, u: Unit)
    ensures Advanced(st, BirthdayStep(w, env, t, st, index, c, u), t, env, index)
  {
    if !AlreadyLogged(st.log, BirthdayQuery(c, w.clock)) {
      SendPacing(w, env, t, st, index, c, u, Birthday, BirthdayMessage(t.settings, c));
    }
  }

  lemma RescueStepPacing(w: World, env: Environment, t: Tenant, st: RunState<Result>, index: nat, c: Client, u: Unit)
    requires c.lastVisitAt.Some?
    ensures Advanced(st, RescueStep(w, env, t, st, index, c, u), t, env, index)
  {
    if !AlreadyLogged(st.log, RescueQuery(c, w.clock.now)) {
      var days := DaysSince(w.clock.now, c.lastVisitAt.value);
      SendPacing(w, env, t, st, index, c, u, Rescue, RescueMessage(t.settings, c, days));
    }
  }

  lemma ProcessClientPacing(w: World, env: Environment, t: Tenant, st: RunState<Result>, index: nat, c: Client)
    ensures Advanced(st, ProcessClient(w, env, t, st, index, c), t, env, index)
  {
    if c.phone != "" && FindUnit(t.units, c.unitId).Some? {
      var u := FindUnit(t.units, c.unitId).value;
      var r1 := if BirthdayDue(t.settings, w.clock, c) then BirthdayStep(w, env, t, st, index, c, u) else (st, index);
      if BirthdayDue(t.settings, w.clock, c) {
        BirthdayStepPacing(w, env, t, st, index, c, u);
      }
      if RescueDue(t.settings, w.clock.now, c) {
        RescueStepPacing(w, env, t, r1.0, r1.1, c, u);
        AdvancedTrans(st, r1, RescueStep(w, env, t, r1.0, r1.1, c, u), t, env, index);
      }
    }
  }

  /** Within a tenant the n-th message counted from `index` waits `WaitBefore(index + n,
      ...)`, whichever client and automation it is for, and the index advances by the
      messages sent. */
  lemma {:induction false} ProcessClientsPacing(w: World, env: Environment, t: Tenant, st: RunState<Result>,
                                                index: nat, clients: seq<Client>)
    ensures Advanced(st, ProcessClients(w, env, t, st, index, clients), t, env, index)
    decreases |clients|
  {
    if |clients| > 0 {
      var r1 := ProcessClient(w, env, t, st, index, clients[0]);
      ProcessClientPacing(w, env, t, st, index, clients[0]);
      ProcessClientsPacing(w, env, t, r1.0, r1.1, clients[1..]);
      AdvancedTrans(st, r1, ProcessClients(w, env, t, r1.0, r1.1, clients[1..]), t, env, index);
    }
  }

  /** A served tenant's first message goes out at once; every later one waits a delay from
      the band of the number of clients with a phone and a sending unit (not the number of
      messages: a client may get two, or none). */
  lemma TenantPacing(w: World, env: Environment, st: RunState<Result>, s: Settings)
    requires InSendWindow(s, w.clock) && s.userId in w.companyOf
    ensures var company := w.companyOf[s.userId];
      var size := BatchSize(Audience(w.clients, company), SendingUnits(w.units, company));
      var r := ProcessTenant(w, env, st, s);
      && |st.dispatches| <= |r.dispatches| && r.dispatches[..|st.dispatches|] == st.dispatches
      && (|r.dispatches| > |st.dispatches| ==> r.dispatches[|st.dispatches|].wait == 0)
      && forall k :: |st.dispatches| < k < |r.dispatches| ==> InBand(r.dispatches[k].wait, BandFor(size))
  {
    var company := w.companyOf[s.userId];
    var audience := Audience(w.clients, company);
    var units := SendingUnits(w.units, company);
    if |audience| > 0 && |units| > 0 {
      ProcessClientsPacing(w, env, Tenant(company, s, units, BatchSize(audience, units)), st, 0, audience);
    }
  }

  // ---------------------------------------------------------------------------------
  // Conservation.

  /** The automations due for a client the loop does not pass over. */
  function DueFor(w: World, t: Tenant, c: Client): nat
  {
    if Reachable(c, t.units) then
      (if BirthdayDue(t.settings, w.clock, c) then 1 else 0) + (if RescueDue(t.settings, w.clock.now, c) then 1 else 0)
    else 0
  }

  function DueCount(w: World, t: Tenant, clients: seq<Client>): nat
    decreases |clients|
  {
    if |clients| == 0 then 0 else DueFor(w, t, clients[0]) + DueCount(w, t, clients[1..])
  }

  lemma ProcessClientConservation(w: World, env: Environment, t: Tenant, st: RunState<Result>, index: nat, c: Client)
    ensures var r := ProcessClient(w, env, t, st, index, c).0;
      && |r.results| >= |st.results| && r.skipped >= st.skipped
      && (r.skipped - st.skipped) + (|r.results| - |st.results|) == DueFor(w, t, c)
  {
  }

  /** Every automation due for a reachable client is either skipped or sent, once. */
  lemma {:induction false} ProcessClientsConservation(w: World, env: Environment, t: Tenant, st: RunState<Result>,
                                                      index: nat, clients: seq<Client>)
    ensures var r := ProcessClients(w, env, t, st, index, clients).0;
      && |r.results| >= |st.results| && r.skipped >= st.skipped
      && (r.skipped - st.skipped) + (|r.results| - |st.results|) == DueCount(w, t, clients)
    decreases |clients|
  {
    if |clients| > 0 {
      var (st', index') := ProcessClient(w, env, t, st, index, clients[0]);
      ProcessClientConservation(w, env, t, st, index, clients[0]);
      ProcessClientsConservation(w, env, t, st', index', clients[1..]);
    }
  }

  /** A reachable client due both automations, with neither logged, gets two messages, the
      birthday one first. */
  lemma BothAutomations(w: World, env: Environment, t: Tenant, st: RunState<Result>, index: nat, c: Client)
    requires Reachable(c, t.units)
    requires BirthdayDue(t.settings, w.clock, c) && RescueDue(t.settings, w.clock.now, c)
    requires Count(st.log, BirthdayQuery(c, w.clock)) == 0 && Count(st.log, RescueQuery(c, w.clock.now)) == 0
    ensures var (r, next) := ProcessClient(w, env, t, st, index, c);
      && next == index + 2
      && |r.results| == |st.results| + 2
      && r.results[|st.results|].kind == Birthday && r.results[|st.results|].client == c.name
      && r.results[|st.results| + 1].kind == Rescue && r.results[|st.results| + 1].client == c.name
  {
    var u := FindUnit(t.units, c.unitId).value;
    var (st1, i1) := BirthdayStep(w, env, t, st, index, c, u);
    CountAppendRow(st.log, st1.log[|st.log|], RescueQuery(c, w.clock.now));
    assert st1.log == st.log + [st1.log[|st.log|]];
  }

  // ---------------------------------------------------------------------------------
  // The conditions.

  /** For a birth date stored as `YYYY-MM-DD`, the comparison is on `MM-DD`. */
  lemma BirthDateMonthDay(year: string, month: string, day: string)
    requires |year| == 4 && |month| == 2 && |day| == 2
    ensures Substring(year + "-" + month + "-" + day, 5, 10) == month + "-" + day
  {
    var s := year + "-" + month + "-" + day;
    assert s[5..10] == month + "-" + day;
  }

  /** A rescue is due exactly when at least the threshold of whole days, in milliseconds,
      has passed since the last visit. */
  lemma RescueDueIff(s: Settings, now: int, c: Client)
    ensures RescueDue(s, now, c) <==>
      s.rescueEnabled && c.lastVisitAt.Some? && now - c.lastVisitAt.value >= RescueDays(s) * DayMs
  {
    if c.lastVisitAt.Some? {
      var x := now - c.lastVisitAt.value;
      var q := x / DayMs;
      assert q * DayMs <= x < q * DayMs + DayMs;
      if q >= RescueDays(s) {
        assert q * DayMs >= RescueDays(s) * DayMs;
      } else {
        assert (q + 1) * DayMs <= RescueDays(s) * DayMs;
      }
    }
  }

  /** With no send time configured, a tenant is served from 09:57 to 10:03. */
  lemma DefaultSendWindow(s: Settings, clock: Clock)
    requires s.sendHour.None? && s.sendMinute.None?
    ensures InSendWindow(s, clock) <==> 597 <= clock.hour * 60 + clock.minute <= 603
  {
  }

  /** The gate does not wrap around midnight: a tenant configured for 00:00 is not served
      at 23:59. */
  lemma GateDoesNotWrap(s: Settings, clock: Clock)
    requires s.sendHour == Some(0) && s.sendMinute == Some(0)
    requires clock.hour == 23 && clock.minute == 59
    ensures !InSendWindow(s, clock)
  {
  }

  // ---------------------------------------------------------------------------------
  // The messages.

  lemma NameVocabulary(name: string)
    requires NoBrace(name)
    ensures Vocabulary(Synonyms(["nome", "name"], name))
  {
    assert IsWord("nome") && IsWord("name");
    SynonymsVocabulary(["nome", "name"], name);
  }

  /** A tenant's birthday template is rendered as the reference renderer reads it, with
      `{{nome}}` and `{{name}}`, in any case, bound to the client's name. */
  lemma BirthdayMessageResolves(s: Settings, c: Client, template: seq<Piece>)
    requires WellFormed(template) && s.birthdayTemplate == Flatten(template) != ""
    requires NoBrace(c.name)
    ensures BirthdayMessage(s, c) == Resolve(template, Synonyms(["nome", "name"], c.name))
  {
    NameVocabulary(c.name);
    RenderResolves(template, Synonyms(["nome", "name"], c.name));
  }

  /** The rescue bindings are lower-case placeholders bound to values free of `{`. */
  lemma RescueVocabulary(c: Client, days: int)
    requires NoBrace(c.name)
    ensures Vocabulary(RescueBindings(c, days))
  {
    NameVocabulary(c.name);
    assert IsWord("dias");
    SynonymsVocabulary(["dias"], IntToString(days));
    VocabularyConcat(Synonyms(["nome", "name"], c.name), Synonyms(["dias"], IntToString(days)));
  }

  /** A tenant's rescue template is rendered as the reference renderer reads it, with the
      name bound as for birthdays and `{{dias}}` bound to the whole days since the visit. */
  lemma RescueMessageResolves(s: Settings, c: Client, days: int, template: seq<Piece>)
    requires WellFormed(template) && s.rescueTemplate == Flatten(template) != ""
    requires NoBrace(c.name)
    ensures RescueMessage(s, c, days) == Resolve(template, RescueBindings(c, days))
  {
    RescueVocabulary(c, days);
    RenderResolves(template, RescueBindings(c, days));
  }

  lemma BirthdayPiecesWellFormed()
    ensures WellFormed(BirthdayPieces)
  {
    var ps := BirthdayPieces;
    KeyPieceWellFormed("nome");
    forall i | 0 <= i < |ps| ensures WellFormedPiece(ps[i]) {
      if i == 1 { assert ps[i] == Placeholder(Key("nome")); }
    }
  }

  lemma RescueTextNoBrace()
    ensures NoBrace("Olá ") && NoBrace("! Sentimos sua falta. Que tal agendar uma visita?")
  {
    var a, b := "! Sentimos sua falta.", " Que tal agendar uma visita?";
    assert NoBrace(a);
    assert NoBrace(b);
    NoBraceConcat(a, b);
    assert a + b == "! Sentimos sua falta. Que tal agendar uma visita?";
  }

  lemma RescuePiecesWellFormed()
    ensures WellFormed(RescuePieces)
  {
    var ps := RescuePieces;
    RescueTextNoBrace();
    KeyPieceWellFormed("nome");
    forall i | 0 <= i < |ps| ensures WellFormedPiece(ps[i]) {
      if i == 1 { assert ps[i] == Placeholder(Key("nome")); }
    }
  }

  lemma BirthdayPiecesResolve(name: string)
    requires NoBrace(name)
    ensures var ps, subs, parts := BirthdayPieces, Synonyms(["nome", "name"], name), ["Feliz aniversário, ", name, "! 🎂"];
      |ps| == |parts| && forall k :: 0 <= k < |ps| ==> ResolvePiece(ps[k], subs) == parts[k]
  {
    var ps, subs, parts := BirthdayPieces, Synonyms(["nome", "name"], name), ["Feliz aniversário, ", name, "! 🎂"];
    NameVocabulary(name);
    forall k | 0 <= k < |ps| ensures ResolvePiece(ps[k], subs) == parts[k] {
      if k == 1 {
        assert subs[0].key == Key("nome");
        ResolveBoundKey(subs, Key("nome"));
      } else {
        assert ps[k] == Text(parts[k]);
      }
    }
  }

  lemma RescuePiecesResolve(c: Client, days: int)
    requires NoBrace(c.name)
    ensures var ps, subs, parts := RescuePieces, RescueBindings(c, days),
                                   ["Olá ", c.name, "! Sentimos sua falta. Que tal agendar uma visita?"];
      |ps| == |parts| && forall k :: 0 <= k < |ps| ==> ResolvePiece(ps[k], subs) == parts[k]
  {
    var ps, subs := RescuePieces, RescueBindings(c, days);
    var parts := ["Olá ", c.name, "! Sentimos sua falta. Que tal agendar uma visita?"];
    RescueVocabulary(c, days);
    forall k | 0 <= k < |ps| ensures ResolvePiece(ps[k], subs) == parts[k] {
      if k == 1 {
        assert subs[0].key == Key("nome");
        ResolveBoundKey(subs, Key("nome"));
      } else {
        assert ps[k] == Text(parts[k]);
      }
    }
  }

  /** Without a template of its own, the birthday message greets the client by name. */
  lemma DefaultBirthdayText(s: Settings, c: Client)
    requires s.birthdayTemplate == "" && NoBrace(c.name)
    ensures BirthdayMessage(s, c) == Concat(["Feliz aniversário, ", c.name, "! 🎂"])
  {
    var ps, subs := BirthdayPieces, Synonyms(["nome", "name"], c.name);
    BirthdayPiecesWellFormed();
    NameVocabulary(c.name);
    RenderResolves(ps, subs);
    BirthdayPiecesResolve(c.name);
    ResolveParts(ps, subs, ["Feliz aniversário, ", c.name, "! 🎂"]);
  }

  /** Without a template of its own, the rescue message greets the client by name and
      invites a visit; the built-in text has no `{{dias}}`, so the days do not show. */
  lemma DefaultRescueText(s: Settings, c: Client, days: int)
    requires s.rescueTemplate == "" && NoBrace(c.name)
    ensures RescueMessage(s, c, days) == Concat(["Olá ", c.name, "! Sentimos sua falta. Que tal agendar uma visita?"])
  {
    var ps, subs := RescuePieces, RescueBindings(c, days);
    RescuePiecesWellFormed();
    RescueVocabulary(c, days);
    RenderResolves(ps, subs);
    RescuePiecesResolve(c, days);
    ResolveParts(ps, subs, ["Olá ", c.name, "! Sentimos sua falta. Que tal agendar uma visita?"]);
  }
}

=== FILE: pacing.dfy ===
/**
 * Humanised pacing between outbound messages (`getHumanizedDelay`, identical in both
 * jobs). The band depends only on the size of the batch; a uniform draw `u` in [0, 1)
 * stands for `Math.random()`, and the delay is `floor(lo + (hi - lo) * u)` milliseconds.
 */
module Pacing {

  /** The half-open band `[lo, hi)` of delays in milliseconds. */
  datatype Band = Band(lo: int, hi: int)

  function BandFor(total: int): (b: Band)
    ensures total <= 3 ==> b == Band(3000, 8000)
    ensures 3 < total <= 10 ==> b == Band(8000, 20000)
    ensures 10 < total ==> b == Band(15000, 45000)
  {
    if total <= 3 then Band(3000, 8000)
    else if total <= 10 then Band(8000, 20000)
    else Band(15000, 45000)
  }

  predicate IsDraw(u: real)
  {
    0.0 <= u < 1.0
  }

  predicate InBand(d: int, b: Band)
  {
    b.lo <= d < b.hi
  }

  /** The delay before a message of a batch of `total`, for the random factor `u`. */
  function HumanizedDelay(total: int, u: real): (d: int)
    requires IsDraw(u)
    ensures InBand(d, BandFor(total))
  {
    var b := BandFor(total);
    (b.lo as real + (b.hi - b.lo) as real * u).Floor
  }

  /** Every delay of the band is produced by some draw: the band is exact, not just a
      bound. */
  lemma DelayCoversBand(total: int, d: int)
    requires InBand(d, BandFor(total))
    ensures exists u :: IsDraw(u) && HumanizedDelay(total, u) == d
  {
    var b := BandFor(total);
    var u := (d - b.lo) as real / (b.hi - b.lo) as real;
    assert (b.hi - b.lo) as real * u == (d - b.lo) as real;
    assert HumanizedDelay(total, u) == d;
  }

  /** Larger batches are never paced faster: both ends of the band grow with the size. */
  lemma BandMonotone(small: int, large: int)
    requires small <= large
    ensures BandFor(small).lo <= BandFor(large).lo
    ensures BandFor(small).hi <= BandFor(large).hi
  {
  }

  /** The wait before the attempt at position `index` of a batch: none before the first
      attempt, one humanised delay before every later one. */
  function WaitBefore(index: nat, total: int, u: real): (w: int)
    requires IsDraw(u)
    ensures index == 0 ==> w == 0
    ensures index > 0 ==> InBand(w, BandFor(total))
  {
    if index > 0 then HumanizedDelay(total, u) else 0
  }

  /** The simulated typing delay sent with each message, `floor(1500 + u * 2000)`. */
  function PresenceDelay(u: real): (d: int)
    requires IsDraw(u)
    ensures 1500 <= d < 3500
  {
    (1500.0 + u * 2000.0).Floor
  }
}

=== FILE: phone.dfy ===
/**
 * Destination addresses for the messaging channel. Both jobs strip every non-digit
 * from the stored phone and prefix Brazil's country code "55" when at most eleven
 * digits remain (a national number with area code).
 */
module Phone {
  import opened Strings

  const CountryCode: string := "55"
  const MaxNationalDigits: nat := 11

  function Normalize(raw: string): (r: string)
    ensures AllDigits(r)
    ensures var d := DigitsOnly(raw);
      if |d| <= MaxNationalDigits then r == CountryCode + d else r == d
  {
    var d := DigitsOnly(raw);
    if |d| <= MaxNationalDigits then CountryCode + d else d
  }

  /** The digits of the result are exactly the digits of the input, after an optional
      country-code prefix: nothing is reordered or lost. */
  lemma NormalizeKeepsDigits(raw: string)
    ensures var r := Normalize(raw); var d := DigitsOnly(raw);
      |r| >= |d| && r[|r| - |d|..] == d
      && |r| - |d| in {0, 2}
  {
  }

  /** Normalizing twice gives the same address exactly when the input holds at least ten
      digits: shorter numbers gain a second "55" on every pass. */
  lemma {:induction false} NormalizeIdempotentIff(raw: string)
    ensures Normalize(Normalize(raw)) == Normalize(raw) <==> |DigitsOnly(raw)| >= 10
  {
    var d := DigitsOnly(raw);
    var r := Normalize(raw);
    DigitsOnlyOfDigits(r);
    if |d| <= MaxNationalDigits {
      assert |r| == |d| + 2;
      if |d| < 10 {
        assert |Normalize(r)| == |r| + 2;
      }
    }
  }

  /** A mobile number written the Brazilian way, "(AA) NNNNN-NNNN", becomes the bare
      digits behind the country code. */
  lemma {:induction false} NormalizeFormattedMobile(area: string, first: string, last: string)
    requires |area| == 2 && |first| == 5 && |last| == 4
    requires AllDigits(area) && AllDigits(first) && AllDigits(last)
    ensures Normalize("(" + area + ") " + first + "-" + last) == CountryCode + area + first + last
  {
    var raw := "(" + area + ") " + first + "-" + last;
    DigitsOnlyConcat("(" + area + ") " + first + "-", last);
    DigitsOnlyConcat("(" + area + ") " + first, "-");
    DigitsOnlyConcat("(" + area + ") ", first);
    DigitsOnlyConcat("(" + area, ") ");
    DigitsOnlyConcat("(", area);
    DigitsOnlyOfDigits(area);
    DigitsOnlyOfDigits(first);
    DigitsOnlyOfDigits(last);
    assert DigitsOnly("(") == "" && DigitsOnly(") ") == "" && DigitsOnly("-") == "";
    assert DigitsOnly(raw) == area + first + last;
  }
}

=== FILE: reminder_properties.dfy ===
/**
 * What the reminder job guarantees, proved about the model in `Reminders`:
 *
 *  - bookkeeping: every attempted reminder appends exactly one log row and one result,
 *    in the same order, with the same status; the `sent` counter counts the sent ones;
 *  - at most one reminder row per appointment, whatever the number of runs;
 *  - an appointment already logged is never messaged again;
 *  - pacing: inside a unit's batch the first attempt goes out at once and every later
 *    one waits a delay from the band of the batch's size;
 *  - conservation: every appointment that reaches a credentialed unit is either skipped
 *    or attempted, exactly once; the others are neither;
 *  - the window and the message.
 */
module ReminderProperties {
  import opened Common
  import opened Seqs
  import opened Strings
  import opened Pacing
  import opened Template
  import opened AutomationLog
  import opened Channel
  import opened Reminders

  // ---------------------------------------------------------------------------------
  // Bookkeeping.

  /** A log row records a result when it is the reminder row of the same appointment,
      with the same status and error. */
  predicate Describes(row: LogRow, res: Result)
  {
    && row.appointmentId == Some(res.appointmentId)
    && row.kind == AppointmentReminder
    && row.status == res.status
    && row.error == res.error
  }

  function SentCount(rs: seq<Result>): nat
    decreases |rs|
  {
    if |rs| == 0 then 0
    else SentCount(rs[..|rs| - 1]) + (if rs[|rs| - 1].status == Sent then 1 else 0)
  }

  /** The state after some sends from a log `log0`: the log is `log0` followed by one
      row per result, row i describing result i and recording the reply to attempt i;
      one request per result; and `sent` is the number of sent results. */
  predicate Tracks(env: Environment, log0: seq<LogRow>, st: RunState<Result>)
  {
    && |st.log| == |log0| + |st.results|
    && |st.dispatches| == |st.results|
    && st.log[..|log0|] == log0
    && (forall i :: 0 <= i < |st.results| ==> Describes(st.log[|log0| + i], st.results[i]))
    && (forall i :: 0 <= i < |st.results| ==> Answers(st.log[|log0| + i], env.reply(i)))
    && st.sent == SentCount(st.results)
  }

  /** No appointment has two reminder rows. */
  ghost predicate OneRowPerAppointment(log: seq<LogRow>)
  {
    forall id :: Count(log, ForAppointment(id)) <= 1
  }

  ghost predicate Good(env: Environment, log0: seq<LogRow>, st: RunState<Result>)
  {
    Tracks(env, log0, st) && OneRowPerAppointment(st.log)
  }

  /** Appending one row that describes one new result, for an appointment not yet logged,
      keeps the invariant. */
  lemma {:induction false} AppendKeepsGood(env: Environment, log0: seq<LogRow>, st: RunState<Result>,
                                           r: RunState<Result>, a: Appointment)
    requires Good(env, log0, st) && !AlreadyLogged(st.log, ForAppointment(a.id))
    requires |r.log| == |st.log| + 1 && r.log[..|st.log|] == st.log
    requires |r.results| == |st.results| + 1 && r.results[..|st.results|] == st.results
    requires |r.dispatches| == |st.dispatches| + 1
    requires Describes(r.log[|st.log|], r.results[|st.results|]) && r.results[|st.results|].appointmentId == a.id
    requires Answers(r.log[|st.log|], env.reply(|st.results|))
    requires r.sent == st.sent + (if r.results[|st.results|].status == Sent then 1 else 0)
    ensures Good(env, log0, r)
  {
    var row := r.log[|st.log|];
    assert r.log == st.log + [row];
    assert r.log[..|log0|] == log0 by {
      assert r.log[..|log0|] == st.log[..|log0|];
    }
    assert r.results == st.results + [r.results[|st.results|]];
    forall i | 0 <= i < |r.results|
      ensures Describes(r.log[|log0| + i], r.results[i]) && Answers(r.log[|log0| + i], env.reply(i))
    {
      if i < |st.results| {
        assert r.log[|log0| + i] == st.log[|log0| + i];
        assert r.results[i] == st.results[i];
      }
    }
    forall id
      ensures Count(r.log, ForAppointment(id)) <= 1
    {
      CountAppendRow(st.log, row, ForAppointment(id));
    }
  }

  lemma AttemptKeepsGood(w: World, env: Environment, b: Batch, st: RunState<Result>,
                         index: nat, a: Appointment, log0: seq<LogRow>)
    requires Good(env, log0, st) && !AlreadyLogged(st.log, ForAppointment(a.id))
    ensures Good(env, log0, Attempt(w, env, b, st, index, a))
  {
    AppendKeepsGood(env, log0, st, Attempt(w, env, b, st, index, a), a);
  }

  lemma ProcessAppointmentKeepsGood(w: World, env: Environment, b: Batch, st: RunState<Result>,
                                    index: nat, a: Appointment, log0: seq<LogRow>)
    requires Good(env, log0, st)
    ensures Good(env, log0, ProcessAppointment(w, env, b, st, index, a).0)
  {
    if !AlreadyLogged(st.log, ForAppointment(a.id)) {
      AttemptKeepsGood(w, env, b, st, index, a, log0);
    }
  }

  lemma {:induction false} ProcessBatchKeepsGood(w: World, env: Environment, b: Batch, st: RunState<Result>,
                                                 index: nat, apts: seq<Appointment>, log0: seq<LogRow>)
    requires Good(env, log0, st)
    ensures Good(env, log0, ProcessBatch(w, env, b, st, index, apts).0)
    decreases |apts|
  {
    if |apts| > 0 {
      ProcessAppointmentKeepsGood(w, env, b, st, index, apts[0], log0);
      var (st', index') := ProcessAppointment(w, env, b, st, index, apts[0]);
      ProcessBatchKeepsGood(w, env, b, st', index', apts[1..], log0);
    }
  }

  lemma {:induction false} ProcessUnitsKeepsGood(w: World, env: Environment, company: string, template: string,
                                                 st: RunState<Result>, order: seq<string>, phoned: seq<Appointment>,
                                                 log0: seq<LogRow>)
    requires Good(env, log0, st)
    ensures Good(env, log0, ProcessUnits(w, env, company, template, st, order, phoned))
    decreases |order|
  {
    if |order| > 0 {
      var st' := st;
      match ReminderSender(w.units, order[0]) {
        case None =>
        case Some(sender) =>
          var g := Group(phoned, order[0]);
          ProcessBatchKeepsGood(w, env, Batch(company, template, sender, |g|), st, 0, g, log0);
          st' := ProcessBatch(w, env, Batch(company, template, sender, |g|), st, 0, g).0;
      }
      ProcessUnitsKeepsGood(w, env, company, template, st', order[1..], phoned, log0);
    }
  }

  lemma {:induction false} ProcessTenantsKeepsGood(w: World, env: Environment, st: RunState<Result>,
                                                   settings: seq<Settings>, log0: seq<LogRow>)
    requires Good(env, log0, st)
    ensures Good(env, log0, ProcessTenants(w, env, st, settings))
    decreases |settings|
  {
    if |settings| > 0 {
      var s := settings[0];
      if s.userId in w.companyOf {
        var company := w.companyOf[s.userId];
        var phoned := Phoned(w, company, s);
        ProcessUnitsKeepsGood(w, env, company, s.template, st, UnitOrder(phoned), phoned, log0);
      }
      ProcessTenantsKeepsGood(w, env, ProcessTenant(w, env, st, s), settings[1..], log0);
    }
  }

  /** A run on a log with at most one reminder row per appointment leaves it that way,
      only appends to it, and appends exactly one row per result, in order, each with the
      result's status; `sent` counts the sent results and one request goes out per row. */
  lemma RunIsGood(w: World, env: Environment, log: seq<LogRow>)
    requires OneRowPerAppointment(log)
    ensures Good(env, log, Run(w, env, log).state)
  {
    if w.apiUrl != "" && |Enabled(w.settings)| > 0 {
      ProcessTenantsKeepsGood(w, env, Start(log), Enabled(w.settings), log);
    }
  }

  /** The first `n` results hold as many sent ones as the first `n` replies accepted. */
  lemma {:induction false} SentCountPrefix(env: Environment, log0: seq<LogRow>, st: RunState<Result>, n: nat)
    requires Tracks(env, log0, st) && n <= |st.results|
    ensures SentCount(st.results[..n]) == OkReplies(env, n)
    decreases n
  {
    if n > 0 {
      SentCountPrefix(env, log0, st, n - 1);
      assert st.results[..n][..n - 1] == st.results[..n - 1];
      assert Describes(st.log[|log0| + (n - 1)], st.results[n - 1]);
      assert Answers(st.log[|log0| + (n - 1)], env.reply(n - 1));
    }
  }

  /** The summary's `sent` is the number of attempts the provider accepted with a 2xx
      reply and a JSON body; every other attempt is logged failed. */
  lemma RunSentCountsAccepted(w: World, env: Environment, log: seq<LogRow>)
    requires OneRowPerAppointment(log)
    ensures var st := Run(w, env, log).state;
      && st.sent == OkReplies(env, |st.results|)
      && forall i :: 0 <= i < |st.results| ==>
           (st.results[i].status == Sent <==> env.reply(i).Answered? && env.reply(i).ok)
  {
    RunIsGood(w, env, log);
    var st := Run(w, env, log).state;
    SentCountPrefix(env, log, st, |st.results|);
    assert st.results[..|st.results|] == st.results;
    forall i | 0 <= i < |st.results|
      ensures st.results[i].status == Sent <==> env.reply(i).Answered? && env.reply(i).ok
    {
      assert Describes(st.log[|log| + i], st.results[i]);
      assert Answers(st.log[|log| + i], env.reply(i));
    }
  }

  /** Runs compose: after any number of runs the log still has at most one reminder row
      per appointment, so two overlapping invocations that run one after the other never
      remind twice. */
  lemma TwoRunsOneRowEach(w1: World, env1: Environment, w2: World, env2: Environment, log: seq<LogRow>)
    requires OneRowPerAppointment(log)
    ensures OneRowPerAppointment(Run(w2, env2, Run(w1, env1, log).state.log).state.log)
  {
    RunIsGood(w1, env1, log);
    RunIsGood(w2, env2, Run(w1, env1, log).state.log);
  }

  /** An appointment whose reminder is already logged gets no result, no new row and so no
      message, in any later run. */
  lemma {:induction false} LoggedAppointmentNotRemindedAgain(w: World, env: Environment, log: seq<LogRow>, id: string)
    requires OneRowPerAppointment(log) && AlreadyLogged(log, ForAppointment(id))
    ensures var st := Run(w, env, log).state;
      && Count(st.log, ForAppointment(id)) == 1
      && forall i :: 0 <= i < |st.results| ==> st.results[i].appointmentId != id
  {
    RunIsGood(w, env, log);
    var st := Run(w, env, log).state;
    var rest := st.log[|log|..];
    assert st.log == log + rest;
    CountConcat(log, rest, ForAppointment(id));
    CountZeroIff(rest, ForAppointment(id));
    forall i | 0 <= i < |st.results|
      ensures st.results[i].appointmentId != id
    {
      assert rest[i] == st.log[|log| + i];
    }
  }

  // ---------------------------------------------------------------------------------
  // Pacing inside a unit's batch.

  /** The request made at attempt number `k`, the `position`-th attempt of its batch:
      it waited as the position and the attempt's draw say, and carries the unit's
      credentials. */
  predicate Fits(d: Dispatch, b: Batch, env: Environment, position: nat, k: nat)
  {
    && d.wait == WaitBefore(position, b.total, env.pacing(k))
    && d.instance == b.sender.instance
    && d.apiKey == b.sender.apiKey
  }

  /** `after` extends `before`, and every added request fits its position, counted from
      `index`. */
  predicate Paced(before: seq<Dispatch>, after: seq<Dispatch>, b: Batch, env: Environment, index: nat)
  {
    && |before| <= |after|
    && after[..|before|] == before
    && forall k :: |before| <= k < |after| ==> Fits(after[k], b, env, index + (k - |before|), k)
  }

  lemma PacedTrans(d0: seq<Dispatch>, d1: seq<Dispatch>, d2: seq<Dispatch>, b: Batch, env: Environment, index: nat)
    requires Paced(d0, d1, b, env, index)
    requires Paced(d1, d2, b, env, index + (|d1| - |d0|))
    ensures Paced(d0, d2, b, env, index)
  {
    assert d2[..|d0|] == d1[..|d0|] by {
      assert d2[..|d0|] == d2[..|d1|][..|d0|];
    }
    forall k | |d0| <= k < |d2| ensures Fits(d2[k], b, env, index + (k - |d0|), k) {
      if k < |d1| {
        assert d2[k] == d2[..|d1|][k];
      }
    }
  }

  lemma AppointmentPacing(w: World, env: Environment, b: Batch, st: RunState<Result>, index: nat, a: Appointment)
    ensures var (r, next) := ProcessAppointment(w, env, b, st, index, a);
      Paced(st.dispatches, r.dispatches, b, env, index) && next == index + (|r.dispatches| - |st.dispatches|)
  {
    var p := ProcessAppointment(w, env, b, st, index, a);
    if AlreadyLogged(st.log, ForAppointment(a.id)) {
      assert p.0.dispatches == st.dispatches && p.1 == index;
    } else {
      AttemptFits(w, env, b, st, index, a);
      assert p == (Attempt(w, env, b, st, index, a), index + 1);
    }
  }

  /** An attempt adds one request, from the batch's sender, with the wait of its position. */
  lemma AttemptFits(w: World, env: Environment, b: Batch, st: RunState<Result>, index: nat, a: Appointment)
    ensures var r := Attempt(w, env, b, st, index, a);
      && |r.dispatches| == |st.dispatches| + 1
      && r.dispatches[..|st.dispatches|] == st.dispatches
      && Fits(r.dispatches[|st.dispatches|], b, env, index, |st.dispatches|)
  {
    var r := Attempt(w, env, b, st, index, a);
    assert r.dispatches[..|st.dispatches|] == st.dispatches;
  }

  /** The batch appends requests to those already sent; the request of the batch's n-th
      attempt waits `WaitBefore(index + n, ...)` with the draw of its attempt number and
      carries the unit's credentials, and the index ends advanced by the attempts made. */
  lemma {:induction false} BatchPacing(w: World, env: Environment, b: Batch, st: RunState<Result>,
                                       index: nat, apts: seq<Appointment>)
    ensures var (r, next) := ProcessBatch(w, env, b, st, index, apts);
      Paced(st.dispatches, r.dispatches, b, env, index) && next == index + (|r.dispatches| - |st.dispatches|)
    decreases |apts|
  {
    if |apts| > 0 {
      var (st', index') := ProcessAppointment(w, env, b, st, index, apts[0]);
      AppointmentPacing(w, env, b, st, index, apts[0]);
      BatchPacing(w, env, b, st', index', apts[1..]);
      var (r, next) := ProcessBatch(w, env, b, st, index, apts);
      PacedTrans(st.dispatches, st'.dispatches, r.dispatches, b, env, index);
    }
  }

  /** A unit's batch, started at index 0: the first request goes out without a wait and
      every later one waits a humanised delay from the band of the batch's size. */
  lemma UnitBatchPacing(w: World, env: Environment, b: Batch, st: RunState<Result>, apts: seq<Appointment>)
    ensures var r := ProcessBatch(w, env, b, st, 0, apts).0;
      && (|r.dispatches| > |st.dispatches| ==> r.dispatches[|st.dispatches|].wait == 0)
      && forall k :: |st.dispatches| < k < |r.dispatches| ==> InBand(r.dispatches[k].wait, BandFor(b.total))
  {
    BatchPacing(w, env, b, st, 0, apts);
  }

  /** The requests of one unit's batch: the first goes out at once, every later one
      waits a delay from the band of `total`, and all carry the unit's credentials. */
  predicate UnitRun(ds: seq<Dispatch>, sender: Sender, total: nat)
  {
    && (|ds| > 0 ==> ds[0].wait == 0)
    && (forall k :: 0 < k < |ds| ==> InBand(ds[k].wait, BandFor(total)))
    && (forall k :: 0 <= k < |ds| ==> ds[k].instance == sender.instance && ds[k].apiKey == sender.apiKey)
  }

  /** `ds` are the requests of the units in `order`, one after the other: a unit that
      cannot send contributes none; one that can contributes a run paced by the number of
      its appointments. */
  ghost predicate UnitsPaced(w: World, ds: seq<Dispatch>, order: seq<string>, phoned: seq<Appointment>)
    decreases |order|
  {
    if |order| == 0 then ds == []
    else
      match ReminderSender(w.units, order[0])
      case None => UnitsPaced(w, ds, order[1..], phoned)
      case Some(sender) =>
        exists n :: 0 <= n <= |ds| && UnitRun(ds[..n], sender, |Group(phoned, order[0])|)
                                     && UnitsPaced(w, ds[n..], order[1..], phoned)
  }

  /** A batch's added requests form one unit run, paced by the batch's total. */
  lemma BatchIsUnitRun(w: World, env: Environment, b: Batch, st: RunState<Result>, apts: seq<Appointment>)
    ensures var r := ProcessBatch(w, env, b, st, 0, apts).0;
      && |st.dispatches| <= |r.dispatches| && r.dispatches[..|st.dispatches|] == st.dispatches
      && UnitRun(r.dispatches[|st.dispatches|..], b.sender, b.total)
  {
    BatchPacing(w, env, b, st, 0, apts);
    UnitBatchPacing(w, env, b, st, apts);
  }

  /** The units of a tenant append their requests in turn, each unit's paced by the band
      of its own appointment count. */
  lemma {:induction false} UnitsPacing(w: World, env: Environment, company: string, template: string,
                                       st: RunState<Result>, order: seq<string>, phoned: seq<Appointment>)
    ensures var r := ProcessUnits(w, env, company, template, st, order, phoned);
      && |st.dispatches| <= |r.dispatches| && r.dispatches[..|st.dispatches|] == st.dispatches
      && UnitsPaced(w, r.dispatches[|st.dispatches|..], order, phoned)
    decreases |order|
  {
    var r := ProcessUnits(w, env, company, template, st, order, phoned);
    if |order| == 0 {
      assert r.dispatches[|st.dispatches|..] == [];
    } else {
      match ReminderSender(w.units, order[0]) {
        case None =>
          UnitsPacing(w, env, company, template, st, order[1..], phoned);
        case Some(sender) =>
          var g := Group(phoned, order[0]);
          var b := Batch(company, template, sender, |g|);
          var st' := ProcessBatch(w, env, b, st, 0, g).0;
          BatchIsUnitRun(w, env, b, st, g);
          UnitsPacing(w, env, company, template, st', order[1..], phoned);
          assert r == ProcessUnits(w, env, company, template, st', order[1..], phoned);
          var ds := r.dispatches[|st.dispatches|..];
          var n := |st'.dispatches| - |st.dispatches|;
          assert r.dispatches[..|st.dispatches|] == st.dispatches by {
            assert r.dispatches[..|st.dispatches|] == r.dispatches[..|st'.dispatches|][..|st.dispatches|];
          }
          assert ds[..n] == st'.dispatches[|st.dispatches|..] by {
            assert ds[..n] == r.dispatches[..|st'.dispatches|][|st.dispatches|..];
          }
          assert ds[n..] == r.dispatches[|st'.dispatches|..];
      }
    }
  }

  /** A tenant's requests are paced unit by unit: within each unit that can send, the
      first goes out at once and every later one waits a delay from the band of that
      unit's number of in-window appointments with a phone. */
  lemma TenantPacing(w: World, env: Environment, st: RunState<Result>, s: Settings)
    ensures var r := ProcessTenant(w, env, st, s);
      && |st.dispatches| <= |r.dispatches| && r.dispatches[..|st.dispatches|] == st.dispatches
      && (s.userId !in w.companyOf ==> r.dispatches == st.dispatches)
      && (s.userId in w.companyOf ==>
            var phoned := Phoned(w, w.companyOf[s.userId], s);
            UnitsPaced(w, r.dispatches[|st.dispatches|..], UnitOrder(phoned), phoned))
  {
    if s.userId in w.companyOf {
      var company := w.companyOf[s.userId];
      var phoned := Phoned(w, company, s);
      UnitsPacing(w, env, company, s.template, st, UnitOrder(phoned), phoned);
    }
  }

  // ---------------------------------------------------------------------------------
  // Conservation.

  /** Every appointment of a batch is either skipped or attempted, once. */
  lemma {:induction false} BatchConservation(w: World, env: Environment, b: Batch, st: RunState<Result>,
                                             index: nat, apts: seq<Appointment>)
    ensures var r := ProcessBatch(w, env, b, st, index, apts).0;
      && |r.results| >= |st.results| && r.skipped >= st.skipped
      && (r.skipped - st.skipped) + (|r.results| - |st.results|) == |apts|
    decreases |apts|
  {
    if |apts| > 0 {
      var (st', index') := ProcessAppointment(w, env, b, st, index, apts[0]);
      BatchConservation(w, env, b, st', index', apts[1..]);
    }
  }

  /** The appointments that reach a unit able to send. */
  function Reachable(units: map<string, Unit>, apts: seq<Appointment>): nat
  {
    |Filter(apts, (a: Appointment) => ReminderSender(units, a.unitId).Some?)|
  }

  /** The appointments the units of `order` take on, unit by unit. */
  function Handled(units: map<string, Unit>, order: seq<string>, apts: seq<Appointment>): nat
    decreases |order|
  {
    if |order| == 0 then 0
    else (if ReminderSender(units, order[0]).Some? then |Group(apts, order[0])| else 0)
         + Handled(units, order[1..], apts)
  }

  /** How many units of `order` are `a`'s unit and able to send. */
  function Hits(units: map<string, Unit>, order: seq<string>, a: Appointment): nat
    decreases |order|
  {
    if |order| == 0 then 0
    else (if order[0] == a.unitId && ReminderSender(units, order[0]).Some? then 1 else 0)
         + Hits(units, order[1..], a)
  }

  lemma {:induction false} ProcessUnitsConservation(w: World, env: Environment, company: string, template: string,
                                                    st: RunState<Result>, order: seq<string>, phoned: seq<Appointment>)
    ensures var r := ProcessUnits(w, env, company, template, st, order, phoned);
      && |r.results| >= |st.results| && r.skipped >= st.skipped
      && (r.skipped - st.skipped) + (|r.results| - |st.results|) == Handled(w.units, order, phoned)
    decreases |order|
  {
    if |order| > 0 {
      var st' := st;
      match ReminderSender(w.units, order[0]) {
        case None =>
        case Some(sender) =>
          var g := Group(phoned, order[0]);
          BatchConservation(w, env, Batch(company, template, sender, |g|), st, 0, g);
          st' := ProcessBatch(w, env, Batch(company, template, sender, |g|), st, 0, g).0;
      }
      ProcessUnitsConservation(w, env, company, template, st', order[1..], phoned);
    }
  }

  lemma {:induction false} HandledSplit(units: map<string, Unit>, order: seq<string>, apts: seq<Appointment>)
    requires |apts| > 0
    ensures Handled(units, order, apts) == Hits(units, order, apts[0]) + Handled(units, order, apts[1..])
    decreases |order|
  {
    if |order| > 0 {
      HandledSplit(units, order[1..], apts);
    }
  }

  lemma {:induction false} HitsOnce(units: map<string, Unit>, order: seq<string>, a: Appointment)
    requires Distinct(order) && a.unitId in order
    ensures Hits(units, order, a) == if ReminderSender(units, a.unitId).Some? then 1 else 0
    decreases |order|
  {
    if order[0] == a.unitId {
      HitsNone(units, order[1..], a);
    } else {
      HitsOnce(units, order[1..], a);
    }
  }

  lemma {:induction false} HitsNone(units: map<string, Unit>, order: seq<string>, a: Appointment)
    requires a.unitId !in order
    ensures Hits(units, order, a) == 0
    decreases |order|
  {
    if |order| > 0 {
      HitsNone(units, order[1..], a);
    }
  }

  /** Going unit by unit over distinct units that cover every appointment counts each
      appointment of an able unit exactly once. */
  lemma {:induction false} HandledIsReachable(units: map<string, Unit>, order: seq<string>, apts: seq<Appointment>)
    requires Distinct(order)
    requires forall i :: 0 <= i < |apts| ==> apts[i].unitId in order
    ensures Handled(units, order, apts) == Reachable(units, apts)
    decreases |apts|
  {
    if |apts| == 0 {
      HandledEmpty(units, order, apts);
    } else {
      HandledSplit(units, order, apts);
      HitsOnce(units, order, apts[0]);
      HandledIsReachable(units, order, apts[1..]);
    }
  }

  lemma {:induction false} HandledEmpty(units: map<string, Unit>, order: seq<string>, apts: seq<Appointment>)
    requires |apts| == 0
    ensures Handled(units, order, apts) == 0
    decreases |order|
  {
    if |order| > 0 {
      HandledEmpty(units, order[1..], apts);
    }
  }

  /** Conservation for one tenant: the skipped and the attempted appointments together are
      exactly the in-window appointments with a phone whose unit can send. */
  lemma TenantConservation(w: World, env: Environment, st: RunState<Result>, s: Settings)
    ensures var r := ProcessTenant(w, env, st, s);
      && |r.results| >= |st.results| && r.skipped >= st.skipped
      && (r.skipped - st.skipped) + (|r.results| - |st.results|)
         == if s.userId in w.companyOf then Reachable(w.units, Phoned(w, w.companyOf[s.userId], s)) else 0
  {
    if s.userId in w.companyOf {
      var company := w.companyOf[s.userId];
      var phoned := Phoned(w, company, s);
      var order := UnitOrder(phoned);
      ProcessUnitsConservation(w, env, company, s.template, st, order, phoned);
      HandledIsReachable(w.units, order, phoned);
    }
  }

  // ---------------------------------------------------------------------------------
  // The window and the message.

  /** An appointment is selected exactly when it belongs to the tenant, is pending or
      confirmed, and starts within three minutes, inclusive, of `now + lead` minutes. */
  lemma InWindowIff(a: Appointment, company: string, now: int, lead: int)
    ensures Eligible(a, company, ReminderWindow(now, lead)) <==>
      && a.companyId == company
      && (a.status == "pending" || a.status == "confirmed")
      && -180000 <= a.startTime - (now + lead * 60000) <= 180000
  {
  }

  /** With no lead configured, the job looks 27 to 33 minutes ahead. */
  lemma DefaultLeadWindow(s: Settings, now: int)
    requires s.leadMinutes == 0
    ensures ReminderWindow(now, LeadMinutes(s)) == Window(now + 27 * 60000, now + 33 * 60000)
  {
  }

  /** The fallbacks and formatted values the bindings use hold no `{`. */
  predicate PlainValues(w: World, a: Appointment, unitName: string)
  {
    && NoBrace(a.clientName) && NoBrace(unitName)
    && NoBrace(w.dateText(a.startTime)) && NoBrace(w.timeText(a.startTime))
    && (a.barberId in w.barbers ==> NoBrace(w.barbers[a.barberId]))
    && (a.serviceId in w.services ==> NoBrace(w.services[a.serviceId]))
  }

  lemma FirstWordsAreWords()
    ensures IsWord("nome") && IsWord("name") && IsWord("data") && IsWord("date") && IsWord("horario") && IsWord("hora")
  {
  }

  lemma LastWordsAreWords()
    ensures IsWord("profissional") && IsWord("barber") && IsWord("servico") && IsWord("service") && IsWord("unidade")
  {
  }

  /** The fallbacks and the looked-up names carry no `{`. */
  lemma FallbacksNoBrace(w: World, a: Appointment, unitName: string)
    requires PlainValues(w, a, unitName)
    ensures NoBrace(OrElse(a.clientName, "Cliente"))
    ensures NoBrace(NameOr(w.barbers, a.barberId, "Profissional"))
    ensures NoBrace(NameOr(w.services, a.serviceId, "Serviço"))
  {
    assert NoBrace("Cliente") && NoBrace("Profissional") && NoBrace("Serviço");
  }

  lemma BindingsAreVocabulary(w: World, a: Appointment, unitName: string)
    requires PlainValues(w, a, unitName)
    ensures Vocabulary(ReminderBindings(w, a, unitName))
  {
    var g1 := Synonyms(["nome", "name"], OrElse(a.clientName, "Cliente"));
    var g2 := Synonyms(["data", "date"], w.dateText(a.startTime));
    var g3 := Synonyms(["horario", "hora"], w.timeText(a.startTime));
    var g4 := Synonyms(["profissional", "barber"], NameOr(w.barbers, a.barberId, "Profissional"));
    var g5 := Synonyms(["servico", "service"], NameOr(w.services, a.serviceId, "Serviço"));
    var g6 := Synonyms(["unidade"], unitName);
    FirstWordsAreWords();
    LastWordsAreWords();
    FallbacksNoBrace(w, a, unitName);
    PairVocabulary("nome", "name", OrElse(a.clientName, "Cliente"));
    PairVocabulary("data", "date", w.dateText(a.startTime));
    PairVocabulary("horario", "hora", w.timeText(a.startTime));
    PairVocabulary("profissional", "barber", NameOr(w.barbers, a.barberId, "Profissional"));
    PairVocabulary("servico", "service", NameOr(w.services, a.serviceId, "Serviço"));
    SynonymsVocabulary(["unidade"], unitName);
    VocabularyConcat(g1, g2);
    VocabularyConcat(g1 + g2, g3);
    VocabularyConcat(g1 + g2 + g3, g4);
    VocabularyConcat(g1 + g2 + g3 + g4, g5);
    VocabularyConcat(g1 + g2 + g3 + g4 + g5, g6);
  }

  /** A tenant's own template is rendered as the reference renderer reads it: every
      placeholder the job knows, in any letter case, becomes its value, and any other
      placeholder is left as written. */
  lemma ReminderMessageResolves(w: World, template: seq<Piece>, a: Appointment, unitName: string)
    requires WellFormed(template) && Flatten(template) != ""
    requires PlainValues(w, a, unitName)
    ensures ReminderMessage(w, Flatten(template), a, unitName) == Resolve(template, ReminderBindings(w, a, unitName))
  {
    BindingsAreVocabulary(w, a, unitName);
    RenderResolves(template, ReminderBindings(w, a, unitName));
  }

  lemma ShortTextsNoBrace()
    ensures NoBrace("Olá ") && NoBrace(" com ") && NoBrace(". Serviço: ")
  {
  }

  lemma LongTextsNoBrace()
    ensures NoBrace("! Lembrete: você tem um agendamento às ") && NoBrace(". Te esperamos!")
  {
  }

  /** The default template reads as four placeholders in plain text. */
  lemma DefaultPiecesWellFormed()
    ensures WellFormed(DefaultPieces)
  {
    var ps := DefaultPieces;
    ShortTextsNoBrace();
    LongTextsNoBrace();
    KeyPieceWellFormed("nome");
    KeyPieceWellFormed("horario");
    KeyPieceWellFormed("profissional");
    KeyPieceWellFormed("servico");
    forall i | 0 <= i < |ps| ensures WellFormedPiece(ps[i]) {
      assert i in {0, 1, 2, 3, 4, 5, 6, 7, 8};
    }
  }

  /** The spellings the replace chain knows, between the braces. */
  const KnownWords: set<string> :=
    {"nome", "name", "data", "date", "horario", "hora", "profissional", "barber", "servico", "service", "unidade"}

  /** Only the bindings of `words` answer a key spelled by one of them. */
  lemma LookupSynonyms(words: seq<string>, value: string, word: string)
    ensures Lookup(Synonyms(words, value), Key(word)) == if word in words then Some(value) else None
  {
    var subs := Synonyms(words, value);
    if word in words {
      var i :| 0 <= i < |words| && words[i] == word;
      assert subs[i].key == Key(word);
    } else {
      forall i | 0 <= i < |subs| ensures subs[i].key != Key(word) {
        assert Key(words[i])[2..|Key(words[i])| - 2] == words[i];
      }
    }
  }

  /** Every spelling the replace chain knows resolves to its value; `{{nome}}` and
      `{{name}}` alike give the client's name, and so on for each pair of synonyms. */
  lemma LookupBindings(w: World, a: Appointment, unitName: string, word: string)
    ensures var r := Lookup(ReminderBindings(w, a, unitName), Key(word));
      && (word in {"nome", "name"} ==> r == Some(OrElse(a.clientName, "Cliente")))
      && (word in {"data", "date"} ==> r == Some(w.dateText(a.startTime)))
      && (word in {"horario", "hora"} ==> r == Some(w.timeText(a.startTime)))
      && (word in {"profissional", "barber"} ==> r == Some(NameOr(w.barbers, a.barberId, "Profissional")))
      && (word in {"servico", "service"} ==> r == Some(NameOr(w.services, a.serviceId, "Serviço")))
      && (word == "unidade" ==> r == Some(unitName))
      && (word !in KnownWords ==> r == None)
  {
    var g1 := Synonyms(["nome", "name"], OrElse(a.clientName, "Cliente"));
    var g2 := Synonyms(["data", "date"], w.dateText(a.startTime));
    var g3 := Synonyms(["horario", "hora"], w.timeText(a.startTime));
    var g4 := Synonyms(["profissional", "barber"], NameOr(w.barbers, a.barberId, "Profissional"));
    var g5 := Synonyms(["servico", "service"], NameOr(w.services, a.serviceId, "Serviço"));
    var g6 := Synonyms(["unidade"], unitName);
    var k := Key(word);
    LookupSynonyms(["nome", "name"], OrElse(a.clientName, "Cliente"), word);
    LookupSynonyms(["data", "date"], w.dateText(a.startTime), word);
    LookupSynonyms(["horario", "hora"], w.timeText(a.startTime), word);
    LookupSynonyms(["profissional", "barber"], NameOr(w.barbers, a.barberId, "Profissional"), word);
    LookupSynonyms(["servico", "service"], NameOr(w.services, a.serviceId, "Serviço"), word);
    LookupSynonyms(["unidade"], unitName, word);
    LookupConcat(g1, g2, k);
    LookupConcat(g1 + g2, g3, k);
    LookupConcat(g1 + g2 + g3, g4, k);
    LookupConcat(g1 + g2 + g3 + g4, g5, k);
    LookupConcat(g1 + g2 + g3 + g4 + g5, g6, k);
  }

  /** The values the default template's pieces render to, in order. */
  function DefaultParts(w: World, a: Appointment): seq<string>
  {
    [ "Olá ", OrElse(a.clientName, "Cliente"),
      "! Lembrete: você tem um agendamento às ", w.timeText(a.startTime),
      " com ", NameOr(w.barbers, a.barberId, "Profissional"),
      ". Serviço: ", NameOr(w.services, a.serviceId, "Serviço"),
      ". Te esperamos!" ]
  }

  lemma DefaultPiecesResolve(w: World, a: Appointment, unitName: string)
    requires PlainValues(w, a, unitName)
    ensures var ps, subs, parts := DefaultPieces, ReminderBindings(w, a, unitName), DefaultParts(w, a);
      |ps| == |parts| && forall k :: 0 <= k < |ps| ==> ResolvePiece(ps[k], subs) == parts[k]
  {
    var ps, subs, parts := DefaultPieces, ReminderBindings(w, a, unitName), DefaultParts(w, a);
    BindingsAreVocabulary(w, a, unitName);
    forall k | 0 <= k < |ps| ensures ResolvePiece(ps[k], subs) == parts[k] {
      if k == 0 || k == 2 || k == 4 || k == 6 || k == 8 {
        assert ps[k] == Text(parts[k]);
      } else if k == 1 {
        LookupBindings(w, a, unitName, "nome");
        ResolveBoundKey(subs, Key("nome"));
      } else if k == 3 {
        LookupBindings(w, a, unitName, "horario");
        ResolveBoundKey(subs, Key("horario"));
      } else if k == 5 {
        LookupBindings(w, a, unitName, "profissional");
        ResolveBoundKey(subs, Key("profissional"));
      } else if k == 7 {
        LookupBindings(w, a, unitName, "servico");
        ResolveBoundKey(subs, Key("servico"));
      }
    }
  }

  /** With no template of its own, a tenant's clients read the default reminder with the
      client's name (or "Cliente"), the start time, the professional's name (or
      "Profissional") and the service's name (or "Serviço") filled in. */
  lemma DefaultReminderText(w: World, a: Appointment, unitName: string)
    requires PlainValues(w, a, unitName)
    ensures ReminderMessage(w, "", a, unitName) == Concat(DefaultParts(w, a))
  {
    var ps := DefaultPieces;
    var subs := ReminderBindings(w, a, unitName);
    DefaultPiecesWellFormed();
    BindingsAreVocabulary(w, a, unitName);
    RenderResolves(ps, subs);
    DefaultPiecesResolve(w, a, unitName);
    ResolveParts(ps, subs, DefaultParts(w, a));
  }
}

=== FILE: reminders.dfy ===
/**
 * The appointment-reminder job (`supabase/functions/appointment-reminders/index.ts`).
 *
 * One invocation visits every tenant with reminders enabled. For each it selects the
 * pending or confirmed appointments starting `lead` minutes from now, give or take three
 * minutes, drops those without a phone, groups the rest by unit and, for every unit with
 * channel credentials, walks its appointments in order: an appointment that already has a
 * reminder row is skipped, every other one gets a humanised wait, one message and exactly
 * one log row, sent or failed.
 *
 * The run is a fold: the log, the counters, the results and the requests sent are
 * threaded through `ProcessTenants`, so what one appointment writes is what the next
 * appointment's dedup lookup reads.
 */
module Reminders {
  import opened Common
  import opened Seqs
  import opened Strings
  import opened Phone
  import opened Pacing
  import opened Template
  import opened AutomationLog
  import opened Channel

  /** `appointment_reminder_minutes || 30`. */
  const DefaultLeadMinutes: int := 30
  /** Half the width of the search window: three minutes. */
  const ToleranceMs: int := 3 * 60 * 1000
  const MinuteMs: int := 60 * 1000

  /** The built-in template, read as plain text around four placeholders. */
  const DefaultPieces: seq<Piece> :=
    [ Text("Olá "), Placeholder(Key("nome")),
      Text("! Lembrete: você tem um agendamento às "), Placeholder(Key("horario")),
      Text(" com "), Placeholder(Key("profissional")),
      Text(". Serviço: "), Placeholder(Key("servico")),
      Text(". Te esperamos!") ]

  const DefaultTemplate: string := Flatten(DefaultPieces)

  /** A `business_settings` row. `leadMinutes` 0 stands for a null column, `template` ""
      for a null or empty one. */
  datatype Settings = Settings(
    userId: string,
    reminderEnabled: bool,
    leadMinutes: int,
    template: string)

  /** `.eq("appointment_reminder_enabled", true)`: the rows with reminders enabled, in
      order. */
  function Enabled(settings: seq<Settings>): (r: seq<Settings>)
    ensures forall s :: s in r <==> s in settings && s.reminderEnabled
  {
    Filter(settings, (s: Settings) => s.reminderEnabled)
  }

  datatype Appointment = Appointment(
    id: string,
    companyId: string,
    unitId: string,
    clientName: string,
    clientPhone: string,
    startTime: int,
    status: string,
    barberId: string,
    serviceId: string)

  /** A `clients` row, as far as the client-id lookup reads it. */
  datatype ClientRecord = ClientRecord(
    id: string,
    companyId: string,
    unitId: string,
    phone: Option<string>)

  /** What the job reads at the start of an invocation. Times are epoch milliseconds;
      `dateText` and `timeText` are the pt-BR renderings of a start time. */
  datatype World = World(
    apiUrl: string,
    now: int,
    settings: seq<Settings>,
    companyOf: map<string, string>,
    appointments: seq<Appointment>,
    units: map<string, Unit>,
    barbers: map<string, string>,
    services: map<string, string>,
    clients: seq<ClientRecord>,
    dateText: int -> string,
    timeText: int -> string)

  /** An entry of the response's `results` array. */
  datatype Result = Result(
    appointmentId: string,
    clientName: string,
    status: LogStatus,
    error: Option<string>)

  /** Inclusive bounds on `start_time`. */
  datatype Window = Window(start: int, end: int)

  // ---------------------------------------------------------------------------------
  // Selection.

  function LeadMinutes(s: Settings): (m: int)
    ensures s.leadMinutes != 0 ==> m == s.leadMinutes
    ensures s.leadMinutes == 0 ==> m == DefaultLeadMinutes
  {
    if s.leadMinutes != 0 then s.leadMinutes else DefaultLeadMinutes
  }

  /** The window around `now + lead` minutes, three minutes either side. */
  function ReminderWindow(now: int, lead: int): (w: Window)
    ensures w.end - w.start == 2 * ToleranceMs
    ensures w.start + ToleranceMs == now + lead * MinuteMs
  {
    var target := now + lead * MinuteMs;
    Window(target - ToleranceMs, target + ToleranceMs)
  }

  predicate Eligible(a: Appointment, company: string, w: Window)
  {
    && a.companyId == company
    && (a.status == "pending" || a.status == "confirmed")
    && w.start <= a.startTime <= w.end
  }

  /** The appointments the window query returns, in table order. */
  function Candidates(apts: seq<Appointment>, company: string, w: Window): (r: seq<Appointment>)
    ensures forall a :: a in r <==> a in apts && Eligible(a, company, w)
  {
    Filter(apts, (a: Appointment) => Eligible(a, company, w))
  }

  /** Appointments without a phone are dropped before grouping. */
  function WithPhone(apts: seq<Appointment>): (r: seq<Appointment>)
    ensures forall a :: a in r <==> a in apts && a.clientPhone != ""
  {
    Filter(apts, (a: Appointment) => a.clientPhone != "")
  }

  /** The unit keys in the order `Object.entries` visits them: first appearance. */
  function UnitOrder(apts: seq<Appointment>): (r: seq<string>)
    ensures Distinct(r)
    ensures forall u :: u in r <==> exists i :: 0 <= i < |apts| && apts[i].unitId == u
  {
    var ids := seq(|apts|, i requires 0 <= i < |apts| => apts[i].unitId);
    assert forall i :: 0 <= i < |apts| ==> ids[i] == apts[i].unitId;
    Dedup(ids)
  }

  /** One unit's group, in the order the appointments were selected. */
  function Group(apts: seq<Appointment>, unit: string): (r: seq<Appointment>)
    ensures forall a :: a in r <==> a in apts && a.unitId == unit
  {
    Filter(apts, (a: Appointment) => a.unitId == unit)
  }

  /** A unit takes part only when it exists and both credentials are set and non-empty. */
  function ReminderSender(units: map<string, Unit>, unit: string): (r: Option<Sender>)
    ensures r.Some? <==>
      && unit in units
      && units[unit].instanceName.Some? && units[unit].instanceName.value != ""
      && units[unit].apiKey.Some? && units[unit].apiKey.value != ""
    ensures r.Some? ==> r.value == Sender(units[unit].name, units[unit].instanceName.value, units[unit].apiKey.value)
  {
    if unit !in units then None
    else
      var u := units[unit];
      if u.instanceName.None? || u.instanceName.value == "" || u.apiKey.None? || u.apiKey.value == "" then None
      else Some(Sender(u.name, u.instanceName.value, u.apiKey.value))
  }

  // ---------------------------------------------------------------------------------
  // The message.

  /** `new Map(rows).get(id) || fallback`. */
  function NameOr(names: map<string, string>, id: string, fallback: string): (r: string)
    ensures id in names && names[id] != "" ==> r == names[id]
    ensures !(id in names && names[id] != "") ==> r == fallback
  {
    if id in names then OrElse(names[id], fallback) else fallback
  }

  /** The eleven bindings of the replace chain, in the order the chain applies them. */
  function ReminderBindings(w: World, a: Appointment, unitName: string): (subs: seq<Sub>)
    ensures |subs| == 11 && ValidSubs(subs)
  {
    Synonyms(["nome", "name"], OrElse(a.clientName, "Cliente"))
    + Synonyms(["data", "date"], w.dateText(a.startTime))
    + Synonyms(["horario", "hora"], w.timeText(a.startTime))
    + Synonyms(["profissional", "barber"], NameOr(w.barbers, a.barberId, "Profissional"))
    + Synonyms(["servico", "service"], NameOr(w.services, a.serviceId, "Serviço"))
    + Synonyms(["unidade"], unitName)
  }

  /** The tenant's template, or the default when it is unset or empty, rendered. */
  function ReminderMessage(w: World, template: string, a: Appointment, unitName: string): string
  {
    Render(OrElse(template, DefaultTemplate), ReminderBindings(w, a, unitName))
  }

  // ---------------------------------------------------------------------------------
  // The client-id lookup.

  /** The filter of the lookup: same tenant and unit, and the stored phone equal to the
      digits of the appointment's phone or to the phone as written. */
  predicate PhoneMatches(c: ClientRecord, company: string, unit: string, raw: string)
  {
    && c.companyId == company && c.unitId == unit
    && c.phone.Some? && (c.phone.value == DigitsOnly(raw) || c.phone.value == raw)
  }

  function ClientMatch(company: string, unit: string, raw: string): ClientRecord -> bool
  {
    (c: ClientRecord) => PhoneMatches(c, company, unit, raw)
  }

  /** Client `i` is the only one the lookup's filter admits. */
  predicate OnlyClient(clients: seq<ClientRecord>, company: string, unit: string, raw: string, i: int)
  {
    && 0 <= i < |clients| && PhoneMatches(clients[i], company, unit, raw)
    && forall j :: 0 <= j < |clients| && j != i ==> !PhoneMatches(clients[j], company, unit, raw)
  }

  /** `.maybeSingle()` on the lookup: the id of the matching client when exactly one
      matches, nothing when none or several do. */
  function ClientIdFor(clients: seq<ClientRecord>, company: string, unit: string, raw: string): (r: Option<string>)
    ensures r.Some? <==> exists i :: OnlyClient(clients, company, unit, raw, i)
    ensures forall i :: OnlyClient(clients, company, unit, raw, i) ==> r == Some(clients[i].id)
  {
    var f := ClientMatch(company, unit, raw);
    MaybeSingleIff(clients, f);
    assert forall i :: OnlyClient(clients, company, unit, raw, i) <==> OnlyMatch(clients, f, i);
    match MaybeSingle(clients, f)
    case Some(c) => Some(c.id)
    case None => None
  }

  // ---------------------------------------------------------------------------------
  // The run.

  /** What an attempt in a unit's batch needs besides the appointment. */
  datatype Batch = Batch(company: string, template: string, sender: Sender, total: nat)

  /** One attempted reminder: the wait, the request, the log row and the result. */
  function Attempt(w: World, env: Environment, b: Batch, st: RunState<Result>, index: nat, a: Appointment)
    : (r: RunState<Result>)
    ensures |r.log| == |st.log| + 1 && r.log[..|st.log|] == st.log
    ensures |r.results| == |st.results| + 1 && r.results[..|st.results|] == st.results
    ensures |r.dispatches| == |st.dispatches| + 1 && r.dispatches[..|st.dispatches|] == st.dispatches
    ensures var row, res := r.log[|st.log|], r.results[|st.results|];
      && row.companyId == b.company && row.appointmentId == Some(a.id) && row.kind == AppointmentReminder
      && res.appointmentId == a.id && row.status == res.status && row.error == res.error
    ensures var row, d := r.log[|st.log|], r.dispatches[|st.dispatches|];
      && Answers(row, env.reply(NextAttempt(st)))
      && row.clientId == ClientIdFor(w.clients, b.company, a.unitId, a.clientPhone)
      && row.sentAt == w.now
      && d.instance == b.sender.instance && d.apiKey == b.sender.apiKey
      && d.number == Normalize(a.clientPhone)
      && d.text == ReminderMessage(w, b.template, a, b.sender.unitName)
    ensures r.sent == st.sent + (if r.results[|st.results|].status == Sent then 1 else 0)
    ensures r.skipped == st.skipped
  {
    var k := NextAttempt(st);
    var reply := env.reply(k);
    var d := Dispatch(b.sender.instance, b.sender.apiKey, Normalize(a.clientPhone),
                      ReminderMessage(w, b.template, a, b.sender.unitName),
                      WaitBefore(index, b.total, env.pacing(k)), PresenceDelay(env.presence(k)));
    var row := LogRow(b.company, ClientIdFor(w.clients, b.company, a.unitId, a.clientPhone), Some(a.id),
                      AppointmentReminder, StatusOf(reply), ErrorOf(reply), w.now);
    Record(st, row, Result(a.id, a.clientName, StatusOf(reply), ErrorOf(reply)), d)
  }

  /** One appointment of a batch: skipped when the log already answers its lookup,
      attempted otherwise. `index` counts the attempts made so far in the batch. */
  function ProcessAppointment(w: World, env: Environment, b: Batch, st: RunState<Result>, index: nat, a: Appointment)
    : (r: (RunState<Result>, nat))
    ensures AlreadyLogged(st.log, ForAppointment(a.id)) ==> r == (Skip(st), index)
    ensures !AlreadyLogged(st.log, ForAppointment(a.id)) ==> r.1 == index + 1 && |r.0.log| == |st.log| + 1
  {
    if AlreadyLogged(st.log, ForAppointment(a.id)) then (Skip(st), index)
    else (Attempt(w, env, b, st, index, a), index + 1)
  }

  function ProcessBatch(w: World, env: Environment, b: Batch, st: RunState<Result>, index: nat, apts: seq<Appointment>)
    : (RunState<Result>, nat)
    decreases |apts|
  {
    if |apts| == 0 then (st, index)
    else
      var (st', index') := ProcessAppointment(w, env, b, st, index, apts[0]);
      ProcessBatch(w, env, b, st', index', apts[1..])
  }

  /** The units of a tenant, in order; a unit without credentials is passed over. */
  function ProcessUnits(w: World, env: Environment, company: string, template: string,
                        st: RunState<Result>, order: seq<string>, phoned: seq<Appointment>): RunState<Result>
    decreases |order|
  {
    if |order| == 0 then st
    else
      var st' :=
        match ReminderSender(w.units, order[0])
        case None => st
        case Some(sender) =>
          var g := Group(phoned, order[0]);
          ProcessBatch(w, env, Batch(company, template, sender, |g|), st, 0, g).0;
      ProcessUnits(w, env, company, template, st', order[1..], phoned)
  }

  /** The appointments of a tenant that reach grouping. */
  function Phoned(w: World, company: string, s: Settings): seq<Appointment>
  {
    WithPhone(Candidates(w.appointments, company, ReminderWindow(w.now, LeadMinutes(s))))
  }

  /** One tenant; a tenant without a company is passed over. */
  function ProcessTenant(w: World, env: Environment, st: RunState<Result>, s: Settings): RunState<Result>
  {
    if s.userId !in w.companyOf then st
    else
      var company := w.companyOf[s.userId];
      var phoned := Phoned(w, company, s);
      ProcessUnits(w, env, company, s.template, st, UnitOrder(phoned), phoned)
  }

  function ProcessTenants(w: World, env: Environment, st: RunState<Result>, settings: seq<Settings>): RunState<Result>
    decreases |settings|
  {
    if |settings| == 0 then st
    else ProcessTenants(w, env, ProcessTenant(w, env, st, settings[0]), settings[1..])
  }

  /** How an invocation ends: the 500 for a missing provider URL, the early reply when no
      tenant has reminders enabled, or the summary. */
  datatype Outcome = MissingApiUrl | NoTenantEnabled | Processed

  datatype RunResult = RunResult(outcome: Outcome, state: RunState<Result>)

  function Run(w: World, env: Environment, log: seq<LogRow>): RunResult
  {
    if w.apiUrl == "" then RunResult(MissingApiUrl, Start(log))
    else if |Enabled(w.settings)| == 0 then RunResult(NoTenantEnabled, Start(log))
    else RunResult(Processed, ProcessTenants(w, env, Start(log), Enabled(w.settings)))
  }
}

=== FILE: seqs.dfy ===
/** Sequence helpers: the `filter` and first-occurrence de-duplication the jobs use. */
module Seqs {
  import opened Common

  /** `s.filter(f)`: the elements satisfying `f`, in their original order. */
  function Filter<T(!new)>(s: seq<T>, f: T -> bool): (r: seq<T>)
    ensures |r| <= |s|
    ensures forall x :: x in r <==> x in s && f(x)
    decreases |s|
  {
    if |s| == 0 then []
    else (if f(s[0]) then [s[0]] else []) + Filter(s[1..], f)
  }

  predicate Distinct<T(==)>(s: seq<T>)
  {
    forall i, j :: 0 <= i < j < |s| ==> s[i] != s[j]
  }

  /** The distinct elements of `s`, each at the place of its first occurrence (the key
      order of an object or `Map` filled in that order). */
  function Dedup<T(==,!new)>(s: seq<T>): (r: seq<T>)
    ensures Distinct(r)
    ensures forall x :: x in r <==> x in s
    decreases |s|
  {
    if |s| == 0 then []
    else
      var d := Dedup(s[..|s| - 1]);
      assert forall x :: x in s <==> x in s[..|s| - 1] || x == s[|s| - 1] by {
        assert s == s[..|s| - 1] + [s[|s| - 1]];
      }
      if s[|s| - 1] in d then d else d + [s[|s| - 1]]
  }

  /** No element satisfies `f`: the filter is empty. */
  lemma {:induction false} FilterNone<T(!new)>(s: seq<T>, f: T -> bool)
    requires forall j :: 0 <= j < |s| ==> !f(s[j])
    ensures Filter(s, f) == []
    decreases |s|
  {
    if |s| > 0 {
      FilterNone(s[1..], f);
    }
  }

  /** When `s[i]` is the only element satisfying `f`, the filter yields just that element. */
  lemma {:induction false} FilterOnly<T(!new)>(s: seq<T>, f: T -> bool, i: nat)
    requires i < |s| && f(s[i])
    requires forall j :: 0 <= j < |s| && j != i ==> !f(s[j])
    ensures Filter(s, f) == [s[i]]
    decreases |s|
  {
    if i == 0 {
      forall j | 0 <= j < |s[1..]| ensures !f(s[1..][j]) {
        assert s[1..][j] == s[j + 1];
      }
      FilterNone(s[1..], f);
    } else {
      FilterOnly(s[1..], f, i - 1);
    }
  }

  /** Two elements satisfying `f` make a filter of at least two. */
  lemma {:induction false} FilterAtLeastTwo<T(!new)>(s: seq<T>, f: T -> bool, i: nat, j: nat)
    requires i < j < |s| && f(s[i]) && f(s[j])
    ensures |Filter(s, f)| >= 2
    decreases |s|
  {
    if i == 0 {
      assert s[1..][j - 1] == s[j];
      assert s[j] in Filter(s[1..], f);
    } else {
      FilterAtLeastTwo(s[1..], f, i - 1, j - 1);
    }
  }

  /** Index `i` holds the only element satisfying `f`. */
  predicate OnlyMatch<T>(s: seq<T>, f: T -> bool, i: int)
  {
    0 <= i < |s| && f(s[i]) && forall j :: 0 <= j < |s| && j != i ==> !f(s[j])
  }

  /** `.maybeSingle()`: the row when exactly one satisfies `f`, nothing when none does,
      and an error (whose data is null) when several do. */
  function MaybeSingle<T(!new)>(s: seq<T>, f: T -> bool): (r: Option<T>)
    ensures r.Some? ==> r.value in s && f(r.value)
  {
    var ms := Filter(s, f);
    if |ms| == 1 then
      assert ms[0] in ms;
      Some(ms[0])
    else None
  }

  /** `.maybeSingle()` answers exactly when one position matches, and answers with it. */
  lemma MaybeSingleIff<T(!new)>(s: seq<T>, f: T -> bool)
    ensures MaybeSingle(s, f).Some? <==> exists i :: OnlyMatch(s, f, i)
    ensures forall i :: OnlyMatch(s, f, i) ==> MaybeSingle(s, f) == Some(s[i])
  {
    forall i | OnlyMatch(s, f, i) ensures MaybeSingle(s, f) == Some(s[i]) {
      FilterOnly(s, f, i);
    }
    if MaybeSingle(s, f).Some? {
      var x := MaybeSingle(s, f).value;
      var i :| 0 <= i < |s| && s[i] == x;
      forall j | 0 <= j < |s| && j != i ensures !f(s[j]) {
        if f(s[j]) {
          if i < j { FilterAtLeastTwo(s, f, i, j); } else { FilterAtLeastTwo(s, f, j, i); }
        }
      }
      assert OnlyMatch(s, f, i);
    }
  }
}

=== FILE: strings.dfy ===
/**
 * The handful of JavaScript string operations the engine relies on, stated on
 * `seq<char>`: digit filtering, ASCII case folding, prefix tests, first-occurrence
 * replacement, clamped `substring` and decimal rendering of integers.
 */
module Strings {
  import opened Common

  predicate IsDigit(c: char)
  {
    '0' <= c <= '9'
  }

  predicate AllDigits(s: string)
  {
    forall i :: 0 <= i < |s| ==> IsDigit(s[i])
  }

  /** `s.replace(/\D/g, "")`: keeps the decimal digits of `s`, in order. */
  function DigitsOnly(s: string): (r: string)
    ensures AllDigits(r)
    ensures |r| <= |s|
  {
    if |s| == 0 then ""
    else (if IsDigit(s[0]) then [s[0]] else "") + DigitsOnly(s[1..])
  }

  /** Every digit of `s` survives the filter as often as it occurs, and nothing else does. */
  lemma {:induction false} DigitsOnlyKeepsEveryDigit(s: string)
    ensures forall c :: IsDigit(c) ==> multiset(DigitsOnly(s))[c] == multiset(s)[c]
    ensures forall c :: !IsDigit(c) ==> multiset(DigitsOnly(s))[c] == 0
    decreases |s|
  {
    if |s| > 0 {
      DigitsOnlyKeepsEveryDigit(s[1..]);
      assert s == [s[0]] + s[1..];
      assert multiset(s) == multiset{s[0]} + multiset(s[1..]);
    }
  }

  /** Filtering digits distributes over concatenation, so the digits keep their order. */
  lemma {:induction false} DigitsOnlyConcat(a: string, b: string)
    ensures DigitsOnly(a + b) == DigitsOnly(a) + DigitsOnly(b)
    decreases |a|
  {
    if |a| == 0 {
      assert a + b == b;
    } else {
      var ab := a + b;
      assert ab[1..] == a[1..] + b;
      assert ab[0] == a[0];
      DigitsOnlyConcat(a[1..], b);
      var head := if IsDigit(a[0]) then [a[0]] else "";
      calc {
        DigitsOnly(ab);
        head + DigitsOnly(ab[1..]);
        head + (DigitsOnly(a[1..]) + DigitsOnly(b));
        (head + DigitsOnly(a[1..])) + DigitsOnly(b);
        DigitsOnly(a) + DigitsOnly(b);
      }
    }
  }

  /** A string made only of digits is left as it is. */
  lemma {:induction false} DigitsOnlyOfDigits(s: string)
    requires AllDigits(s)
    ensures DigitsOnly(s) == s
    decreases |s|
  {
    if |s| > 0 {
      DigitsOnlyOfDigits(s[1..]);
      assert s == [s[0]] + s[1..];
    }
  }

  predicate IsUpperLetter(c: char)
  {
    'A' <= c <= 'Z'
  }

  predicate IsLowerLetter(c: char)
  {
    'a' <= c <= 'z'
  }

  predicate IsLetter(c: char)
  {
    IsUpperLetter(c) || IsLowerLetter(c)
  }

  /** ASCII case folding: the canonicalisation a non-unicode JavaScript `/i` regular
      expression applies when its pattern is ASCII. */
  function LowerChar(c: char): (r: char)
    ensures IsLetter(c) <==> IsLowerLetter(r)
    ensures !IsUpperLetter(c) ==> r == c
    ensures r == '{' <==> c == '{'
    ensures r == '}' <==> c == '}'
  {
    if IsUpperLetter(c) then (c as int + 32) as char else c
  }

  function Lower(s: string): (r: string)
    ensures |r| == |s|
    ensures forall i :: 0 <= i < |s| ==> r[i] == LowerChar(s[i])
  {
    seq(|s|, i requires 0 <= i < |s| => LowerChar(s[i]))
  }

  /** Folding a string with no upper-case letter changes nothing. */
  lemma LowerOfLowercase(s: string)
    requires forall i :: 0 <= i < |s| ==> !IsUpperLetter(s[i])
    ensures Lower(s) == s
  {
  }

  /** `x || fallback` on a text. */
  function OrElse(x: string, fallback: string): (r: string)
    ensures r == "" ==> fallback == ""
    ensures x != "" ==> r == x
    ensures x == "" ==> r == fallback
  {
    if x != "" then x else fallback
  }

  /** The parts written one after another. */
  function Concat(parts: seq<string>): (r: string)
    ensures |parts| == 0 ==> r == ""
    decreases |parts|
  {
    if |parts| == 0 then "" else parts[0] + Concat(parts[1..])
  }

  predicate StartsWith(s: string, prefix: string)
  {
    |prefix| <= |s| && s[..|prefix|] == prefix
  }

  /** `pat` occurs in `s` starting at position `j`. */
  predicate OccursAt(s: string, j: nat, pat: string)
  {
    j + |pat| <= |s| && s[j..j + |pat|] == pat
  }

  /** `s.indexOf(pat)` for a non-empty pattern: the first position where `pat` occurs. */
  function IndexOf(s: string, pat: string): (r: Option<nat>)
    requires |pat| > 0
    ensures r.Some? ==> OccursAt(s, r.value, pat)
    ensures r.Some? ==> forall j: nat :: j < r.value ==> !OccursAt(s, j, pat)
    ensures r.None? ==> forall j: nat :: !OccursAt(s, j, pat)
    decreases |s|
  {
    if |s| < |pat| then None
    else if s[..|pat|] == pat then Some(0)
    else
      var tail := IndexOf(s[1..], pat);
      assert forall j: nat :: 1 <= j ==> (OccursAt(s, j, pat) <==> OccursAt(s[1..], j - 1, pat)) by {
        forall j: nat | 1 <= j
          ensures OccursAt(s, j, pat) <==> OccursAt(s[1..], j - 1, pat)
        {
          if j + |pat| <= |s| {
            TailSlice(s, j, |pat|);
          }
        }
      }
      match tail
      case None => None
      case Some(k) => Some(k + 1)
  }

  lemma TailSlice(s: string, j: nat, n: nat)
    requires 1 <= j && j + n <= |s|
    ensures s[1..][j - 1..j - 1 + n] == s[j..j + n]
  {
    var a, b := s[1..][j - 1..j - 1 + n], s[j..j + n];
    assert |a| == |b|;
    forall k | 0 <= k < n
      ensures a[k] == b[k]
    {
      assert a[k] == s[1..][j - 1 + k] == s[j + k];
    }
  }

  /** `s.replace(pat, rep)` with a string pattern: only the first occurrence is replaced. */
  function ReplaceFirst(s: string, pat: string, rep: string): string
    requires |pat| > 0
  {
    match IndexOf(s, pat)
    case None => s
    case Some(i) => s[..i] + rep + s[i + |pat|..]
  }

  /** When `s` starts with `prefix`, replacing its first occurrence by nothing strips
      exactly that prefix. */
  lemma StripLeadingOccurrence(s: string, prefix: string)
    requires |prefix| > 0 && StartsWith(s, prefix)
    ensures ReplaceFirst(s, prefix, "") == s[|prefix|..]
  {
    assert IndexOf(s, prefix) == Some(0);
  }

  function Clamp(x: int, lo: int, hi: int): int
    requires lo <= hi
  {
    if x < lo then lo else if x > hi then hi else x
  }

  /** JavaScript `s.substring(start, end)`: both ends are clamped into `[0, |s|]` and
      swapped when they arrive in the wrong order. */
  function Substring(s: string, start: int, end: int): (r: string)
    ensures |r| <= |s|
    ensures 0 <= start <= end <= |s| ==> r == s[start..end]
  {
    var a := Clamp(start, 0, |s|);
    var b := Clamp(end, 0, |s|);
    if a <= b then s[a..b] else s[b..a]
  }

  function DigitChar(d: nat): (c: char)
    requires d < 10
    ensures IsDigit(c)
  {
    ('0' as int + d) as char
  }

  function DigitValue(c: char): nat
    requires IsDigit(c)
  {
    c as int - '0' as int
  }

  /** `String(n)` for a non-negative integer: decimal digits, no leading zero. */
  function NatToString(n: nat): (r: string)
    ensures |r| > 0 && AllDigits(r)
    ensures |r| > 1 ==> r[0] != '0'
    decreases n
  {
    if n < 10 then [DigitChar(n)] else NatToString(n / 10) + [DigitChar(n % 10)]
  }

  /** `String(i)` for an integer: a minus sign for negatives. */
  function IntToString(i: int): (r: string)
    ensures |r| > 0
    ensures forall k :: 0 <= k < |r| ==> r[k] != '{'
  {
    if i < 0 then "-" + NatToString(-i) else NatToString(i)
  }

  /** Reads a string of decimal digits back as a number. */
  function ParseDigits(s: string): nat
    requires AllDigits(s)
    decreases |s|
  {
    if |s| == 0 then 0 else 10 * ParseDigits(s[..|s| - 1]) + DigitValue(s[|s| - 1])
  }

  /** Decimal rendering loses nothing: parsing it gives back the number. */
  lemma {:induction false} NatToStringRoundTrip(n: nat)
    ensures ParseDigits(NatToString(n)) == n
    decreases n
  {
    var r := NatToString(n);
    if n >= 10 {
      NatToStringRoundTrip(n / 10);
      assert r[..|r| - 1] == NatToString(n / 10);
    }
  }
}

=== FILE: template.dfy ===
/**
 * Message templates. Both jobs render a message by a chain of
 * `message.replace(/\{\{token\}\}/gi, value)` calls, one per placeholder spelling, in a
 * fixed order. `ReplaceAll` is one such call (global, case-insensitive, literal pattern);
 * `Render` is the chain.
 *
 * As an independent reference, a template can be read as a sequence of pieces, plain
 * text and `{{word}}` placeholders; `Resolve` replaces each placeholder by the value its
 * lower-cased spelling is bound to, and leaves unknown placeholders verbatim.
 * `RenderResolves` proves the chain computes exactly that, for every template whose
 * plain text holds no `{` and every binding whose value holds no `{`.
 */
module Template {
  import opened Common
  import opened Strings

  /** One `replace` call of the chain: a lower-case placeholder and its value. */
  datatype Sub = Sub(key: string, value: string)

  /** `key` occurs at position `i` of `s`, ignoring ASCII letter case. */
  predicate MatchesAt(s: string, i: nat, key: string)
  {
    i + |key| <= |s| && Lower(s[i..i + |key|]) == key
  }

  /** `s.replace(/key/gi, value)`: scanning left to right, every case-insensitive
      occurrence of `key` is replaced and scanning resumes after it. */
  function ReplaceAll(s: string, key: string, value: string): string
    requires |key| > 0
    decreases |s|
  {
    if |s| == 0 then ""
    else if MatchesAt(s, 0, key) then value + ReplaceAll(s[|key|..], key, value)
    else [s[0]] + ReplaceAll(s[1..], key, value)
  }

  /** The pattern `/\{\{word\}\}/gi` of one replace call. */
  function Key(word: string): (k: string)
    ensures |k| == |word| + 4 && k[2..|k| - 2] == word
  {
    "{{" + word + "}}"
  }

  /** One value bound to several spellings, one replace call each. */
  function Synonyms(words: seq<string>, value: string): (subs: seq<Sub>)
    ensures |subs| == |words| && ValidSubs(subs)
    ensures forall i :: 0 <= i < |words| ==> subs[i] == Sub(Key(words[i]), value)
  {
    seq(|words|, i requires 0 <= i < |words| => Sub(Key(words[i]), value))
  }

  predicate ValidSubs(subs: seq<Sub>)
  {
    forall i :: 0 <= i < |subs| ==> |subs[i].key| > 0
  }

  /** The replace chain: each binding is applied, in order, to the previous result. */
  function Render(template: string, subs: seq<Sub>): string
    requires ValidSubs(subs)
    decreases |subs|
  {
    if |subs| == 0 then template
    else Render(ReplaceAll(template, subs[0].key, subs[0].value), subs[1..])
  }

  // ---------------------------------------------------------------------------------
  // The reference reading of a template.

  datatype Piece = Text(text: string) | Placeholder(spelling: string)

  function Show(p: Piece): string
  {
    match p
    case Text(t) => t
    case Placeholder(t) => t
  }

  function Flatten(ps: seq<Piece>): string
    decreases |ps|
  {
    if |ps| == 0 then "" else Show(ps[0]) + Flatten(ps[1..])
  }

  predicate NoBrace(s: string)
  {
    forall i :: 0 <= i < |s| ==> s[i] != '{'
  }

  /** `{{` + one or more letters, in any case + `}}`. */
  predicate PlaceholderShaped(t: string)
  {
    && |t| >= 5
    && t[0] == '{' && t[1] == '{' && t[|t| - 2] == '}' && t[|t| - 1] == '}'
    && forall i :: 2 <= i < |t| - 2 ==> IsLetter(t[i])
  }

  /** The spelling a replace call looks for: a placeholder in lower case. */
  predicate IsKey(k: string)
  {
    PlaceholderShaped(k) && forall i :: 2 <= i < |k| - 2 ==> IsLowerLetter(k[i])
  }

  predicate WellFormedPiece(p: Piece)
  {
    match p
    case Text(t) => NoBrace(t)
    case Placeholder(t) => PlaceholderShaped(t)
  }

  predicate WellFormed(ps: seq<Piece>)
  {
    forall i :: 0 <= i < |ps| ==> WellFormedPiece(ps[i])
  }

  /** Bindings from lower-case placeholders to values free of `{`. */
  predicate Vocabulary(subs: seq<Sub>)
  {
    forall i :: 0 <= i < |subs| ==> IsKey(subs[i].key) && NoBrace(subs[i].value)
  }

  /** The value of the first binding for `key`. */
  function Lookup(subs: seq<Sub>, key: string): (r: Option<string>)
    ensures r.Some? <==> exists i :: 0 <= i < |subs| && subs[i].key == key
    ensures r.Some? ==> exists i :: 0 <= i < |subs| && subs[i].key == key && subs[i].value == r.value
    decreases |subs|
  {
    if |subs| == 0 then None
    else if subs[0].key == key then Some(subs[0].value)
    else
      var r := Lookup(subs[1..], key);
      assert forall i :: 1 <= i < |subs| ==> subs[i] == subs[1..][i - 1];
      r
  }

  function ResolvePiece(p: Piece, subs: seq<Sub>): string
  {
    match p
    case Text(t) => t
    case Placeholder(t) => Lookup(subs, Lower(t)).GetOr(t)
  }

  /** The reference renderer: every placeholder, whatever its letter case, becomes the
      value bound to its lower-case spelling; unknown placeholders stay as written. */
  function Resolve(ps: seq<Piece>, subs: seq<Sub>): string
    decreases |ps|
  {
    if |ps| == 0 then "" else ResolvePiece(ps[0], subs) + Resolve(ps[1..], subs)
  }

  // ---------------------------------------------------------------------------------
  // The replace chain agrees with the reference renderer.

  /** A prefix at none of whose positions `key` matches passes through unchanged. */
  lemma {:induction false} SkipUnmatched(a: string, b: string, key: string, value: string)
    requires |key| > 0
    requires forall i :: 0 <= i < |a| ==> !MatchesAt(a + b, i, key)
    ensures ReplaceAll(a + b, key, value) == a + ReplaceAll(b, key, value)
    decreases |a|
  {
    if |a| == 0 {
      assert a + b == b;
    } else {
      var s := a + b;
      assert !MatchesAt(s, 0, key);
      UnmatchedTail(a, b, key);
      SkipUnmatched(a[1..], b, key, value);
      assert s[0] == a[0];
      assert [a[0]] + a[1..] == a;
    }
  }

  /** Dropping the first character keeps the positions before `b` unmatched. */
  lemma UnmatchedTail(a: string, b: string, key: string)
    requires |a| > 0
    requires forall i :: 0 <= i < |a| ==> !MatchesAt(a + b, i, key)
    ensures (a + b)[1..] == a[1..] + b
    ensures forall i :: 0 <= i < |a[1..]| ==> !MatchesAt(a[1..] + b, i, key)
  {
    var s := a + b;
    assert s[1..] == a[1..] + b;
    forall i | 0 <= i < |a[1..]|
      ensures !MatchesAt(a[1..] + b, i, key)
    {
      assert !MatchesAt(s, i + 1, key);
      if i + |key| <= |a[1..] + b| {
        TailSlice(s, i + 1, |key|);
      }
    }
  }

  /** A placeholder never matches inside text that holds no `{`. */
  lemma NoBraceNeverMatches(a: string, b: string, key: string)
    requires NoBrace(a) && IsKey(key)
    ensures forall i :: 0 <= i < |a| ==> !MatchesAt(a + b, i, key)
  {
    forall i | 0 <= i < |a|
      ensures !MatchesAt(a + b, i, key)
    {
      if i + |key| <= |a + b| {
        var w := Lower((a + b)[i..i + |key|]);
        assert w[0] == LowerChar(a[i]) != key[0];
      }
    }
  }

  /** A placeholder of another spelling matches at none of the positions of `t`. */
  lemma OtherPlaceholderNeverMatches(t: string, b: string, key: string)
    requires PlaceholderShaped(t) && IsKey(key) && Lower(t) != key
    ensures forall i :: 0 <= i < |t| ==> !MatchesAt(t + b, i, key)
  {
    var s := t + b;
    forall i | 0 <= i < |t|
      ensures !MatchesAt(s, i, key)
    {
      if i + |key| <= |s| {
        var w := Lower(s[i..i + |key|]);
        if i == 0 {
          if |key| == |t| {
            assert s[0..|key|] == t;
          } else if |key| < |t| {
            var j := |key| - 2;
            assert IsLetter(t[j]);
            assert w[j] == LowerChar(t[j]) != key[j];
          } else {
            var j := |t| - 2;
            assert IsLowerLetter(key[j]);
            assert w[j] == LowerChar(t[j]) != key[j];
          }
        } else if i == 1 {
          assert IsLetter(t[2]);
          assert w[1] == LowerChar(t[2]) != key[1];
        } else {
          assert t[i] != '{';
          assert w[0] == LowerChar(t[i]) != key[0];
        }
      }
    }
  }

  function SubstitutePiece(p: Piece, key: string, value: string): Piece
  {
    match p
    case Text(_) => p
    case Placeholder(t) => if Lower(t) == key then Text(value) else p
  }

  /** The pieces after one replace call: placeholders spelled like `key` become text. */
  function Substitute(ps: seq<Piece>, key: string, value: string): (r: seq<Piece>)
    ensures |r| == |ps|
    decreases |ps|
  {
    if |ps| == 0 then [] else [SubstitutePiece(ps[0], key, value)] + Substitute(ps[1..], key, value)
  }

  /** One replace call, on a well-formed template, substitutes exactly the placeholders
      spelled (in any case) like its key, and keeps the template well-formed. */
  lemma {:induction false} ReplaceAllSubstitutes(ps: seq<Piece>, key: string, value: string)
    requires WellFormed(ps) && IsKey(key) && NoBrace(value)
    ensures ReplaceAll(Flatten(ps), key, value) == Flatten(Substitute(ps, key, value))
    ensures WellFormed(Substitute(ps, key, value))
    decreases |ps|
  {
    if |ps| > 0 {
      var p, rest := ps[0], ps[1..];
      assert WellFormedPiece(p);
      assert WellFormed(rest) by {
        forall i | 0 <= i < |rest| ensures WellFormedPiece(rest[i]) {
          assert rest[i] == ps[i + 1];
        }
      }
      ReplaceAllSubstitutes(rest, key, value);
      var tail := Flatten(rest);
      var sub := Substitute(ps, key, value);
      assert sub == [SubstitutePiece(p, key, value)] + Substitute(rest, key, value);
      match p {
        case Text(t) =>
          NoBraceNeverMatches(t, tail, key);
          SkipUnmatched(t, tail, key, value);
        case Placeholder(t) =>
          if Lower(t) == key {
            var s := t + tail;
            assert s[..|key|] == t;
            assert MatchesAt(s, 0, key);
            assert s[|key|..] == tail;
          } else {
            OtherPlaceholderNeverMatches(t, tail, key);
            SkipUnmatched(t, tail, key, value);
          }
      }
      assert WellFormed(sub) by {
        forall i | 0 <= i < |sub| ensures WellFormedPiece(sub[i]) {
          if i > 0 {
            assert sub[i] == Substitute(rest, key, value)[i - 1];
          }
        }
      }
    }
  }

  /** Substituting the first binding and resolving with the rest is resolving with all. */
  lemma {:induction false} ResolveAfterSubstitute(ps: seq<Piece>, first: Sub, rest: seq<Sub>)
    ensures Resolve(Substitute(ps, first.key, first.value), rest) == Resolve(ps, [first] + rest)
    decreases |ps|
  {
    if |ps| > 0 {
      ResolveAfterSubstitute(ps[1..], first, rest);
      assert ([first] + rest)[1..] == rest;
    }
  }

  /** With no bindings, every placeholder stays as written. */
  lemma {:induction false} ResolveNothing(ps: seq<Piece>)
    ensures Resolve(ps, []) == Flatten(ps)
    decreases |ps|
  {
    if |ps| > 0 {
      ResolveNothing(ps[1..]);
    }
  }

  /** The replace chain renders a well-formed template exactly as the reference renderer:
      each placeholder, in any letter case, becomes the value of the first binding for its
      lower-case spelling, and a placeholder without binding is left verbatim. */
  lemma {:induction false} RenderResolves(ps: seq<Piece>, subs: seq<Sub>)
    requires WellFormed(ps) && Vocabulary(subs)
    ensures ValidSubs(subs)
    ensures Render(Flatten(ps), subs) == Resolve(ps, subs)
    decreases |subs|
  {
    if |subs| == 0 {
      ResolveNothing(ps);
    } else {
      var first, rest := subs[0], subs[1..];
      assert IsKey(first.key) && NoBrace(first.value);
      ReplaceAllSubstitutes(ps, first.key, first.value);
      assert Vocabulary(rest) by {
        forall i | 0 <= i < |rest| ensures IsKey(rest[i].key) && NoBrace(rest[i].value) {
          assert rest[i] == subs[i + 1];
        }
      }
      RenderResolves(Substitute(ps, first.key, first.value), rest);
      ResolveAfterSubstitute(ps, first, rest);
      assert subs == [first] + rest;
    }
  }

  // ---------------------------------------------------------------------------------
  // Building vocabularies.

  /** One or more lower-case letters: what goes between the braces of a key. */
  predicate IsWord(word: string)
  {
    |word| > 0 && forall i :: 0 <= i < |word| ==> IsLowerLetter(word[i])
  }

  lemma WordKey(word: string)
    requires IsWord(word)
    ensures IsKey("{{" + word + "}}")
  {
    var k := "{{" + word + "}}";
    forall i | 2 <= i < |k| - 2 ensures IsLowerLetter(k[i]) {
      assert k[i] == word[i - 2];
    }
  }

  /** A key is its own lower-case spelling. */
  lemma KeyPieceWellFormed(word: string)
    requires IsWord(word)
    ensures WellFormedPiece(Placeholder(Key(word)))
  {
    WordKey(word);
  }

  lemma LowerOfKey(k: string)
    requires IsKey(k)
    ensures Lower(k) == k
  {
    forall i | 0 <= i < |k| ensures !IsUpperLetter(k[i]) {
      if 2 <= i < |k| - 2 {
        assert IsLowerLetter(k[i]);
      }
    }
    LowerOfLowercase(k);
  }

  /** A placeholder spelled like a bound key, in lower case, resolves to its value. */
  lemma ResolveBoundKey(subs: seq<Sub>, k: string)
    requires Vocabulary(subs) && Lookup(subs, k).Some?
    ensures ResolvePiece(Placeholder(k), subs) == Lookup(subs, k).value
  {
    var i :| 0 <= i < |subs| && subs[i].key == k;
    LowerOfKey(subs[i].key);
  }

  /** A group of synonyms bound to a value free of `{` is a vocabulary. */
  lemma SynonymsVocabulary(words: seq<string>, value: string)
    requires forall i :: 0 <= i < |words| ==> IsWord(words[i])
    requires NoBrace(value)
    ensures Vocabulary(Synonyms(words, value))
  {
    var subs := Synonyms(words, value);
    forall i | 0 <= i < |subs| ensures IsKey(subs[i].key) {
      WordKey(words[i]);
    }
  }

  lemma PairVocabulary(w1: string, w2: string, value: string)
    requires IsWord(w1) && IsWord(w2) && NoBrace(value)
    ensures Vocabulary(Synonyms([w1, w2], value))
  {
    SynonymsVocabulary([w1, w2], value);
  }

  lemma NoBraceConcat(a: string, b: string)
    requires NoBrace(a) && NoBrace(b)
    ensures NoBrace(a + b)
  {
    forall i | 0 <= i < |a + b| ensures (a + b)[i] != '{' {
      if i >= |a| {
        assert (a + b)[i] == b[i - |a|];
      }
    }
  }

  lemma VocabularyConcat(a: seq<Sub>, b: seq<Sub>)
    requires Vocabulary(a) && Vocabulary(b)
    ensures Vocabulary(a + b)
  {
    forall i | 0 <= i < |a + b| ensures IsKey((a + b)[i].key) && NoBrace((a + b)[i].value) {
      if i >= |a| {
        assert (a + b)[i] == b[i - |a|];
      }
    }
  }

  /** The first binding for a key in `a + b` is the first in `a`, if any, else the first
      in `b`. */
  lemma {:induction false} LookupConcat(a: seq<Sub>, b: seq<Sub>, key: string)
    ensures Lookup(a + b, key) == if Lookup(a, key).Some? then Lookup(a, key) else Lookup(b, key)
    decreases |a|
  {
    if |a| == 0 {
      assert a + b == b;
    } else {
      assert (a + b)[1..] == a[1..] + b;
      LookupConcat(a[1..], b, key);
    }
  }

  /** A template read piece by piece is the concatenation of the pieces' texts. */
  lemma {:induction false} FlattenParts(ps: seq<Piece>, parts: seq<string>)
    requires |ps| == |parts|
    requires forall k :: 0 <= k < |ps| ==> Show(ps[k]) == parts[k]
    ensures Flatten(ps) == Concat(parts)
    decreases |ps|
  {
    if |ps| > 0 {
      FlattenParts(ps[1..], parts[1..]);
    }
  }

  /** The reference rendering is the concatenation of the pieces' renderings. */
  lemma {:induction false} ResolveParts(ps: seq<Piece>, subs: seq<Sub>, parts: seq<string>)
    requires |ps| == |parts|
    requires forall k :: 0 <= k < |ps| ==> ResolvePiece(ps[k], subs) == parts[k]
    ensures Resolve(ps, subs) == Concat(parts)
    decreases |ps|
  {
    if |ps| > 0 {
      ResolveParts(ps[1..], subs, parts[1..]);
    }
  }
}
